=== FILE: README.md ===
# A verified model of benchalot / benchmarker

Benchalot (and its predecessor, benchmarker) is a command-line benchmark
runner. A YAML configuration names a matrix of variables, the commands
of each phase of a benchmark (setup, prepare, the measured stages,
conclude, cleanup), the metrics to gather and the outputs to produce.
The tool expands the matrix into variable combinations and interpolates
them into the commands (`{{var}}`, `{{var.field}}`, or `$matrix.var` in the
older scripts). It then runs every combination a given number of times
and collects one row per (sample, metric, stage) into a column-oriented
result table.

This project models that core in Dafny and proves its properties:

- **Combinations.** The matrix expansion gives exactly the assignments
  that take one value per variable, in the order of `itertools.product`
  (`combinations.dfy`).
- **Interpolation** (`interpolate.dfy`):
  - The scanner agrees with the `{{([a-zA-Z0-9_\-.]+)}}` regular
    expression, and its pieces spell out the template.
  - Text without references is unchanged.
  - Plain and dotted references resolve as `str(vars[a])` and
    `str(vars[a][b])`. A missing variable is an error (the source exits).
- **`$matrix.` substitution** (`matrix_substitution.dfy`).
  - `str.replace` replaces the leftmost, non-overlapping occurrences.
  - Substitution runs one variable after the other. A variable whose name
    is a prefix of another's captures that variable's placeholder.
- **Preparation** of benchmarks in the three generations of the code
  (`legacy_preparation.dfy`, `benchmarker_prepare.dfy`,
  `benchalot_prepare.dfy`, with the shared helpers in
  `prepare_common.dfy`):
  - exclusion and inclusion of combinations;
  - the `cset` prefix for isolated CPUs;
  - the time-stamp column;
  - the conversion of multi-line command strings.
- **Configuration rules** of `src/benchmarker/config.py` and
  `src/benchmarker/validation.py`: defaults, bounds, reserved names,
  metric and column checks, and the csv output that must exist
  (`benchmarker_config.dfy`, `benchmarker_validation.dfy`).
- **Configuration splitting** of `generate_config_files`, and the command
  line that combines the parts (`config_split.dfy`).
- **Execution** (`benchalot_execute.dfy`, `benchmarker_execute.dfy`,
  `custom_metric.dfy`, `execute_common.dfy`):
  - the command loops of a section and a stage;
  - what a failed benchmark still runs;
  - the per-stage sums, outputs and peaks of the built-in metrics;
  - custom metrics, including `splitlines` and the CSV case;
  - the order in which results are reported;
  - the flattening of dict-valued variables with an explicit stack;
  - the table rows: every column of the result table stays as long as
    the id column.
- **Terminal output** of the two `FastConsole` classes and the progress
  `Bar` (`benchalot_log.dfy`, `benchmarker_log.dfy`, `streams.dfy`):
  - buffering never loses or reorders text;
  - the cursor bookkeeping decides which escape sequences are written.
- **`main.c`**, the sample benchmark program (`delay.dfy`): `atoi`,
  the table of durations and C's truncating division. Its undefined
  behaviour is made explicit.

Subprocesses are not run. A command's outcome (exit code, elapsed, user
and system time, peak resident set size, standard output and error) comes
from a `World`, a function from the number of commands launched so far to
that outcome. `float()` is the parameter `toFloat`. Every model also keeps
a log of the commands it launched, so a contract can say what ran, in
which order.

## Model

| member | source | states |
|---|---|---|
| Common.MapAll | src/benchmarker/preparation.py:47-62 | Each element is mapped in order; on success there is one result per element, and a failure is the first failing element's error. |
| Common.MapAllSucceeds | src/benchmarker/preparation.py:47-62 | When every step succeeds, the results are collected in order. |
| Common.NatToString | src/benchmarker/interpolate.py:42 | `str(n)` is a non-empty run of decimal digits, one digit exactly for n < 10. |
| Common.NatToStringRoundTrip | src/benchmarker/interpolate.py:42 | Reading back the digits of `str(n)` gives n. |
| Common.NatToStringInjective | src/benchmarker/preparation.py:39-40 | Distinct numbers give distinct strings. |
| Common.IntToString | src/benchmarker/interpolate.py:41-42 | `str(n)` is the digits of n when n is not negative, and otherwise a minus sign followed by the digits of its magnitude. |
| Common.Show | src/benchmarker/interpolate.py:41-42 | `str(v)` is the string itself for strings, and the decimal form for integers. |
| Common.Get | src/benchmarker/interpolate.py:42 | A lookup finds the value of the first entry with that key, and fails exactly when the key is absent. |
| Common.Put | src/benchalot/prepare.py:146 | Assigning to an existing key keeps its position; a new key goes last. |
| Common.PutKeepsUnique | src/benchalot/prepare.py:144-148 | After an assignment the keys stay distinct, the key holds the new value and every other key keeps its own. |
| Common.Without | src/benchmarker/main.py:238 | The dict comprehension keeps exactly the entries whose key differs from the one filtered out. |
| Common.WithoutGet | src/benchmarker/main.py:238 | After filtering, the removed key is gone and every other key keeps its value. |
| Common.WithoutKeepsUnique | src/benchmarker/main.py:238 | Filtering keeps the keys distinct. |
| Common.Update | src/benchalot/prepare.py:139 | definition, no contract; its properties are Common.UpdateKeepsKeys and Common.UpdateAppends. |
| Common.UpdateKeepsKeys | src/benchalot/prepare.py:139 | `d.update(e)` keeps every key of d in its place. |
| Common.UpdateAppends | src/benchalot/prepare.py:138-140 | Updating with entries whose keys are all new appends them in order. |
| Common.Split | src/main.py:20 | `s.split(c)` always returns at least one piece. |
| Common.Join | src/benchalot/log.py:76 | definition, no contract; its properties are Common.SplitJoin and Common.JoinSplit, which make it the inverse of Common.Split. |
| Common.SplitJoin | src/main.py:20 | Joining the pieces with the separator gives the string back. There is one more piece than separators, and no piece contains the separator. |
| Common.JoinSplit | src/main.py:20 | Splitting parts joined with a separator that none of them contains gives the parts back. |
| Common.SplitNoSeparator | src/benchalot/prepare.py:102 | A string without the separator splits into itself alone. |
| Common.PyEq | src/benchalot/prepare.py:72 | definition, no contract; its properties are Common.PyEqReflexive, Common.IntEqualsIntegralFloat and Common.DictOrderIgnored. |
| Common.PyEqReflexive | src/benchalot/prepare.py:72 | Under Python's `==` every value YAML loads (no repeated keys) equals itself. |
| Common.IntegralFloatOfInt | src/benchalot/prepare.py:72 | `str()` of an integral float, such as `1.0` or `-3.0`, reads back as its integer. |
| Common.IntEqualsIntegralFloat | src/benchalot/prepare.py:72 | An integer and the float of the same value are equal both ways round under `==`, although they are different values. |
| Common.DictOrderIgnored | src/benchalot/prepare.py:72 | Two dicts with the same items in a different order are equal under `==`. |
| VariableMatrix.Product | src/benchmarker/utils.py:11 | definition, no contract; its properties are VariableMatrix.Combinations, which gives one combination per element of the product. |
| VariableMatrix.Combinations | src/main.py:8-11 | There is one combination per element of the product of the value lists. |
| VariableMatrix.CombinationAt | src/benchmarker/interpolate.py:9-17 | The combinations follow `itertools.product` order: the first variable varies slowest. |
| VariableMatrix.CombinationsExactly | src/benchmarker/utils.py:4-12 | An assignment is a combination exactly when it gives each variable, in matrix order, one of its values. |
| VariableMatrix.EmptyMatrixCombinations | src/preparation.py:4-7 | An empty matrix yields one empty combination. |
| VariableMatrix.Extend | src/benchmarker/utils.py:11-12 | Definition; its own contract states only the length, one result per value per later assignment. Its other properties are VariableMatrix.ExtendAt and VariableMatrix.ExtendMember. |
| VariableMatrix.ExtendAt | src/benchmarker/preparation.py:15-18 | Within one variable's values, each value is followed by every assignment of the later variables. |
| VariableMatrix.ExtendMember | src/benchmarker/preparation.py:15-18 | An assignment belongs to one step of the expansion exactly when its head is that variable with one of its values and its tail is a later assignment. |
| Interpolate.NameRun | src/benchmarker/interpolate.py:6 | The run of name characters is maximal: every character in it is allowed and the next one is not. |
| Interpolate.MatchLengthIsRegex | src/benchmarker/interpolate.py:6 | The scanner reports a match of length n exactly when the regular expression matches with n captured characters. |
| Interpolate.ScanNames | src/benchmarker/interpolate.py:6 | Every reference found has a name made only of the allowed characters. |
| Interpolate.ScanSource | src/benchmarker/interpolate.py:47 | The scanned pieces spell out the template; nothing is lost or invented. |
| Interpolate.MatchSpelled | src/benchmarker/interpolate.py:6 | A match consists of `{{`, the captured name and `}}`. |
| Interpolate.RefNames | src/benchmarker/validation.py:160 | `findall` returns exactly the names of the references in the template. |
| Interpolate.ScanLiteralPrefix | src/benchmarker/interpolate.py:47 | Text without `{` scans as literal characters and leaves the rest of the template's scan unchanged. |
| Interpolate.ScanReference | src/benchmarker/interpolate.py:47 | A well-formed `{{name}}` at the front scans as one reference. |
| Interpolate.Resolve | src/benchmarker/interpolate.py:31-45 | definition, no contract; its properties are Interpolate.PlainName and Interpolate.CompoundName. |
| Interpolate.Render | src/benchmarker/interpolate.py:47 | definition, no contract; its properties are Interpolate.RenderAppend and Interpolate.SingleReference. |
| Interpolate.InterpolateVariables | src/benchmarker/interpolate.py:20-47 | definition, no contract; its properties are Interpolate.TextWithoutReferences, Interpolate.SingleReference, Interpolate.LiteralPrefix, Interpolate.PlainName and Interpolate.CompoundName. |
| Interpolate.RenderAppend | src/benchmarker/interpolate.py:47 | Rendering is piecewise: the output of a concatenation is the concatenation of the outputs, and the first failure wins. |
| Interpolate.TextWithoutReferences | src/benchmarker/interpolate.py:47 | A template without `{` is returned unchanged. |
| Interpolate.SingleReference | src/benchmarker/interpolate.py:31-47 | `p{{n}}q` becomes p, the value of n, then q. The value is pasted as it is, never re-scanned, and an unresolved name is an error. |
| Interpolate.PlainName | src/benchmarker/interpolate.py:40-45 | A dot-free name renders as `str(vars[name])`; a missing variable is an error. |
| Interpolate.CompoundName | src/benchmarker/interpolate.py:33-39 | `a.b` renders as `str(vars[a][b])`. A missing variable or field is an error, and so is a variable that is not a dict. |
| Interpolate.LiteralPrefix | src/benchmarker/interpolate.py:47 | Leading text without `{` is copied through, and the rest is interpolated as if it stood alone. |
| MatrixSubstitution.ReplaceAll | src/benchmarker/preparation.py:24 | definition, no contract; its properties are MatrixSubstitution.ReplaceAbsent, MatrixSubstitution.ReplaceBySelf and MatrixSubstitution.ReplaceLeftmost. |
| MatrixSubstitution.ReplaceAbsent | src/preparation.py:13 | `str.replace` of a pattern that does not occur returns the text unchanged. |
| MatrixSubstitution.ReplaceBySelf | src/preparation.py:13 | Replacing a pattern by itself changes nothing. |
| MatrixSubstitution.ReplaceLeftmost | src/benchmarker/preparation.py:24 | The leftmost occurrence is replaced, the text before it is kept and the search resumes after it, so occurrences never overlap. |
| MatrixSubstitution.Substitute | src/benchmarker/preparation.py:22-25 | definition, no contract; its properties are MatrixSubstitution.SubstituteCommand, MatrixSubstitution.SubstituteWithoutMarker and MatrixSubstitution.PrefixNameCaptures. |
| MatrixSubstitution.SubstituteCommand | src/preparation.py:11-14 | The command after one `replace` per variable, in combination order. |
| MatrixSubstitution.SubstituteWithoutMarker | src/benchmarker/preparation.py:22-25 | A command without `$matrix.` is left as it is. |
| MatrixSubstitution.PrefixNameCaptures | src/preparation.py:12-13 | Substitution is sequential: with variables `a` and `ab`, `$matrix.ab` becomes `1b`. |
| MatrixSubstitution.SubstituteAll | src/benchmarker/preparation.py:21-30 | Each command is substituted, keeping count and order. |
| MatrixSubstitution.PrepareCommands | src/preparation.py:10-19 | The loop returns one substituted command per input, in order. |
| MatrixSubstitution.CommandWords | src/main.py:17-21 | The words are the substituted command split on single spaces: joining them with a space gives it back, there is one more word than spaces, and no word holds a space. |
| LegacyPreparation.SubstituteSection | src/preparation.py:32-42 | An optional section is substituted exactly when it is present. |
| LegacyPreparation.PrepareRunBenchmarks | src/preparation.py:22-44 | Without a matrix, the run section itself is the one benchmark and gains an empty matrix. With a matrix, there is one fresh benchmark per combination, in product order, whose sections are substituted. |
| LegacyPreparation.StepNamesDistinct | src/benchmarker/preparation.py:39-40 | Different indices give different `step_<i>` names. |
| LegacyPreparation.NameBenchmarkSteps | src/benchmarker/preparation.py:33-41 | A dict is returned as it is. A list becomes one stage per command, named `step_<i>` in order, with distinct names. |
| LegacyPreparation.GathererFor | src/benchmarker/preparation.py:48-62 | `time`, `stdout` and `stderr` pick the built-in gatherers. A custom metric uses its first entry's command and name. Any other string, or an empty dict, fails. |
| LegacyPreparation.MetricGatherers | src/benchmarker/preparation.py:47-62 | There is one gatherer per metric, in order, or the first entry that cannot be dispatched. |
| LegacyPreparation.BuiltInMetricsAccepted | src/benchmarker/preparation.py:48-54 | A list of built-in metric names is always accepted, one gatherer per name. |
| LegacyPreparation.RunConfig.Isolate | src/benchmarker/preparation.py:63-65 | Every benchmark command gets the `cset` prefix in place; nothing else changes. |
| LegacyPreparation.PreparedRuns | src/benchmarker/preparation.py:66-88 | An empty matrix gives one run with the sections as they are. A matrix with combinations fails whenever the benchmark list is non-empty: line 85 indexes the list with its first command, a TypeError raised before line 84 looks up the missing `benchmark` entry. A successful matrix run holds one run per combination, in product order. |
| LegacyPreparation.PrepareBenchmarks | src/benchmarker/preparation.py:44-91 | The metrics are dispatched first: a bad entry fails with nothing changed. Otherwise the commands are prefixed when CPUs are isolated, and the result is PreparedRuns. |
| LegacyPreparation.PrepareMatrixRuns | src/benchmarker/preparation.py:73-88 | The loop over combinations computes PreparedRuns. |
| PrepareCommon.Prefixed | src/benchmarker/prepare.py:121-125 | Every command gets the `cset shield --exec -- ` prefix; count and order are kept. |
| PrepareCommon.IsolateStages | src/benchalot/prepare.py:122-126 | Every stage keeps its name and position and its commands are prefixed. |
| PrepareCommon.StageTable.Isolate | src/benchmarker/prepare.py:121-125 | The in-place loop leaves the stage table equal to IsolateStages of the old one. |
| PrepareCommon.InterpolateCommands | src/benchalot/prepare.py:43-55 | There is one interpolated command per input, in order; the first unresolvable reference is the result. |
| PrepareCommon.InterpolateStages | src/benchmarker/prepare.py:149-151 | Every stage keeps its name and has its commands interpolated. |
| PrepareCommon.InterpolateStageCommands | src/benchalot/prepare.py:144-148 | The stage loop computes InterpolateStages. |
| PrepareCommon.Matches | src/benchalot/prepare.py:72 | definition, no contract; its properties are PrepareCommon.ContainedMatches and PrepareCommon.FloatExclusionMatchesInt, and PrepareCommon.Excluded states the exclusion in its terms. |
| PrepareCommon.Excluded | src/benchalot/prepare.py:58-74 | A combination is excluded exactly when some exclusion's items are all among its items, the values compared with Python's `==`. |
| PrepareCommon.ContainedMatches | src/benchmarker/prepare.py:63-65 | An exclusion whose entries are literally in the combination matches it. |
| PrepareCommon.FloatExclusionMatchesInt | src/benchmarker/prepare.py:63-65 | The exclusion `{x: 1.0}` excludes the combination `{x: 1}`. |
| PrepareCommon.CustomMetric | src/benchmarker/prepare.py:83-88 | The entry is the metric's first name and command. The command is interpolated only when there are variables, and an empty metric fails (the IndexError of line 84). |
| PrepareCommon.ProcessCustomMetrics | src/benchalot/prepare.py:77-97 | There is one entry per metric, in order, keeping each metric's name. Without variables the commands are unchanged. |
| PrepareCommon.IsolatedStaysPrefixed | src/benchalot/prepare.py:122-148 | Interpolating a prefixed command gives the prefix followed by the interpolated command. |
| PrepareCommon.Kept | src/benchmarker/prepare.py:144-146 | A combination is kept exactly when it is a candidate that is not skipped; there are never more kept than candidates. |
| PrepareCommon.PrepareEach | src/benchmarker/prepare.py:144-165 | definition, no contract; its properties are PrepareCommon.PrepareEachFrom and PrepareCommon.PrepareEachFollowsKept. |
| PrepareCommon.PrepareEachFrom | src/benchalot/prepare.py:132-181 | One step of the loop: a skipped candidate adds nothing, a failing one ends the loop with its error, and a prepared one is appended. |
| PrepareCommon.PrepareEachFollowsKept | src/benchmarker/prepare.py:144-165 | A successful loop holds one prepared benchmark per kept candidate, in candidate order. |
| PrepareCommon.KeptAll | src/benchmarker/prepare.py:144-146 | Without anything skipped, every candidate is kept. |
| BenchmarkerPrepare.PrepareOne | src/benchmarker/prepare.py:147-164 | The benchmark keeps the combination and the stage names, and keeps the number of commands of every section and custom metric. |
| BenchmarkerPrepare.PrepareCombination | src/benchmarker/prepare.py:147-165 | The statement-by-statement preparation computes PrepareOne. |
| BenchmarkerPrepare.PreparedBenchmarks | src/benchmarker/prepare.py:92-167 | definition, no contract; its properties are BenchmarkerPrepare.MatrixBenchmarks, BenchmarkerPrepare.BenchmarkCountWithoutExclusions and BenchmarkerPrepare.EmptyMatrixBenchmark; BenchmarkerPrepare.PrepareBenchmarks computes it. |
| BenchmarkerPrepare.PrepareBenchmarks | src/benchmarker/prepare.py:92-167 | The caller's stage table is prefixed in place when CPUs are isolated, and the result is the prepared list. |
| BenchmarkerPrepare.PrepareCandidates | src/benchmarker/prepare.py:144-165 | The loop prepares the candidates in order and skips excluded ones. |
| BenchmarkerPrepare.MatrixBenchmarks | src/benchmarker/prepare.py:141-165 | With a matrix, the benchmarks are for the product combinations and then the `include` entries, excluding the excluded ones, in that order. Each keeps the stage names and section sizes. |
| BenchmarkerPrepare.BenchmarkCountWithoutExclusions | src/benchmarker/prepare.py:143-165 | Without exclusions there is one benchmark per combination plus one per `include` entry. |
| BenchmarkerPrepare.EmptyMatrixBenchmark | src/benchmarker/prepare.py:128-140 | Without a matrix there is exactly one benchmark. It has an empty combination, every section as written, and each custom metric's first entry. |
| BenchalotPrepare.NonEmpty | src/benchalot/prepare.py:102 | The comprehension keeps exactly the non-empty lines. |
| BenchalotPrepare.ConvertToList | src/benchalot/prepare.py:100-104 | A list is kept. A string becomes its non-empty newline-separated pieces, none holding a newline. |
| BenchalotPrepare.ConvertTextWithoutEmptyLines | src/benchalot/prepare.py:100-104 | A text without empty lines converts to its lines, and joining them with newlines gives the text back. |
| BenchalotPrepare.BaseStages | src/benchalot/prepare.py:115-126 | The base stages keep the configured stage names in order. |
| BenchalotPrepare.Stamped | src/benchalot/prepare.py:138-140 | The time-stamp column comes first in every prepared combination. |
| BenchalotPrepare.StampedPutsTimeStampFirst | src/benchalot/prepare.py:138-140 | A combination with distinct names that lacks the time-stamp column follows the time stamp unchanged. |
| BenchalotPrepare.InterpolateEnv | src/benchalot/prepare.py:153-155 | Every environment variable keeps its name and has its value interpolated. |
| BenchalotPrepare.InterpolateIfSet | src/benchalot/prepare.py:158-167 | `cwd` and `save_output` are interpolated only when set and non-empty. |
| BenchalotPrepare.PrepareOne | src/benchalot/prepare.py:138-180 | The benchmark's matrix is the stamped combination. It keeps the stage and environment names, and its stages are the interpolated base stages. |
| BenchalotPrepare.InterpolateEnvironment | src/benchalot/prepare.py:153-157 | The loop over the copied environment computes InterpolateEnv. |
| BenchalotPrepare.PrepareCombination | src/benchalot/prepare.py:138-181 | The statement-by-statement preparation computes PrepareOne. |
| BenchalotPrepare.PreparedBenchmarks | src/benchalot/prepare.py:107-183 | definition, no contract; its properties are BenchalotPrepare.PreparedFollowCandidates and BenchalotPrepare.EmptyCombinationSkipped; BenchalotPrepare.PrepareBenchmarks computes it. |
| BenchalotPrepare.PrepareBenchmarks | src/benchalot/prepare.py:107-183 | `prepare_benchmarks` computes the prepared list from the configuration. |
| BenchalotPrepare.PrepareCandidates | src/benchalot/prepare.py:132-181 | The loop prepares the candidates in order and skips the empty combination and excluded ones. |
| BenchalotPrepare.StampAll | src/benchalot/prepare.py:138-140 | Every combination is stamped, in order. |
| BenchalotPrepare.PreparedFollowCandidates | src/benchalot/prepare.py:130-181 | The prepared matrices are the stamped kept candidates, in order. Each benchmark has the time stamp first and the configured stage and environment names. |
| BenchalotPrepare.EmptyCombinationSkipped | src/benchalot/prepare.py:133-134 | With more than one candidate, the empty combination yields no benchmark. |
| BenchalotPrepare.IsolatedCommandsPrefixed | src/benchalot/prepare.py:122-148 | With isolated CPUs, every measured command is the `cset` prefix followed by the interpolated configured command. |
| BenchmarkerConfig.Modify | src/benchmarker/config.py:51-62 | The system needs no change exactly when every switch is off and the CPU list is absent or empty. |
| BenchmarkerConfig.NameStages | src/benchmarker/config.py:231-237 | A command list becomes the single stage with the default name; named stages are kept. |
| BenchmarkerConfig.NameStagesIdempotent | src/benchmarker/validation.py:90-96 | Naming already-named stages changes nothing. |
| BenchmarkerConfig.EnvValue | src/benchmarker/config.py:250-251 | Integers, floats and booleans become their `str()`; other values are kept. |
| BenchmarkerConfig.EnvValuesToStr | src/benchmarker/config.py:246-252 | Every key is kept in place, every value converted, and no numeric value remains. |
| BenchmarkerConfig.EnvValueIdempotent | src/benchmarker/validation.py:115-121 | Converting twice is converting once. |
| BenchmarkerConfig.Bounded | src/benchmarker/config.py:130-132 | A missing value is the default. A given one is accepted exactly when it reaches the bound. |
| BenchmarkerConfig.PlotDimensions | src/benchmarker/config.py:130-132 | Width and height are at least 1 and dpi at least 50, with defaults 10, 9 and 100. Out-of-bounds values fail. |
| BenchmarkerConfig.TableStats | src/benchmarker/config.py:173-177 | The default is min, median, max. Given statistics are accepted exactly when all are allowed names. |
| BenchmarkerConfig.WithDefaultCsvProperties | src/benchmarker/config.py:269-281 | After the rule there is a csv output. A section that had one is unchanged; otherwise `default-csv` is added last. |
| BenchmarkerConfig.WithDefaultCsvIdempotent | src/benchmarker/config.py:269-281 | Applying the rule twice is applying it once. |
| BenchmarkerConfig.ReservedVariable | src/benchmarker/config.py:260-267 | Nothing is reported exactly when no matrix variable is a constant column; a reported name is one. |
| BenchmarkerConfig.NotReservedKeyword | src/benchmarker/config.py:260-267 | The matrix is accepted unchanged exactly when no variable is a reserved column, and otherwise the first reserved name is reported. |
| BenchmarkerConfig.ConfigFile.SetTimeAsDefault | src/benchmarker/config.py:254-258 | With no metric at all, time is measured; otherwise the metrics stay. Nothing else changes. |
| BenchmarkerConfig.ConfigFile.AtLeastOneCsv | src/benchmarker/config.py:269-281 | The output section becomes the csv-completed one, and nothing else changes. |
| BenchmarkerValidation.ValidMetric | src/benchmarker/validation.py:105-113 | The metrics pass exactly when no string metric is unknown; otherwise the first unknown one is reported. |
| BenchmarkerValidation.ValidMetricsDispatch | src/benchmarker/preparation.py:47-62 | Valid metrics with non-empty custom entries are all dispatched to a gatherer, one per metric. |
| BenchmarkerValidation.MetricNames | src/benchmarker/validation.py:174-179 | The collected names are exactly the metrics' names (a string, or the first key of a dict); a metric without a name is an error. |
| BenchmarkerValidation.CheckColumn | src/benchmarker/validation.py:277-289 | An option passes exactly when it is absent, a matrix variable or a displayable column. |
| BenchmarkerValidation.CheckColumns | src/benchmarker/validation.py:271-272 | A list of columns passes exactly when every one would exist. |
| BenchmarkerValidation.CheckTemplateReferences | src/benchmarker/validation.py:160-162 | A template passes exactly when every reference in it names a variable or a displayable column. |
| BenchmarkerValidation.DefaultMetric | src/benchmarker/validation.py:144-149 | A given metric is kept. A missing one needs exactly one run metric, or it fails. |
| BenchmarkerValidation.DefaultsProperties | src/benchmarker/validation.py:137-149 | After the defaults, non-csv outputs have a metric, tables have columns, and a defaulted metric is a run metric's name. Applying the defaults again changes nothing. |
| BenchmarkerValidation.OutputField.ApplyDefaultValues | src/benchmarker/validation.py:255-266 | The new fields are the defaults of the old ones; a failure leaves the output untouched. |
| BenchmarkerValidation.OutputField.CheckOptionsExist | src/benchmarker/validation.py:151-162 | Success means the filename's references exist, a bar chart's facet, x axis and color exist, and a table's columns and pivot references exist. |
| BenchmarkerValidation.OutputField.CheckMetricExists | src/benchmarker/validation.py:164-181 | A csv output always passes; any other passes exactly when its metric is a run metric's name. |
| BenchmarkerValidation.AtLeastOneCsv | src/benchmarker/validation.py:310-324 | The outputs pass exactly when one of them is csv. |
| BenchmarkerValidation.ApplyAllDefaults | src/benchmarker/validation.py:326-332 | On success every output holds its defaults; a failure is some output's default error. |
| BenchmarkerValidation.CheckOutputVars | src/benchmarker/validation.py:334-340 | The outputs pass exactly when each output's options exist. |
| BenchmarkerValidation.CheckOutputMetrics | src/benchmarker/validation.py:342-348 | The outputs pass exactly when each output's metric exists. |
| BenchmarkerValidation.ValidateOutputs | src/benchmarker/validation.py:292-348 | A validated configuration has valid metrics and a csv output. Every other output has a metric among the run metrics, and every option exists. |
| ConfigSplit.SplitMatrix | src/benchmarker/main.py:233-246 | definition, no contract; its properties are ConfigSplit.SplitMatrixShape, ConfigSplit.SplitAlongNothing, ConfigSplit.FirstSplitVariesFastest and ConfigSplit.SplitCountWithout. |
| ConfigSplit.Expand | src/benchmarker/main.py:240-246 | There is one copy of each matrix per value. |
| ConfigSplit.ExpandAt | src/benchmarker/main.py:240-246 | The copy of matrix i for value j sits at `i * |values| + j`. |
| ConfigSplit.ExpandMember | src/benchmarker/main.py:240-246 | Every result is one matrix pinned to one value. |
| ConfigSplit.SplitCountWithout | src/benchmarker/main.py:237-239 | Dropping a variable not split along keeps the number of parts. |
| ConfigSplit.SplitMatrixShape | src/benchmarker/main.py:233-246 | Splitting along distinct matrix variables gives one matrix per combination of their values, each with those variables pinned. |
| ConfigSplit.ExpandedResults | src/benchmarker/main.py:240-246 | Pinning the next variable in each inner result gives results of the outer split. |
| ConfigSplit.PinnedResult | src/benchmarker/main.py:243-244 | A pinned inner result is a result of the outer split. |
| ConfigSplit.SplitAlongNothing | src/benchmarker/main.py:234-235 | Splitting along nothing gives the matrix alone. |
| ConfigSplit.FirstSplitVariesFastest | src/benchmarker/main.py:236-246 | The first variable split along varies fastest across the parts. |
| ConfigSplit.MissingVariable | src/benchmarker/main.py:248-251 | Nothing is reported exactly when every split variable is in the matrix; otherwise the first missing one is reported. |
| ConfigSplit.PartOutputsDistinct | src/benchmarker/main.py:261-262 | Different parts write different csv files. |
| ConfigSplit.PartOutputs | src/benchmarker/main.py:258-262 | Part i writes `<config>.part<i>.csv`. |
| ConfigSplit.CombineCommand | src/benchmarker/main.py:256-272 | definition, no contract; its properties are ConfigSplit.CombineCommandJoins and ConfigSplit.CombineCommandWords. |
| ConfigSplit.CombineCommandJoins | src/benchmarker/main.py:256-272 | The command is `benchmarker <config> -u`, then every part's csv file in order, separated by single spaces. |
| ConfigSplit.CombineCommandWords | src/benchmarker/main.py:256-272 | For a name without spaces, the command's words are exactly those pieces. |
| ConfigSplit.PartOutputWithoutSpace | src/benchmarker/main.py:261-262 | A part's file name has a space only if the configuration name does. |
| ConfigSplit.GeneratedParts | src/benchmarker/main.py:248-272 | definition, no contract; its properties are ConfigSplit.GeneratedPartCount, ConfigSplit.PartOutputs and ConfigSplit.MissingVariable; ConfigSplit.GenerateConfigFiles computes it. |
| ConfigSplit.GenerateConfigFiles | src/benchmarker/main.py:248-272 | The method computes the parts and the combining command, or reports the first missing variable. |
| ConfigSplit.GeneratedPartCount | src/benchmarker/main.py:248-262 | With valid split variables, generation succeeds with one part per combination, each a split result. |
| CustomMetric.LineEnd | src/benchalot/execute.py:107 | The first line boundary, before which no boundary occurs. |
| CustomMetric.SplitLines | src/benchalot/execute.py:107 | `splitlines` is empty exactly for the empty text, and no line contains a boundary. |
| CustomMetric.SingleLine | src/benchalot/execute.py:107-109 | A non-empty line, with or without its terminator, is one line. |
| CustomMetric.TerminatorAlone | src/benchalot/execute.py:107 | A terminator alone is one empty line. |
| CustomMetric.LineThenRest | src/benchalot/execute.py:110 | A line ended by a line feed is the first line, followed by the lines of the rest. |
| CustomMetric.TwoLines | src/benchalot/execute.py:110 | A header line and a value line are two lines. |
| CustomMetric.CsvFields | src/benchmarker/execute.py:110-114 | A line has no fields exactly when it is blank. |
| CustomMetric.Record | src/benchalot/execute.py:111-115 | The `DictReader` row has distinct keys, exactly the header names. |
| CustomMetric.RecordGet | src/benchalot/execute.py:113-115 | Under each name is the field of its last occurrence. |
| CustomMetric.RecordKeys | src/benchalot/execute.py:111-115 | With distinct names, the keys are the header in order. |
| CustomMetric.Parsed | src/benchalot/execute.py:118-121 | Every value is converted with `float()`, keys kept. |
| CustomMetric.ClassifyCsv | src/benchalot/execute.py:110-124 | The CSV case keys each header name with its converted field. The metric has failed exactly when a value is missing. A row of the wrong length is an error. |
| CustomMetric.ParsedRecord | src/benchalot/execute.py:116-124 | The parsed row has one key per header name, and in header order with the converted fields when names are distinct. |
| CustomMetric.FeedEnd | src/benchalot/execute.py:111 | The first line feed, before which there is none. |
| CustomMetric.StreamLines | src/benchalot/execute.py:111-112 | The lines a `StringIO` yields are empty exactly for the empty text and hold no line feed. |
| CustomMetric.StreamLinesJoin | src/benchalot/execute.py:111-112 | Joining those lines with line feeds, plus a final one if the text had it, gives the text back. |
| CustomMetric.OneStreamLine | src/benchalot/execute.py:111-112 | Text without a line feed is one line, whatever other boundaries it holds. |
| CustomMetric.StreamLineThenRest | src/benchalot/execute.py:111-112 | A line ended by a line feed is the first line, followed by the lines of the rest. |
| CustomMetric.TrimCr | src/benchalot/execute.py:112-115 | The line without its trailing carriage returns: a prefix, followed only by carriage returns, not ending in one. |
| CustomMetric.CsvRecord | src/benchalot/execute.py:112-115 | A line without a carriage return gives its comma-separated fields. The reader refuses a line exactly when some character other than a carriage return follows a carriage return. |
| CustomMetric.CarriageReturnEnding | src/benchalot/execute.py:112-115 | A trailing carriage return, as in a `\r\n` ending, does not change the record. |
| CustomMetric.Records | src/benchalot/execute.py:112-115 | The records succeed exactly when every line does, one record per line in order. |
| CustomMetric.LastRow | src/benchalot/execute.py:113-115 | The row kept is the last non-blank record, or none when all are blank. |
| CustomMetric.ReadCsv | src/benchalot/execute.py:110-124 | A refused line is an error. With at most one line there is no row, so no value and no failure. With two lines, the first record is the header and the second the row. |
| CustomMetric.Classify | src/benchalot/execute.py:94-128 | One `splitlines` line is the value of the default stage. Two go to the CSV reader, which breaks lines at line feeds only. Anything else is a failed `None`. Failure means a missing value. |
| CustomMetric.OneNumber | src/benchmarker/execute.py:106-108 | A number and a newline give that number for the default stage, failing exactly when it does not parse. |
| CustomMetric.HeaderAndRow | src/benchmarker/execute.py:109-123 | A header line and a value line, each ended by a line feed, key each header name with its converted field. |
| CustomMetric.CrLfSplitLines | src/benchmarker/execute.py:106-109 | Two lines ended by `\r\n` are two lines to `splitlines`. |
| CustomMetric.CrLfThenRest | src/benchmarker/execute.py:106 | A line ended by `\r\n` is the first `splitlines` line, followed by the lines of the rest. |
| CustomMetric.CrLfStreamLines | src/benchmarker/execute.py:110-111 | To the CSV reader they are two lines that keep their carriage returns. |
| CustomMetric.HeaderAndRowCrLf | src/benchmarker/execute.py:109-123 | The same header and value lines ended by `\r\n` read exactly as they do ended by `\n`. |
| CustomMetric.OtherBoundary | src/benchmarker/execute.py:109-123 | Two lines parted by a form feed or another boundary that is not a line feed or carriage return are one header line to the reader: no stage has a value and the metric has not failed. |
| CustomMetric.CarriageReturnInside | src/benchmarker/execute.py:109-114 | A carriage return inside the output, not at a line end, makes the reader refuse it. |
| CustomMetric.MetricCommands | src/benchalot/execute.py:359-362 | The commands of the custom metrics, in order. |
| CustomMetric.Customs | src/benchalot/execute.py:359-366 | Every custom metric's command runs in order, one result each is added, and a failure stays. |
| CustomMetric.GatherCustomMetrics | src/benchmarker/execute.py:239-246 | The loop computes Customs. |
| CustomMetric.CustomsFailed | src/benchalot/execute.py:364-365 | The benchmark has failed afterwards exactly when it had before or a metric lacks a value. |
| ExecuteCommon.CheckReturnCode | src/benchalot/execute.py:47-60 | Only exit code 0 is a success. |
| ExecuteCommon.Filtered | src/benchalot/execute.py:368-383 | The kept metrics are exactly the enabled ones of the order, with distinct labels. |
| ExecuteCommon.EveryMetricReported | src/benchalot/execute.py:368-383 | The reporting order names every built-in metric. |
| ExecuteCommon.Reported | src/benchmarker/execute.py:248-259 | The reported built-ins are exactly the enabled ones, with distinct labels. |
| ExecuteCommon.RecordedKeeps | src/benchalot/execute.py:318-349 | Recording a stage keeps earlier stages and adds this one for each enabled metric; disabled metrics are untouched. |
| ExecuteCommon.BuiltInEntries | src/benchalot/execute.py:368-383 | One entry per reported metric, under its label, holding its per-stage values. |
| ExecuteCommon.CollectedInOrder | src/benchmarker/execute.py:237-259 | With distinct custom names that are not built-in labels, the results are the custom metrics in order, then the enabled built-ins in the fixed order. |
| ExecuteCommon.AppendRow | src/benchalot/execute.py:388-411 | One row appended with `setdefault(...).append` per cell. |
| ExecuteCommon.AppendedRowColumn | src/benchmarker/execute.py:265-273 | Appending a row adds its cell to each of its columns and leaves every other column as it was. |
| ExecuteCommon.AppendedRowsColumn | src/benchmarker/execute.py:263-273 | Appending rows adds the rows' cells, in order, to each column. |
| ExecuteCommon.ColumnOfFull | src/benchmarker/execute.py:265 | Rows that all hold a column give it one cell each. |
| ExecuteCommon.RowsKeepAligned | src/benchmarker/execute.py:263-273 | Rows with the same columns keep every column the same length. |
| ExecuteCommon.ResultRow | src/benchmarker/execute.py:265-273 | A row holds the id, the variables, the failure flag, metric, stage and result. |
| ExecuteCommon.MetricRows | src/benchmarker/execute.py:264-273 | One row per stage of a metric. |
| ExecuteCommon.SampleRows | src/benchmarker/execute.py:263-273 | One row per (metric, stage) pair. |
| ExecuteCommon.StageCells | src/benchmarker/execute.py:264 | One result cell per stage. |
| ExecuteCommon.AppendedRowsConcat | src/benchalot/execute.py:386-411 | Rows appended in two runs are the rows appended in one. |
| ExecuteCommon.AppendMetric | src/benchalot/execute.py:387-411 | The inner loop appends the metric's rows. |
| ExecuteCommon.AppendSample | src/benchmarker/execute.py:263-273 | The nested loop appends the sample's rows. |
| ExecuteCommon.RowCells | src/benchmarker/execute.py:270-273 | A row holds the failure flag and the result under their columns. |
| ExecuteCommon.SampleColumns | src/benchalot/execute.py:386-411 | A sample adds its results, in order, to the result column, and its flag once per row to the failure column. |
| ExecuteCommon.MetricResultColumn | src/benchalot/execute.py:387-411 | A metric's rows hold its stage results in order. |
| ExecuteCommon.MetricFlagColumn | src/benchalot/execute.py:404-406 | A metric's rows hold the failure flag once per stage. |
| ExecuteCommon.MetricRowsShape | src/benchalot/execute.py:388-411 | Every row of a metric has the same distinct columns. |
| ExecuteCommon.SampleRowsShape | src/benchmarker/execute.py:263-273 | Every row of a sample has the same distinct columns. |
| ExecuteCommon.SampleKeepsRectangular | src/benchalot/execute.py:385-411 | A sample keeps the table rectangular and adds one id per row. |
| ExecuteCommon.SampleAppendsResults | src/benchmarker/execute.py:262-273 | The table's result column grows by the sample's results, and the failure column by its flag once per row, earlier cells kept. |
| BenchalotExecute.Section | src/benchalot/execute.py:211-229 | The section launches a prefix of its commands, all but the last succeeding. Success means all launched; failure means the last exited non-zero. |
| BenchalotExecute.RunSection | src/benchalot/execute.py:211-229 | The loop computes Section. |
| BenchalotExecute.StageFrom | src/benchalot/execute.py:270-317 | A stage launches a prefix of its commands: none once failed, and a non-zero exit is the last. Failure follows that exit code. |
| BenchalotExecute.RunStage | src/benchalot/execute.py:264-317 | The loop computes StageFrom. |
| BenchalotExecute.StageTimes | src/benchalot/execute.py:288-306 | Elapsed, user and system time are sums over the commands launched; a disabled metric keeps its value. |
| BenchalotExecute.StageOutput | src/benchalot/execute.py:311-314 | The captured output is everything the launched commands printed, in order. |
| BenchalotExecute.StagePeak | src/benchalot/execute.py:307-310 | The peak memory is at least every launched command's and equals one of them or the start. |
| BenchalotExecute.Stages | src/benchalot/execute.py:263-349 | The stages only extend the log, and a failed benchmark launches nothing and stays failed. |
| BenchalotExecute.RunStages | src/benchalot/execute.py:263-349 | The loop computes Stages. |
| BenchalotExecute.FailedStagesRecordNone | src/benchalot/execute.py:337-349 | Once failed, no stage launches, and every enabled metric records `None` for every stage. |
| BenchalotExecute.Guarded | src/benchalot/execute.py:242-243 | A section guarded by the failure flag runs nothing once failed. |
| BenchalotExecute.RunSample | src/benchalot/execute.py:242-383 | The method computes one sample. |
| BenchalotExecute.Sample | src/benchalot/execute.py:242-383 | definition, no contract; its properties are BenchalotExecute.FailedSampleRunsOnlyMetrics; BenchalotExecute.RunSample computes it. |
| BenchalotExecute.FailedSampleRunsOnlyMetrics | src/benchalot/execute.py:242-366 | A failed sample launches only its custom metrics' commands and stays failed. Every enabled metric is `None` for every stage. |
| BenchalotExecute.FlattenedCells | src/benchalot/execute.py:389-402 | Every flattened column holds a plain value, under a name starting with the variable's. |
| BenchalotExecute.PushEntries | src/benchalot/execute.py:399-402 | The entries are pushed in reverse so that they pop in the user's order. |
| BenchalotExecute.FlattenVariable | src/benchalot/execute.py:390-402 | The explicit-stack loop computes the recursive flattening. |
| BenchalotExecute.StackPop | src/benchalot/execute.py:391-402 | The top entry comes off first: its columns, then the rest's. |
| BenchalotExecute.FlattenMatrix | src/benchalot/execute.py:389-402 | Every variable is flattened in order. |
| BenchalotExecute.FlatMatrixUnchanged | src/benchalot/execute.py:389-396 | A matrix without dicts is its own flattening. |
| BenchalotExecute.Samples | src/benchalot/execute.py:241-412 | Each sample uses a fresh id. A failed benchmark launches only custom metrics per sample and stays failed. The table stays rectangular. |
| BenchalotExecute.NextSample | src/benchalot/execute.py:242-412 | One sample under the next id, with the same guarantees. |
| BenchalotExecute.RunSamples | src/benchalot/execute.py:241-412 | The sample loop computes Samples. |
| BenchalotExecute.RunBenchmark | src/benchalot/execute.py:231-415 | The method computes one benchmark. |
| BenchalotExecute.PerformBenchmarks | src/benchalot/execute.py:191-422 | The method computes the whole run from an empty table. |
| BenchalotExecute.Benchmark | src/benchalot/execute.py:231-415 | definition, no contract; its properties are BenchalotExecute.FailedSetupRunsOnlyMetrics; BenchalotExecute.RunBenchmark computes it. |
| BenchalotExecute.FailedSetupRunsOnlyMetrics | src/benchalot/execute.py:239-243 | When setup fails, only custom metrics run afterwards, once per sample; no cleanup runs. |
| BenchalotExecute.Benchmarks | src/benchalot/execute.py:191-422 | definition, no contract; its properties are BenchalotExecute.BenchmarksKeepRectangular and BenchalotExecute.ResultTableRectangular; BenchalotExecute.PerformBenchmarks computes it. |
| BenchalotExecute.BenchmarksKeepRectangular | src/benchalot/execute.py:386-411 | With the same distinct flattened columns in every benchmark, every column stays as long as the id column. |
| BenchalotExecute.ResultTableRectangular | src/benchalot/execute.py:208-422 | The result table of the whole run is rectangular under that condition. |
| BenchmarkerExecute.RunSection | src/benchmarker/execute.py:147-152 | Every command runs in order, and exit codes are ignored. |
| BenchmarkerExecute.StageAll | src/benchmarker/execute.py:184-215 | Every command runs. Failure means failed before, or some command exited non-zero. |
| BenchmarkerExecute.RunStage | src/benchmarker/execute.py:177-215 | The loop computes StageAll. |
| ExecuteCommon.SumOver | src/benchmarker/execute.py:186-204 | definition, no contract; its properties are BenchmarkerExecute.StageTimes and BenchalotExecute.StageTimes, which use it as the reference total of a stage. |
| BenchmarkerExecute.StageTimes | src/benchmarker/execute.py:186-204 | Elapsed, user and system time are sums over all commands; a disabled metric keeps its value. |
| ExecuteCommon.OutputOver | src/benchmarker/execute.py:207-210 | definition, no contract; its properties are BenchmarkerExecute.StageOutput and BenchalotExecute.StageOutput, which use it as the reference output of a stage. |
| BenchmarkerExecute.StageOutput | src/benchmarker/execute.py:207-210 | The captured output is everything the commands printed, in order. |
| BenchmarkerExecute.StagePeak | src/benchmarker/execute.py:205-206 | The peak memory is at least every command's and equals one of them or the start. |
| BenchmarkerExecute.StageIgnoresFailure | src/benchmarker/execute.py:184-215 | A failed benchmark measures a stage exactly as a healthy one. |
| BenchmarkerExecute.StageAsWritten | src/benchmarker/execute.py:184-215 | definition, no contract; its properties are BenchmarkerExecute.StageAsWrittenCrashes and BenchmarkerExecute.StderrMetricCrashes. |
| BenchmarkerExecute.StageAsWrittenCrashes | src/benchmarker/execute.py:189-210 | As written, a stage crashes exactly when stderr is measured and the stage has a command. |
| BenchmarkerExecute.StderrMetricCrashes | src/benchmarker/execute.py:193-210 | One command with stderr measured crashes as written; StageAll records its output. |
| BenchmarkerExecute.Stages | src/benchmarker/execute.py:177-233 | Every stage's commands run in order, and a failure stays. |
| BenchmarkerExecute.RunStages | src/benchmarker/execute.py:177-233 | The loop computes Stages. |
| BenchmarkerExecute.StagesIgnoreFailure | src/benchmarker/execute.py:168-233 | An earlier failure changes only the flag. |
| BenchmarkerExecute.StagesRecordEveryStage | src/benchmarker/execute.py:216-233 | Every enabled metric has an entry for every stage, failed or not. |
| BenchmarkerExecute.RunSample | src/benchmarker/execute.py:156-259 | The method computes one sample. |
| BenchmarkerExecute.Sample | src/benchmarker/execute.py:156-259 | definition, no contract; its properties are BenchmarkerExecute.SampleLaunchesAll and BenchmarkerExecute.SampleFailed; BenchmarkerExecute.RunSample computes it. |
| BenchmarkerExecute.SampleLaunchesAll | src/benchmarker/execute.py:159-246 | A sample launches every command of the benchmark. |
| BenchmarkerExecute.SampleFailed | src/benchmarker/execute.py:168-245 | A sample has failed exactly when its stages failed or a custom metric lacks a value. |
| BenchmarkerExecute.VariableCells | src/benchmarker/execute.py:266-269 | The variable columns are the matrix values as they are, in order. |
| BenchmarkerExecute.Samples | src/benchmarker/execute.py:156-273 | Each sample uses a fresh id, launches everything, and keeps the table rectangular. |
| BenchmarkerExecute.RunSamples | src/benchmarker/execute.py:156-273 | The loop computes Samples. |
| BenchmarkerExecute.PerformBenchmarks | src/benchmarker/execute.py:130-280 | The method computes the whole run from an empty table. |
| BenchmarkerExecute.Benchmarks | src/benchmarker/execute.py:130-280 | definition, no contract; its properties are BenchmarkerExecute.BenchmarksKeepRectangular and BenchmarkerExecute.ResultTableRectangular; BenchmarkerExecute.PerformBenchmarks computes it. |
| BenchmarkerExecute.BenchmarksKeepRectangular | src/benchmarker/execute.py:263-273 | With the same distinct variables in every benchmark, every column stays as long as the id column. |
| BenchmarkerExecute.ResultTableRectangular | src/benchmarker/execute.py:144-280 | The result table of the whole run is rectangular under that condition. |
| Streams.WriteStep | src/benchmarker/log.py:39-43 | One write loses or reorders nothing, and the buffer stays below capacity unless it holds one long text. |
| Streams.WriteAllKeepsEverything | src/benchalot/log.py:123-127 | Over any writes, the flushed text plus the buffer is everything written, in order. |
| BenchmarkerLog.FastConsole.constructor | src/benchmarker/log.py:19-31 | A new console has no bar, an empty buffer, is quiet and has no file. |
| BenchmarkerLog.FastConsole.SetVerbose | src/benchmarker/log.py:33-34 | Sets only the verbosity. |
| BenchmarkerLog.FastConsole.SetBar | src/benchmarker/log.py:36-37 | Sets only the bar. |
| BenchmarkerLog.FastConsole.Flush | src/benchmarker/log.py:65-71 | The buffer goes to the bar or the terminal and is emptied. |
| BenchmarkerLog.FastConsole.Write | src/benchmarker/log.py:39-43 | The buffer is flushed first when the text would fill it. What is flushed reaches the bar when one is set, else the terminal; nothing else reaches either. |
| BenchmarkerLog.FastConsole.Print | src/benchmarker/log.py:61-63 | The old buffer, the text and its ending reach the bar, or else the terminal, in that order. Nothing stays buffered. |
| BenchmarkerLog.FastConsole.Log | src/benchmarker/log.py:56-59 | The message goes to the file. When verbose it is written to the console: buffered or flushed as `write` does, with the flushed text reaching the bar when one is set, else the terminal. When quiet, the buffer, the terminal and the bar are unchanged. |
| BenchmarkerLog.FastConsole.BeginLogToFile | src/benchmarker/log.py:45-53 | An empty name means `/dev/null`, and the file starts empty. |
| BenchmarkerLog.FastConsole.EndLogToFile | src/benchmarker/log.py:54 | The file is detached. |
| BenchalotLog.TicksComplete | src/benchalot/log.py:69-76 | After the last iteration the bar is full. |
| BenchalotLog.BarText | src/benchalot/log.py:69-76 | The bar is 20 characters, with `#` exactly at the first ticks positions. |
| BenchalotLog.Bar.constructor | src/benchalot/log.py:23-35 | A new bar is at iteration 0, with no saved position and a blank bar. |
| BenchalotLog.Bar.SaveCursorPos | src/benchalot/log.py:80-83 | Writes the save code and marks the position saved. |
| BenchalotLog.Bar.RestoreCursorPos | src/benchalot/log.py:85-88 | Writes the restore code and marks the position not saved. |
| BenchalotLog.Bar.EraseBar | src/benchalot/log.py:95-99 | A saved position is restored and the line cleared. |
| BenchalotLog.Bar.Write | src/benchalot/log.py:90-93 | The bar is erased, then the text is printed. |
| BenchalotLog.Bar.Progress | src/benchalot/log.py:60-78 | One more iteration, one mark per 5%, and the bar is erased when done. |
| BenchalotLog.Bar.SetDescription | src/benchalot/log.py:101-102 | Sets only the title. |
| BenchalotLog.FastConsole.constructor | src/benchalot/log.py:106-117 | A new console has no bar, an empty buffer, is quiet and has no file. |
| BenchalotLog.FastConsole.SetVerbose | src/benchalot/log.py:119-121 | Sets only the verbosity. |
| BenchalotLog.FastConsole.Flush | src/benchalot/log.py:178-187 | The buffer goes above the bar, after its erase codes, or to the terminal, and is emptied. The bar keeps its iteration, drawing and title. |
| BenchalotLog.FastConsole.Write | src/benchalot/log.py:123-127 | The buffer is flushed first when the text would fill it. Without a bar the terminal gets exactly the flushed text. With a bar, a flush first erases the bar and leaves its position unsaved; otherwise the terminal and the bar's saved position are unchanged. The bar keeps its iteration, drawing and title. |
| BenchalotLog.FastConsole.Print | src/benchalot/log.py:173-176 | The terminal gets the bar's erase codes (if a bar is active), then the old buffer, the text and its ending. Nothing stays buffered, and the bar keeps its iteration, drawing and title. |
| BenchalotLog.FastConsole.LogCommandOutput | src/benchalot/log.py:167-171 | Output goes to the file. When verbose it is written to the console as `write` does: a flush erases the bar and puts the old buffer on the terminal. Otherwise the terminal and the bar's saved position are unchanged. The bar keeps its iteration, drawing and title. |
| BenchalotLog.FastConsole.BeginBar | src/benchalot/log.py:146-163 | A new bar when none is active; otherwise an error, with the old bar cleared. |
| BenchalotLog.FastConsole.EndBar | src/benchalot/log.py:164-165 | The bar is gone. |
| BenchalotLog.FastConsole.BeginLogToFile | src/benchalot/log.py:129-142 | An empty name means `/dev/null`, and the file is appended to. |
| BenchalotLog.FastConsole.EndLogToFile | src/benchalot/log.py:143-144 | The file is detached. |
| Delay.SkipSpaces | main.c:6 | The text after its leading white space. |
| Delay.DigitRun | main.c:6 | The longest run of leading digits. |
| Delay.Atoi | main.c:6 | `atoi` yields either a value in the `int` range or undefined behaviour (a value out of range). |
| Delay.Signed | main.c:6 | The signed value is defined exactly when it fits in `int`. |
| Delay.AtoiWithoutDigits | main.c:6 | A text with no digit after its leading white space and optional sign reads as 0. |
| Delay.AtoiOfDigits | main.c:6 | A digit string reads as its decimal value, and is undefined beyond `INT_MAX`. |
| Delay.AtoiOfNegatedDigits | main.c:6 | A minus sign followed by digits reads as the negated value, and is undefined below `INT_MIN`. |
| Delay.AtoiRoundTrip | main.c:6 | `atoi` reads back every `int` written in decimal. |
| Delay.BaseDuration | main.c:8-14 | Exactly `data1`, `data2` and `data3` have a duration, between 500000 and 1400000 microseconds. |
| Delay.CDiv | main.c:15 | definition, no contract; its properties are Delay.CDivTruncates, Delay.QuotientAtMost and Delay.CDivOfNaturals. |
| Delay.CDivTruncates | main.c:15 | C division truncates toward zero: the remainder has the dividend's sign and is smaller than the divisor in magnitude. |
| Delay.QuotientAtMost | main.c:15 | A quotient by a positive number is at most the dividend. |
| Delay.CDivOfNaturals | main.c:15 | On naturals, C and Euclidean division agree. |
| Delay.Main | main.c:5-17 | The program reaches `usleep` and exits 0 exactly when it has two arguments, a thread count that `atoi` reads as non-zero and a known label. The sleep fits `useconds_t`. |
| Delay.DelayAtMostBase | main.c:15-16 | With at least one thread the sleep is the base divided by the threads, at most the base. |
| Delay.MainDivides | main.c:15 | With a positive thread count, the sleep is the C quotient of the base duration by the thread count, converted to `useconds_t`. |
| Delay.UsleepArgument | main.c:15 | For a positive thread count, the quotient of a base below 2^32 survives the conversion to `useconds_t` and is at most the base. |
| Delay.NegativeThreadsWrap | main.c:6-15 | A thread count of -1 with `data1` makes the quotient -1000000, which `useconds_t` wraps to 2^32 - 1000000 microseconds. |

## Left out

- Processes, pipes, `cwd`, `environ`, `wait4`/`getrusage` and
  `monotonic_ns` are not modelled. A command's outcome comes from the
  `World` function, and its output is text rather than bytes decoded as
  UTF-8.
- Elapsed times are kept in the `World`'s units. The conversion by `1e9`
  and all floating-point rounding are not modelled. `float()` is the
  parameter `toFloat`.
- `uuid4()` is replaced by a counter, `nextId`, which is distinct for
  every sample just as a UUID is.
- `KeyboardInterrupt`, which stops the run and keeps the partial table,
  is not modelled.
- `modify_system_state` and `restore_system_state` change the machine
  and are not modelled. `SystemSection.modify` itself is modelled.
- The bar's asynchronous refresh loop, its time average and its estimate
  are not modelled. The logging setup (`setup_benchalot_logging`,
  `setup_benchmarker_logging`, `crash_msg_log_file`), `logger` messages
  and `log_output` are not modelled either.
- `OutputLogger`, `poll`, `reap` and `read_pipe` are not modelled; only
  the output they collect is.
- `expandvars` and `expanduser` in `prepare_benchmarks` are not modelled:
  `BenchalotPrepare.InterpolateEnv` interpolates the values only.
- The YAML loading and dumping of `load_configuration_file` and
  `generate_config_files` are not modelled. The parts are values, and no
  files are written.
- `path_exists` (a directory check) and the schema checks Pydantic
  performs by itself (types, literals, extra fields) are not modelled.
  Only the validators written in the source are.
- `validate_config` and `error_and_exit` are not modelled. Their errors
  are `Failure` values.
- The CSV reader is modelled for lines without quoting: a field is the
  text between commas. Lines are broken at line feeds, as `StringIO`
  yields them; a carriage return ends a record and anything after it but
  another carriage return is the reader's error.
- PrepareCommon.Excluded: compares values with Python's `==` for numbers
  (`1 == 1.0 == True`) and for dicts (key order ignored). Floats are known
  only by their `str()` text, so two non-integral floats compare by text.
  This is wrong only for `nan`, which Python never finds equal. Integral
  floats written in exponent form (`1e+16`) are not read as integers.
  Lists and `None` compare by their text as well.
- `str()` of a float or a nested dict is an uninterpreted string
  (`Common.Show` pins strings and integers only).
- The CLI of src/benchmarker/main.py (`main`, `get_argument_parser`) is
  not modelled; only `generate_config_files` is.
- `usleep` itself is not modelled: `Delay.Main` returns its argument.
- The clock-derived `TIME_STAMP` is the parameter `timeStamp`.
- The matrix branch of `prepare_benchmarks` in src/benchmarker/preparation.py
  (lines 83-86) treats `run_config["benchmark"]` as a dict, while the
  isolation loop at lines 63-65 treats it as a list; the source is
  inconsistent about its type. The model takes the list. Line 85 then
  indexes the list with a command string, a TypeError raised before line 84
  would look up the new benchmark's missing `benchmark` entry (the KeyError
  a dict-valued `benchmark` would meet, which the model cannot represent).
  `LegacyPreparation.PreparedRuns` models the TypeError as the failure
  `ListIndexedByName` and does not guess at a repair.
- `str()` of a variable whose reference has three or more dotted segments
  uses the first segment only, as in the source. No lemma singles this out.
- Charts and tables (`output.py`), the metric gatherers of the oldest
  generation (`execution.py`, `metrics.py`) and the Cerberus schema of
  src/validation.py are not part of this model.
- BenchmarkerPrepare.PrepareOne: states the shape of the prepared benchmark
  (names and command counts), not each interpolated command.
  `PrepareCommon.InterpolateStages` and `PrepareCommon.ProcessCustomMetrics`
  state those.
- BenchalotExecute.Stages: states only that the log grows and that a failed
  benchmark launches nothing. The per-stage values are stated by
  `BenchalotExecute.StageTimes`, `BenchalotExecute.StageOutput`,
  `BenchalotExecute.StagePeak` and `BenchalotExecute.FailedStagesRecordNone`.
- BenchalotExecute.StagePeak and BenchmarkerExecute.StagePeak: require the
  memory metric to be enabled; otherwise the peak is not tracked.
- BenchalotLog.Bar.Progress: requires a bar with at least one iteration,
  and that the ticks after this call fit in the bar's 20 positions. The
  source divides by `n_iter`, which raises for 0, and writes the ticks into
  a 20-character list, which raises IndexError once `progress()` is called
  past about 105%. The model represents neither exception. The only caller
  sizes the bar `len(benchmarks) * samples`
  (src/benchalot/execute.py:209) and calls `progress()` once per sample
  (src/benchalot/execute.py:412), so it never goes past the last iteration.
- BenchalotLog.FastConsole.LogCommandOutput: requires an open log file.
  The source writes to `None` otherwise and raises.
- BenchmarkerLog.FastConsole.Log: requires an open log file, for the
  same reason.
- BenchalotExecute.Section, BenchalotExecute.RunSection,
  BenchalotExecute.StageFrom and BenchalotExecute.RunStage: the source
  calls `bar.refresh()` while a command runs (src/benchalot/execute.py:220,
  286 and 296), and the `Bar` of src/benchalot/log.py:22-104 has no
  `refresh`, so each of these calls raises `AttributeError` as written. The
  model takes `refresh` to be a redraw that changes nothing it keeps, and
  runs past it.
- BenchmarkerExecute.PerformBenchmarks, BenchmarkerExecute.RunSection and
  BenchmarkerExecute.RunSample: the source opens `console.bar(...)`
  (src/benchmarker/execute.py:145), calls `bar.update(1)` (line 261) and,
  in `log_output`, `console.log_command_output` (lines 69 and 74). The
  `FastConsole` of src/benchmarker/log.py:18-75 defines none of them, so the
  run raises `AttributeError` at line 145 before any command. The model
  assumes a revision where they exist, with `update` a redraw and command
  output going only to the log. It also reads the `before` and `after`
  sections of a benchmark (lines 159 and 235), which `PreparedBenchmark` in
  src/benchmarker/prepare.py:13-23 lacks; `BenchmarkerExecute.Benchmark`
  carries them.

## Findings

| source | as written | input that shows it | evidently intended | confidence | as-written member | corrected member |
|---|---|---|---|---|---|---|
| src/benchmarker/execute.py:195 | `process_stderr = process.stderr.close()` overwrites the captured text with `None`, so line 210 calls `None.decode` | any stage with one command when `stderr` is a measured metric | close the pipe without overwriting the text, and decode the captured stderr | not executed | BenchmarkerExecute.StageAsWrittenCrashes | BenchmarkerExecute.StageAll |

=== FILE: benchalot_execute.dfy ===
/**
 * `perform_benchmarks` of src/benchalot/execute.py: each benchmark runs its
 * setup once, then for every sample its prepare, benchmark stages,
 * conclude and custom-metric commands, and appends one table row per
 * reported (metric, stage) pair; cleanup runs at the end. A failure is
 * sticky for the rest of the benchmark: once a command exits non-zero, or
 * a measurement cannot be parsed, every later command except the custom
 * metrics is skipped.
 *
 * The processes are an oracle: `world(k)` is the outcome of the k-th
 * command launched, and `log` lists the commands launched so far, so the
 * next command's outcome is `world(|log|)`. Parsing a number is the
 * parameter `toFloat`.
 */
module BenchalotExecute {
  import opened Common
  import opened OutputConstants
  import opened BenchmarkerConfig
  import opened ExecuteCommon
  import opened CustomMetric
  import opened VariableMatrix
  import opened BenchalotPrepare

  /* ---------------------------------------------------------------------- */
  /* Sections: setup, prepare, conclude, cleanup                             */
  /* ---------------------------------------------------------------------- */

  /** `_execute_section` after the commands `log` were launched: whether
      it succeeded, and the commands launched by then. It stops after the
      first command that exits non-zero, and succeeds only when every
      command ran and exited with 0. */
  function Section(world: World, log: seq<string>, commands: seq<string>): (r: (bool, seq<string>))
    ensures |log| <= |r.1| <= |log| + |commands| && r.1 == log + commands[..|r.1| - |log|]
    ensures forall k :: |log| <= k < |r.1| && (r.0 || k < |r.1| - 1) ==> world(k).exitCode == 0
    ensures r.0 ==> |r.1| == |log| + |commands|
    ensures !r.0 ==> |r.1| > |log| && world(|r.1| - 1).exitCode != 0
    decreases |commands|
  {
    if commands == [] then (true, log)
    else
      var log' := log + [commands[0]];
      assert log' == log + commands[..1];
      if !CheckReturnCode(world(|log|).exitCode) then (false, log')
      else
        var r := Section(world, log', commands[1..]);
        assert r.1 == log + commands[..|r.1| - |log|] by {
          assert commands[..|r.1| - |log|] == [commands[0]] + commands[1..][..|r.1| - |log'|];
        }
        r
  }

  /** The commands a section launches after `log`, and whether it succeeded. */
  method RunSection(world: World, log: seq<string>, commands: seq<string>) returns (ok: bool, log': seq<string>)
    ensures (ok, log') == Section(world, log, commands)
  {
    log' := log;
    for i := 0 to |commands|
      invariant Section(world, log, commands) == Section(world, log', commands[i..])
    {
      var run := world(|log'|);
      assert commands[i..][0] == commands[i] && commands[i..][1..] == commands[i + 1..];
      log' := log' + [commands[i]];
      if !CheckReturnCode(run.exitCode) {
        return false, log';
      }
    }
    return true, log';
  }

  /* ---------------------------------------------------------------------- */
  /* One benchmark stage                                                      */
  /* ---------------------------------------------------------------------- */

  /** The accumulators at the start of a stage. */
  function Fresh(failed: bool, log: seq<string>): Tally
  {
    Tally(failed, log, 0.0, 0.0, 0.0, 0, "", "")
  }

  /** The rest of a stage's command loop: a failed benchmark runs no
      further command, and a command that exits non-zero is the last. */
  function StageFrom(world: World, commands: seq<string>, t: Tally, enabled: set<BuiltInMetric>): (r: Tally)
    ensures |t.log| <= |r.log| <= |t.log| + |commands| && r.log == t.log + commands[..|r.log| - |t.log|]
    ensures t.failed ==> r == t
    ensures !r.failed ==> |r.log| == |t.log| + |commands|
    ensures forall k :: |t.log| <= k < |r.log| - 1 ==> world(k).exitCode == 0
    ensures !t.failed && |r.log| > |t.log| ==> (r.failed <==> world(|r.log| - 1).exitCode != 0)
    decreases |commands|
  {
    if t.failed || commands == [] then t
    else
      var t' := Counted(t, commands[0], world(|t.log|), enabled);
      assert t'.log == t.log + commands[..1];
      var r := StageFrom(world, commands[1..], t', enabled);
      assert r.log == t.log + commands[..|r.log| - |t.log|] by {
        assert commands[..|r.log| - |t.log|] == [commands[0]] + commands[1..][..|r.log| - |t'.log|];
      }
      if t'.failed then
        assert r == t' && world(|t.log|).exitCode != 0;
        r
      else
        assert world(|t.log|).exitCode == 0;
        r
  }

  /** The stage loop of lines 264-317 for one stage. */
  method RunStage(world: World, log: seq<string>, commands: seq<string>, failed: bool, enabled: set<BuiltInMetric>)
    returns (t: Tally)
    ensures t == StageFrom(world, commands, Fresh(failed, log), enabled)
  {
    t := Fresh(failed, log);
    for i := 0 to |commands|
      invariant StageFrom(world, commands, Fresh(failed, log), enabled) == StageFrom(world, commands[i..], t, enabled)
    {
      if t.failed {
        break;
      }
      var run := world(|t.log|);
      assert commands[i..][0] == commands[i] && commands[i..][1..] == commands[i + 1..];
      t := Counted(t, commands[i], run, enabled);
    }
  }

  /** The stage times: elapsed, user and system time are sums over the
      commands launched; a disabled metric keeps its starting value. */
  lemma {:induction false} StageTimes(world: World, commands: seq<string>, t: Tally, enabled: set<BuiltInMetric>)
    ensures var r := StageFrom(world, commands, t, enabled);
      && r.seconds == t.seconds + SumOver(world, |t.log|, |r.log|, (run: CommandRun) => run.seconds)
      && r.utime == (if Utime in enabled then t.utime + SumOver(world, |t.log|, |r.log|, (run: CommandRun) => run.utime) else t.utime)
      && r.stime == (if Stime in enabled then t.stime + SumOver(world, |t.log|, |r.log|, (run: CommandRun) => run.stime) else t.stime)
    decreases |commands|
  {
    if !(t.failed || commands == []) {
      var t' := Counted(t, commands[0], world(|t.log|), enabled);
      StageTimes(world, commands[1..], t', enabled);
    }
  }

  /** The captured output of a stage is everything its commands printed,
      in order; a disabled stream keeps its starting value. */
  lemma {:induction false} StageOutput(world: World, commands: seq<string>, t: Tally, enabled: set<BuiltInMetric>)
    ensures var r := StageFrom(world, commands, t, enabled);
      && r.stdout == (if Stdout in enabled then t.stdout + OutputOver(world, |t.log|, |r.log|, (run: CommandRun) => run.stdout) else t.stdout)
      && r.stderr == (if Stderr in enabled then t.stderr + OutputOver(world, |t.log|, |r.log|, (run: CommandRun) => run.stderr) else t.stderr)
    decreases |commands|
  {
    if !(t.failed || commands == []) {
      var t' := Counted(t, commands[0], world(|t.log|), enabled);
      StageOutput(world, commands[1..], t', enabled);
    }
  }

  /** The peak resident set size of a stage is at least its starting value
      and every launched command's, and is one of them. */
  lemma {:induction false} StagePeak(world: World, commands: seq<string>, t: Tally, enabled: set<BuiltInMetric>)
    requires Mem in enabled
    ensures var r := StageFrom(world, commands, t, enabled);
      && r.rss >= t.rss
      && (forall k :: |t.log| <= k < |r.log| ==> r.rss >= world(k).maxrss)
      && (r.rss == t.rss || exists k :: |t.log| <= k < |r.log| && r.rss == world(k).maxrss)
    decreases |commands|
  {
    if !(t.failed || commands == []) {
      var t' := Counted(t, commands[0], world(|t.log|), enabled);
      StagePeak(world, commands[1..], t', enabled);
    }
  }

  /* ---------------------------------------------------------------------- */
  /* The stages of a sample                                                   */
  /* ---------------------------------------------------------------------- */

  /** What a finished stage records for metric `m`: `None` once the
      benchmark has failed, otherwise the stage's total, with captured
      output read as a number. */
  function StageValue(t: Tally, toFloat: string -> Option<real>, m: BuiltInMetric): Option<real>
  {
    if t.failed then None
    else
      match m
      case Time => Some(t.seconds)
      case Utime => Some(t.utime)
      case Stime => Some(t.stime)
      case Mem => Some(t.rss as real)
      case Stdout => toFloat(t.stdout)
      case Stderr => toFloat(t.stderr)
  }

  /** The stage loop of a sample, from a given state: each stage runs its
      commands and records its values under its name. A failed benchmark
      stays failed and launches nothing. */
  function Stages(world: World, stages: Dict<seq<string>>, s: Measuring, enabled: set<BuiltInMetric>, toFloat: string -> Option<real>): (r: Measuring)
    ensures |s.log| <= |r.log| && r.log[..|s.log|] == s.log
    ensures s.failed ==> r.failed && r.log == s.log
    decreases |stages|
  {
    if stages == [] then s
    else
      var t := StageFrom(world, stages[0].1, Fresh(s.failed, s.log), enabled);
      var measured := s.measured.Recorded(enabled, stages[0].0, m => StageValue(t, toFloat, m));
      var r := Stages(world, stages[1..], Measuring(StageFailed(t, enabled, toFloat), t.log, measured), enabled, toFloat);
      assert r.log[..|s.log|] == r.log[..|t.log|][..|s.log|];
      r
  }

  /** Lines 263-349: every stage of the benchmark, in order. */
  method RunStages(world: World, stages: Dict<seq<string>>, failed: bool, log: seq<string>, enabled: set<BuiltInMetric>, toFloat: string -> Option<real>)
    returns (s: Measuring)
    ensures s == Stages(world, stages, Measuring(failed, log, NothingMeasured), enabled, toFloat)
  {
    s := Measuring(failed, log, NothingMeasured);
    for i := 0 to |stages|
      invariant Stages(world, stages, Measuring(failed, log, NothingMeasured), enabled, toFloat)
                == Stages(world, stages[i..], s, enabled, toFloat)
    {
      var stage, commands := stages[i].0, stages[i].1;
      assert stages[i..][0] == stages[i] && stages[i..][1..] == stages[i + 1..];
      var t := RunStage(world, s.log, commands, s.failed, enabled);
      var measured := s.measured.Recorded(enabled, stage, m => StageValue(t, toFloat, m));
      s := Measuring(StageFailed(t, enabled, toFloat), t.log, measured);
    }
  }

  /** Lines 337-349: once the benchmark has failed, no stage launches a
      command, and every enabled metric records `None` for every stage. */
  lemma {:induction false} FailedStagesRecordNone(world: World, stages: Dict<seq<string>>, s: Measuring, enabled: set<BuiltInMetric>, toFloat: string -> Option<real>)
    requires s.failed
    ensures var r := Stages(world, stages, s, enabled, toFloat);
      && r.failed && r.log == s.log
      && (forall m :: m in enabled && AllNone(s.measured.Of(m)) ==> AllNone(r.measured.Of(m)))
      && (forall m, i :: m in enabled && 0 <= i < |stages| ==> HasKey(r.measured.Of(m), stages[i].0))
      && (forall m, k :: HasKey(s.measured.Of(m), k) ==> HasKey(r.measured.Of(m), k))
    decreases |stages|
  {
    if stages != [] {
      var t := StageFrom(world, stages[0].1, Fresh(s.failed, s.log), enabled);
      var value := m => StageValue(t, toFloat, m);
      var measured := s.measured.Recorded(enabled, stages[0].0, value);
      var s' := Measuring(StageFailed(t, enabled, toFloat), t.log, measured);
      FailedStagesRecordNone(world, stages[1..], s', enabled, toFloat);
      var r := Stages(world, stages, s, enabled, toFloat);
      forall m
        ensures m in enabled && AllNone(s.measured.Of(m)) ==> AllNone(r.measured.Of(m))
        ensures m in enabled ==> HasKey(r.measured.Of(m), stages[0].0)
        ensures forall k :: HasKey(s.measured.Of(m), k) ==> HasKey(r.measured.Of(m), k)
      {
        RecordedKeeps(s.measured, enabled, stages[0].0, value, m);
      }
      forall m, i | m in enabled && 0 <= i < |stages|
        ensures HasKey(r.measured.Of(m), stages[i].0)
      {
        if i > 0 {
          assert stages[1..][i - 1] == stages[i];
        }
      }
    }
  }

  /* ---------------------------------------------------------------------- */
  /* One sample                                                               */
  /* ---------------------------------------------------------------------- */

  /** A section that runs only while the benchmark has not failed: whether
      it has failed afterwards, and the commands launched by then. */
  function Guarded(world: World, failed: bool, log: seq<string>, commands: seq<string>): (r: (bool, seq<string>))
    ensures failed ==> r == (true, log)
  {
    if failed then (true, log) else var s := Section(world, log, commands); (!s.0, s.1)
  }

  /** Lines 242-383: prepare, the stages, conclude and the custom metrics
      of one sample, and its results: the custom metrics, then the enabled
      built-in ones. */
  function Sample(world: World, b: PreparedBenchmark, failed: bool, log: seq<string>, enabled: set<BuiltInMetric>, toFloat: string -> Option<real>)
    : Result<SampleRun, GatherError>
  {
    var prepared := Guarded(world, failed, log, b.prepare);
    var staged := Stages(world, b.benchmark, Measuring(prepared.0, prepared.1, NothingMeasured), enabled, toFloat);
    var concluded := Guarded(world, staged.failed, staged.log, b.conclude);
    var g :- Customs(world, b.customMetrics, Gathering(concluded.0, concluded.1, []), toFloat);
    Success(SampleRun(g.failed, g.log, Collected(g.custom, staged.measured, enabled)))
  }

  method RunSample(world: World, b: PreparedBenchmark, failed: bool, log: seq<string>, enabled: set<BuiltInMetric>, toFloat: string -> Option<real>)
    returns (r: Result<SampleRun, GatherError>)
    ensures r == Sample(world, b, failed, log, enabled, toFloat)
  {
    var hasFailed, launched := failed, log;
    if !hasFailed {
      var ok;
      ok, launched := RunSection(world, launched, b.prepare);
      hasFailed := !ok;
    }
    var staged := RunStages(world, b.benchmark, hasFailed, launched, enabled, toFloat);
    hasFailed, launched := staged.failed, staged.log;
    if !hasFailed {
      var ok;
      ok, launched := RunSection(world, launched, b.conclude);
      hasFailed := !ok;
    }
    var gathered := GatherCustomMetrics(world, b.customMetrics, hasFailed, launched, toFloat);
    if gathered.Failure? {
      return Failure(gathered.error);
    }
    var g := gathered.value;
    return Success(SampleRun(g.failed, g.log, Collected(g.custom, staged.measured, enabled)));
  }

  /** Lines 242-243, 271-272, 337-355: once the benchmark has failed, a
      sample launches only its custom metrics' commands, stays failed, and
      records `None` for every stage of every enabled built-in metric. */
  lemma FailedSampleRunsOnlyMetrics(world: World, b: PreparedBenchmark, log: seq<string>, enabled: set<BuiltInMetric>, toFloat: string -> Option<real>)
    ensures var r := Sample(world, b, true, log, enabled, toFloat);
      r.Success? ==>
        && r.value.failed
        && r.value.log == log + MetricCommands(b.customMetrics)
        && forall m, i :: m in enabled && 0 <= i < |b.benchmark| ==>
             var d := Stages(world, b.benchmark, Measuring(true, log, NothingMeasured), enabled, toFloat).measured.Of(m);
             AllNone(d) && HasKey(d, b.benchmark[i].0)
  {
    var s := Measuring(true, log, NothingMeasured);
    FailedStagesRecordNone(world, b.benchmark, s, enabled, toFloat);
    forall m | m in enabled
      ensures AllNone(s.measured.Of(m))
    {
      match m
      case Time =>
      case Utime =>
      case Stime =>
      case Mem =>
      case Stdout =>
      case Stderr =>
    }
  }

  /* ---------------------------------------------------------------------- */
  /* Flattened variables                                                      */
  /* ---------------------------------------------------------------------- */

  /** The columns of a variable: a plain value is one column under the
      variable's name; a dict value gives the columns of each of its
      entries, named `parent.child`, in the user's order. */
  function Flattened(name: string, v: Value): Row
    decreases v, if v.Dict? then |v.items| + 1 else 0
  {
    match v
    case Dict(_) => FlattenedItems(name, v, 0)
    case _ => [(name, VarCell(v))]
  }

  function FlattenedItems(name: string, v: Value, i: nat): Row
    requires v.Dict? && i <= |v.items|
    decreases v, |v.items| - i
  {
    if i == |v.items| then []
    else Flattened(name + "." + v.items[i].0, v.items[i].1) + FlattenedItems(name, v, i + 1)
  }

  /** Every column of a flattened variable holds a plain (non-dict) value,
      under a name that starts with the variable's name. */
  lemma {:induction false} FlattenedCells(name: string, v: Value)
    ensures forall i :: 0 <= i < |Flattened(name, v)| ==>
              var c := Flattened(name, v)[i]; c.1.VarCell? && !c.1.v.Dict? && name <= c.0
    decreases v, if v.Dict? then |v.items| + 1 else 0
  {
    if v.Dict? {
      FlattenedItemsCells(name, v, 0);
    }
  }

  lemma {:induction false} FlattenedItemsCells(name: string, v: Value, i: nat)
    requires v.Dict? && i <= |v.items|
    ensures forall j :: 0 <= j < |FlattenedItems(name, v, i)| ==>
              var c := FlattenedItems(name, v, i)[j]; c.1.VarCell? && !c.1.v.Dict? && name <= c.0
    decreases v, |v.items| - i
  {
    if i < |v.items| {
      var childName := name + "." + v.items[i].0;
      var child := Flattened(childName, v.items[i].1);
      var tail := FlattenedItems(name, v, i + 1);
      FlattenedCells(childName, v.items[i].1);
      FlattenedItemsCells(name, v, i + 1);
      assert FlattenedItems(name, v, i) == child + tail;
      assert name <= childName;
      forall j | 0 <= j < |child|
        ensures name <= child[j].0
      {
        assert childName <= child[j].0;
      }
    }
  }

  /** The number of values in a value, counting each dict once: what the
      stack has left to visit. */
  function Size(v: Value): (n: nat)
    ensures n >= 1
    decreases v, if v.Dict? then |v.items| + 1 else 0
  {
    match v
    case Dict(_) => 1 + ItemsSize(v, 0)
    case _ => 1
  }

  function ItemsSize(v: Value, i: nat): nat
    requires v.Dict? && i <= |v.items|
    decreases v, |v.items| - i
  {
    if i == |v.items| then 0 else Size(v.items[i].1) + ItemsSize(v, i + 1)
  }

  /** The columns of the entries on a stack, top entry first. */
  function StackColumns(stack: seq<(string, Value)>): Row
  {
    if stack == [] then [] else Flattened(stack[|stack| - 1].0, stack[|stack| - 1].1) + StackColumns(stack[..|stack| - 1])
  }

  function StackSize(stack: seq<(string, Value)>): nat
  {
    if stack == [] then 0 else Size(stack[|stack| - 1].1) + StackSize(stack[..|stack| - 1])
  }

  lemma StackPush(stack: seq<(string, Value)>, e: (string, Value))
    ensures StackColumns(stack + [e]) == Flattened(e.0, e.1) + StackColumns(stack)
    ensures StackSize(stack + [e]) == Size(e.1) + StackSize(stack)
  {
    assert (stack + [e])[..|stack|] == stack;
  }

  /** Lines 399-402: a dict's entries pushed in reverse, so that they come
      off the stack in the user's order. */
  method PushEntries(stack: seq<(string, Value)>, name: string, v: Value) returns (stack': seq<(string, Value)>)
    requires v.Dict?
    ensures StackColumns(stack') == FlattenedItems(name, v, 0) + StackColumns(stack)
    ensures StackSize(stack') == ItemsSize(v, 0) + StackSize(stack)
  {
    stack' := stack;
    var j := |v.items|;
    while j > 0
      invariant 0 <= j <= |v.items|
      invariant StackColumns(stack') == FlattenedItems(name, v, j) + StackColumns(stack)
      invariant StackSize(stack') == ItemsSize(v, j) + StackSize(stack)
    {
      j := j - 1;
      var e := (name + "." + v.items[j].0, v.items[j].1);
      StackPush(stack', e);
      stack' := stack' + [e];
    }
  }

  /** Lines 390-402: the columns of one variable, found with an explicit
      stack. */
  method FlattenVariable(name: string, value: Value) returns (r: Row)
    ensures r == Flattened(name, value)
  {
    r := [];
    var stack := [(name, value)];
    StackPush([], (name, value));
    while stack != []
      invariant r + StackColumns(stack) == Flattened(name, value)
      decreases StackSize(stack)
    {
      StackPop(stack);
      var variableName, v := stack[|stack| - 1].0, stack[|stack| - 1].1;
      var rest := stack[..|stack| - 1];
      if !v.Dict? {
        var cell := (variableName, VarCell(v));
        assert r + ([cell] + StackColumns(rest)) == (r + [cell]) + StackColumns(rest);
        r := r + [cell];
        stack := rest;
      } else {
        stack := PushEntries(rest, variableName, v);
      }
    }
  }

  /** The top entry of a stack comes off first: its columns, then those of
      the rest. */
  lemma StackPop(stack: seq<(string, Value)>)
    requires stack != []
    ensures var top, rest := stack[|stack| - 1], stack[..|stack| - 1];
            && StackColumns(stack) ==
               (if top.1.Dict? then FlattenedItems(top.0, top.1, 0) else [(top.0, VarCell(top.1))]) + StackColumns(rest)
            && StackSize(stack) == (if top.1.Dict? then 1 + ItemsSize(top.1, 0) else 1) + StackSize(rest)
  {
  }

  /** The columns of every variable of a benchmark, in matrix order. */
  function FlattenedMatrix(matrix: Assignment): Row
  {
    if matrix == [] then []
    else FlattenedMatrix(matrix[..|matrix| - 1]) + Flattened(matrix[|matrix| - 1].0, matrix[|matrix| - 1].1)
  }

  method FlattenMatrix(matrix: Assignment) returns (r: Row)
    ensures r == FlattenedMatrix(matrix)
  {
    r := [];
    for i := 0 to |matrix|
      invariant r == FlattenedMatrix(matrix[..i])
    {
      assert matrix[..i + 1][..i] == matrix[..i];
      var columns := FlattenVariable(matrix[i].0, matrix[i].1);
      r := r + columns;
    }
    assert matrix[..|matrix|] == matrix;
  }

  /** A matrix without dict values is its own flattening: one column per
      variable, same names, same order. */
  lemma {:induction false} FlatMatrixUnchanged(matrix: Assignment)
    requires forall i :: 0 <= i < |matrix| ==> !matrix[i].1.Dict?
    ensures |FlattenedMatrix(matrix)| == |matrix|
    ensures forall i :: 0 <= i < |matrix| ==> FlattenedMatrix(matrix)[i] == (matrix[i].0, VarCell(matrix[i].1))
    decreases |matrix|
  {
    if matrix != [] {
      FlatMatrixUnchanged(matrix[..|matrix| - 1]);
    }
  }

  /* ---------------------------------------------------------------------- */
  /* Benchmarks                                                               */
  /* ---------------------------------------------------------------------- */

  /** `n` more samples of a benchmark whose variables give the columns
      `vars`: each sample appends its rows under a fresh id. Once the
      benchmark has failed, every remaining sample launches only its custom
      metrics' commands and the benchmark stays failed; with distinct
      columns, a rectangular table stays rectangular. */
  function Samples(world: World, b: PreparedBenchmark, vars: Row, n: nat, failed: bool, p: Progress,
                   enabled: set<BuiltInMetric>, toFloat: string -> Option<real>): (r: Result<(bool, Progress), GatherError>)
    ensures r.Success? ==> r.value.1.nextId == p.nextId + n
    ensures r.Success? && failed ==> r.value.0 && r.value.1.log == p.log + Repeated(MetricCommands(b.customMetrics), n)
    ensures r.Success? && DistinctNames(RowKeys(vars)) && Rectangular(p.table, RowKeys(vars)) ==>
              Rectangular(r.value.1.table, RowKeys(vars))
    decreases n
  {
    if n == 0 then Success((failed, p))
    else
      var q :- NextSample(world, b, vars, failed, p, enabled, toFloat);
      var r := Samples(world, b, vars, n - 1, q.0, q.1, enabled, toFloat);
      if r.Success? && failed then
        RepeatedOnce(p.log, q.1.log, r.value.1.log, MetricCommands(b.customMetrics), n);
        r
      else r
  }

  /** One sample, its rows appended under the next id: whether the
      benchmark has failed since, and the progress. */
  function NextSample(world: World, b: PreparedBenchmark, vars: Row, failed: bool, p: Progress,
                      enabled: set<BuiltInMetric>, toFloat: string -> Option<real>): (r: Result<(bool, Progress), GatherError>)
    ensures r.Success? ==> r.value.1.nextId == p.nextId + 1
    ensures r.Success? && failed ==> r.value.0 && r.value.1.log == p.log + MetricCommands(b.customMetrics)
    ensures r.Success? && DistinctNames(RowKeys(vars)) && Rectangular(p.table, RowKeys(vars)) ==>
              Rectangular(r.value.1.table, RowKeys(vars))
  {
    var s :- Sample(world, b, failed, p.log, enabled, toFloat);
    FailedSampleRunsOnlyMetrics(world, b, p.log, enabled, toFloat);
    var table := AppendedRows(p.table, SampleRows(p.nextId, vars, s.failed, s.results));
    SampleKeepsRectangular(p.table, p.nextId, vars, s.failed, s.results);
    Success((s.failed, Progress(s.log, table, p.nextId + 1)))
  }

  /** Lines 234-415 for one benchmark: setup, the samples, and cleanup when
      nothing failed. */
  function Benchmark(world: World, b: PreparedBenchmark, samples: nat, p: Progress,
                     enabled: set<BuiltInMetric>, toFloat: string -> Option<real>): Result<Progress, GatherError>
  {
    var setup := Section(world, p.log, b.setup);
    var r :- Samples(world, b, FlattenedMatrix(b.matrix), samples, !setup.0, Progress(setup.1, p.table, p.nextId), enabled, toFloat);
    if r.0 then Success(r.1)
    else Success(r.1.(log := Section(world, r.1.log, b.cleanup).1))
  }

  /** The benchmarks from a given state, in order. */
  function Benchmarks(world: World, bs: seq<PreparedBenchmark>, samples: nat, p: Progress,
                      enabled: set<BuiltInMetric>, toFloat: string -> Option<real>): Result<Progress, GatherError>
    decreases |bs|
  {
    if bs == [] then Success(p)
    else
      var q :- Benchmark(world, bs[0], samples, p, enabled, toFloat);
      Benchmarks(world, bs[1..], samples, q, enabled, toFloat)
  }

  method RunSamples(world: World, b: PreparedBenchmark, vars: Row, samples: nat, failed: bool, p: Progress,
                    enabled: set<BuiltInMetric>, toFloat: string -> Option<real>) returns (r: Result<(bool, Progress), GatherError>)
    ensures r == Samples(world, b, vars, samples, failed, p, enabled, toFloat)
  {
    var hasFailed, progress := failed, p;
    for i := 0 to samples
      invariant Samples(world, b, vars, samples, failed, p, enabled, toFloat)
                == Samples(world, b, vars, samples - i, hasFailed, progress, enabled, toFloat)
    {
      var sample := RunSample(world, b, hasFailed, progress.log, enabled, toFloat);
      if sample.Failure? {
        return Failure(sample.error);
      }
      var s := sample.value;
      var table := AppendSample(progress.table, progress.nextId, vars, s.failed, s.results);
      hasFailed, progress := s.failed, Progress(s.log, table, progress.nextId + 1);
    }
    return Success((hasFailed, progress));
  }

  method RunBenchmark(world: World, b: PreparedBenchmark, samples: nat, p: Progress,
                      enabled: set<BuiltInMetric>, toFloat: string -> Option<real>) returns (r: Result<Progress, GatherError>)
    ensures r == Benchmark(world, b, samples, p, enabled, toFloat)
  {
    var ok, log := RunSection(world, p.log, b.setup);
    var vars := FlattenMatrix(b.matrix);
    var sampled := RunSamples(world, b, vars, samples, !ok, Progress(log, p.table, p.nextId), enabled, toFloat);
    if sampled.Failure? {
      return Failure(sampled.error);
    }
    var hasFailed, progress := sampled.value.0, sampled.value.1;
    if !hasFailed {
      var _, cleaned := RunSection(world, progress.log, b.cleanup);
      progress := progress.(log := cleaned);
    }
    return Success(progress);
  }

  /** `perform_benchmarks`: the result table of every benchmark run
      `samples` times, or the classification error that stops the run. The
      first command launched has the outcome `world(0)`. */
  method PerformBenchmarks(world: World, benchmarks: seq<PreparedBenchmark>, samples: nat,
                           enabled: set<BuiltInMetric>, toFloat: string -> Option<real>) returns (r: Result<Progress, GatherError>)
    ensures r == Benchmarks(world, benchmarks, samples, Progress([], [], 0), enabled, toFloat)
  {
    var progress := Progress([], [], 0);
    for i := 0 to |benchmarks|
      invariant Benchmarks(world, benchmarks, samples, Progress([], [], 0), enabled, toFloat)
                == Benchmarks(world, benchmarks[i..], samples, progress, enabled, toFloat)
    {
      assert benchmarks[i..][0] == benchmarks[i] && benchmarks[i..][1..] == benchmarks[i + 1..];
      var done := RunBenchmark(world, benchmarks[i], samples, progress, enabled, toFloat);
      if done.Failure? {
        return Failure(done.error);
      }
      progress := done.value;
    }
    return Success(progress);
  }

  /** Lines 239-243 and 414-415: when setup fails, no prepare, stage,
      conclude or cleanup command runs; only the custom metrics do, once
      per sample. */
  lemma FailedSetupRunsOnlyMetrics(world: World, b: PreparedBenchmark, samples: nat, p: Progress,
                                   enabled: set<BuiltInMetric>, toFloat: string -> Option<real>)
    requires !Section(world, p.log, b.setup).0
    ensures var r := Benchmark(world, b, samples, p, enabled, toFloat);
      r.Success? ==> r.value.log == Section(world, p.log, b.setup).1 + Repeated(MetricCommands(b.customMetrics), samples)
  {
    var setup := Section(world, p.log, b.setup);
    var r := Samples(world, b, FlattenedMatrix(b.matrix), samples, true, Progress(setup.1, p.table, p.nextId), enabled, toFloat);
    assert r.Success? ==> r.value.0;
  }

  /** Lines 386-411: when every benchmark's variables flatten to the same
      distinct columns, every column of the result table ends up as long as
      the id column, and no other column appears. */
  lemma {:induction false} BenchmarksKeepRectangular(world: World, bs: seq<PreparedBenchmark>, samples: nat, p: Progress,
                                                   enabled: set<BuiltInMetric>, toFloat: string -> Option<real>, keys: seq<string>)
    requires forall i :: 0 <= i < |bs| ==> RowKeys(FlattenedMatrix(bs[i].matrix)) == keys
    requires DistinctNames(keys) && Rectangular(p.table, keys)
    ensures var r := Benchmarks(world, bs, samples, p, enabled, toFloat);
      r.Success? ==> Rectangular(r.value.table, keys)
    decreases |bs|
  {
    var r := Benchmarks(world, bs, samples, p, enabled, toFloat);
    if bs != [] && r.Success? {
      var b := bs[0];
      var setup := Section(world, p.log, b.setup);
      var start := Progress(setup.1, p.table, p.nextId);
      var sampled := Samples(world, b, FlattenedMatrix(b.matrix), samples, !setup.0, start, enabled, toFloat);
      var q := Benchmark(world, b, samples, p, enabled, toFloat).value;
      assert forall i :: 0 <= i < |bs[1..]| ==> bs[1..][i] == bs[i + 1];
      BenchmarksKeepRectangular(world, bs[1..], samples, q, enabled, toFloat, keys);
    }
  }

  /** The whole run starts from an empty table, so its table is rectangular
      under the same condition. */
  lemma ResultTableRectangular(world: World, bs: seq<PreparedBenchmark>, samples: nat,
                               enabled: set<BuiltInMetric>, toFloat: string -> Option<real>, keys: seq<string>)
    requires forall i :: 0 <= i < |bs| ==> RowKeys(FlattenedMatrix(bs[i].matrix)) == keys
    requires DistinctNames(keys)
    ensures var r := Benchmarks(world, bs, samples, Progress([], [], 0), enabled, toFloat);
      r.Success? ==> Rectangular(r.value.table, keys)
  {
    BenchmarksKeepRectangular(world, bs, samples, Progress([], [], 0), enabled, toFloat, keys);
  }
}

=== FILE: benchalot_log.dfy ===
/**
 * The terminal output of src/benchalot/log.py: the progress bar `Bar`,
 * whose cursor bookkeeping decides which escape sequences reach the
 * terminal, and `FastConsole`, which buffers text and prints it above the
 * active bar. Timing (`monotonic_ns`, the average and the estimate) and the
 * asynchronous refresh loop are not modelled.
 */
module BenchalotLog {
  import opened Common
  import opened Streams

  const Esc: char := 27 as char

  /** `\033[s`, `\033[u` and `\033[0K`: save and restore the cursor, clear
      to the end of the line. */
  const SaveCursor: string := [Esc] + "[s"
  const RestoreCursor: string := [Esc] + "[u"
  const EraseLine: string := [Esc] + "[0K"

  /** What `erase_bar` sends: nothing unless the cursor was saved. */
  function EraseCodes(savedPos: bool): string
  {
    if savedPos then RestoreCursor + EraseLine else ""
  }

  const BarWidth: nat := 20

  /** The number of `#` marks after `curr` of `n` iterations: the
      completion percentage divided by 5, truncated. */
  function Ticks(curr: nat, n: nat): nat
    requires n > 0
  {
    (curr * BarWidth) / n
  }

  /** After the last iteration the bar is full. */
  lemma TicksComplete(n: nat)
    requires n > 0
    ensures Ticks(n, n) == BarWidth
  {
    var q := (n * BarWidth) / n;
    assert n * BarWidth == BarWidth * n + 0;
  }

  /** The bar text: `ticks` marks, then spaces up to the width. */
  function BarText(ticks: nat): (r: string)
    requires ticks <= BarWidth
    ensures |r| == BarWidth
    ensures forall i :: 0 <= i < BarWidth ==> (r[i] == '#' <==> i < ticks) && (r[i] == '#' || r[i] == ' ')
  {
    seq(BarWidth, i requires 0 <= i < BarWidth => if i < ticks then '#' else ' ')
  }

  /** The live progress bar. */
  class Bar {
    const terminal: Sink
    const nIter: nat
    var currIter: nat
    var savedPos: bool
    var bar: string
    var title: string

    constructor (terminal: Sink, nIter: nat)
      ensures this.terminal == terminal && this.nIter == nIter
      ensures currIter == 0 && !savedPos && bar == BarText(0) && title == ""
    {
      this.terminal := terminal;
      this.nIter := nIter;
      currIter := 0;
      savedPos := false;
      bar := BarText(0);
      title := "";
    }

    /** `save_cursor_pos`, lines 80-83. */
    method SaveCursorPos()
      modifies this, terminal
      ensures savedPos && terminal.text == old(terminal.text) + SaveCursor
      ensures currIter == old(currIter) && bar == old(bar) && title == old(title)
    {
      terminal.Write(SaveCursor);
      savedPos := true;
    }

    /** `restore_cursor_pos`, lines 85-88. */
    method RestoreCursorPos()
      modifies this, terminal
      ensures !savedPos && terminal.text == old(terminal.text) + RestoreCursor
      ensures currIter == old(currIter) && bar == old(bar) && title == old(title)
    {
      terminal.Write(RestoreCursor);
      savedPos := false;
    }

    /** `erase_bar`, lines 95-99: only a saved position is restored and the
        line cleared; afterwards no position is saved. */
    method EraseBar()
      modifies this, terminal
      ensures !savedPos && terminal.text == old(terminal.text) + EraseCodes(old(savedPos))
      ensures currIter == old(currIter) && bar == old(bar) && title == old(title)
    {
      if savedPos {
        RestoreCursorPos();
        terminal.Write(EraseLine);
      }
    }

    /** `write`, lines 90-93: the bar is erased and the text printed. */
    method Write(buffer: string)
      modifies this, terminal
      ensures !savedPos && terminal.text == old(terminal.text) + EraseCodes(old(savedPos)) + buffer
      ensures currIter == old(currIter) && bar == old(bar) && title == old(title)
    {
      EraseBar();
      terminal.Write(buffer);
    }

    /** `progress`, lines 60-78: one more iteration, the bar redrawn with
        one mark per 5%, and erased once every iteration is done. The
        source divides by `n_iter` and indexes a 20-element list, so it
        needs at least one iteration and at most 20 marks. */
    method Progress()
      requires nIter > 0 && Ticks(currIter + 1, nIter) <= BarWidth
      modifies this, terminal
      ensures currIter == old(currIter) + 1
      ensures bar == BarText(Ticks(currIter, nIter))
      ensures currIter == nIter ==> bar == BarText(BarWidth)
      ensures currIter >= nIter ==> !savedPos && terminal.text == old(terminal.text) + EraseCodes(old(savedPos))
      ensures currIter < nIter ==> savedPos == old(savedPos) && terminal.text == old(terminal.text)
      ensures title == old(title)
    {
      currIter := currIter + 1;
      var ticks := Ticks(currIter, nIter);
      var marks := BarText(0);
      for i := 0 to ticks
        invariant |marks| == BarWidth
        invariant forall j :: 0 <= j < BarWidth ==> marks[j] == (if j < i then '#' else ' ')
      {
        marks := marks[i := '#'];
      }
      assert marks == BarText(ticks);
      if currIter == nIter {
        TicksComplete(nIter);
      }
      bar := marks;
      if currIter >= nIter {
        EraseBar();
      }
    }

    /** `set_description`. */
    method SetDescription(title: string)
      modifies this
      ensures this.title == title
      ensures currIter == old(currIter) && savedPos == old(savedPos) && bar == old(bar)
    {
      this.title := title;
    }
  }

  datatype BarError = BarAlreadyActive  // `RuntimeError` of `bar()`

  /** The buffered console. `written` and `flushed` are the text given to
      `write` and the text flushed out so far; they exist for the
      specification only. */
  class FastConsole {
    const terminal: Sink
    var activeBar: Bar?
    var buffer: string
    var verbose: bool
    var file: Sink?
    ghost var written: string
    ghost var flushed: string

    /** Nothing is lost or reordered: the flushed text followed by the
        buffer is everything written; an active bar draws on the same
        terminal. */
    ghost predicate Valid()
      reads this, activeBar
    {
      && flushed + buffer == written
      && (activeBar != null ==> activeBar.terminal == terminal)
    }

    constructor (terminal: Sink)
      ensures Valid()
      ensures this.terminal == terminal && activeBar == null && buffer == "" && !verbose && file == null
      ensures written == "" && flushed == ""
    {
      this.terminal := terminal;
      activeBar := null;
      buffer := "";
      verbose := false;
      file := null;
      written := "";
      flushed := "";
    }

    /** `set_verbose`. */
    method SetVerbose(verbose: bool)
      modifies this
      ensures this.verbose == verbose
      ensures activeBar == old(activeBar) && buffer == old(buffer) && file == old(file)
      ensures written == old(written) && flushed == old(flushed)
    {
      this.verbose := verbose;
    }

    /** `flush`, lines 178-187: the whole buffer goes above the active bar,
        or straight to the terminal, and the buffer is emptied. */
    method Flush()
      requires Valid()
      modifies this, terminal, activeBar
      ensures Valid()
      ensures buffer == "" && flushed == old(flushed) + old(buffer) && written == old(written)
      ensures activeBar == old(activeBar) && verbose == old(verbose) && file == old(file)
      ensures old(activeBar) == null ==> terminal.text == old(terminal.text) + old(buffer)
      ensures old(activeBar) != null ==>
                && terminal.text == old(terminal.text) + EraseCodes(old(activeBar.savedPos)) + old(buffer)
                && !activeBar.savedPos && activeBar.currIter == old(activeBar.currIter)
      ensures activeBar != null ==> activeBar.bar == old(activeBar.bar) && activeBar.title == old(activeBar.title)
    {
      if activeBar != null {
        activeBar.Write(buffer);
      } else {
        terminal.Write(buffer);
      }
      flushed := flushed + buffer;
      buffer := "";
    }

    /** `write`, lines 123-127: the buffer is flushed first when the text
        would fill it, then the text is added. */
    method Write(text: string)
      requires Valid()
      modifies this, terminal, activeBar
      ensures Valid()
      ensures written == old(written) + text
      ensures flushed == old(flushed) + WriteStep(old(buffer), text).0
      ensures buffer == WriteStep(old(buffer), text).1
      ensures activeBar == old(activeBar) && verbose == old(verbose) && file == old(file)
      ensures !Flushes(old(buffer), text) ==> terminal.text == old(terminal.text)
      ensures activeBar == null ==> terminal.text == old(terminal.text) + WriteStep(old(buffer), text).0
      ensures activeBar != null && Flushes(old(buffer), text) ==>
                && terminal.text == old(terminal.text) + EraseCodes(old(activeBar.savedPos)) + old(buffer)
                && !activeBar.savedPos
      ensures activeBar != null && !Flushes(old(buffer), text) ==> activeBar.savedPos == old(activeBar.savedPos)
      ensures activeBar != null ==> activeBar.currIter == old(activeBar.currIter)
      ensures activeBar != null ==> activeBar.bar == old(activeBar.bar) && activeBar.title == old(activeBar.title)
    {
      if |buffer| + |text| >= Capacity {
        Flush();
        assert buffer + text == text;
      }
      buffer := buffer + text;
      written := written + text;
    }

    /** `print`, lines 173-176: the text and its ending are written and
        flushed, so the old buffer, the text and its ending reach the
        terminal in that order, above an active bar after its erase codes,
        and nothing stays buffered. */
    method Print(text: string, end: string)
      requires Valid()
      modifies this, terminal, activeBar
      ensures Valid()
      ensures buffer == "" && written == old(written) + text + end && flushed == written
      ensures activeBar == old(activeBar) && verbose == old(verbose) && file == old(file)
      ensures activeBar == null ==> terminal.text == old(terminal.text) + old(buffer) + text + end
      ensures activeBar != null ==>
                && terminal.text == old(terminal.text) + EraseCodes(old(activeBar.savedPos)) + old(buffer) + text + end
                && !activeBar.savedPos && activeBar.currIter == old(activeBar.currIter)
      ensures activeBar != null ==> activeBar.bar == old(activeBar.bar) && activeBar.title == old(activeBar.title)
    {
      ghost var before := terminal.text;
      ghost var erase := if activeBar == null then "" else EraseCodes(activeBar.savedPos);
      ghost var pending := buffer;
      Write(text + end);
      ghost var middle := terminal.text;
      ghost var rest := buffer;
      assert middle + EraseCodes(activeBar != null && activeBar.savedPos) + rest
          == before + erase + pending + text + end;
      Flush();
    }

    /** `log_command_output`, lines 167-171: the output always goes to the
        log file, and to the console only when verbose. The source needs
        an open log file. */
    method LogCommandOutput(text: string)
      requires Valid() && file != null && file != terminal
      modifies this, terminal, activeBar, file
      ensures Valid()
      ensures file == old(file) && file.text == old(file.text) + text
      ensures activeBar == old(activeBar) && verbose == old(verbose)
      ensures verbose ==>
                && written == old(written) + text
                && flushed == old(flushed) + WriteStep(old(buffer), text).0
                && buffer == WriteStep(old(buffer), text).1
      ensures !verbose ==> written == old(written) && flushed == old(flushed) && buffer == old(buffer)
      ensures activeBar == null ==>
                terminal.text == old(terminal.text) + (if verbose then WriteStep(old(buffer), text).0 else "")
      ensures activeBar != null && verbose && Flushes(old(buffer), text) ==>
                && terminal.text == old(terminal.text) + EraseCodes(old(activeBar.savedPos)) + old(buffer)
                && !activeBar.savedPos
      ensures activeBar != null && !(verbose && Flushes(old(buffer), text)) ==>
                terminal.text == old(terminal.text) && activeBar.savedPos == old(activeBar.savedPos)
      ensures activeBar != null ==>
                && activeBar.currIter == old(activeBar.currIter)
                && activeBar.bar == old(activeBar.bar) && activeBar.title == old(activeBar.title)
    {
      if verbose {
        Write(text);
      }
      file.Write(text);
    }

    /** Entering `bar(n_iter)`, lines 155-163: a new bar when none is
        active. Otherwise `RuntimeError`, and the `finally` clause still
        clears the bar that was active. */
    method BeginBar(nIter: nat) returns (r: Result<Bar, BarError>)
      requires Valid()
      modifies this
      ensures Valid()
      ensures old(activeBar) == null ==>
                r.Success? && fresh(r.value) && activeBar == r.value
                && r.value.nIter == nIter && r.value.currIter == 0 && !r.value.savedPos
      ensures old(activeBar) != null ==> r == Failure(BarAlreadyActive) && activeBar == null
      ensures buffer == old(buffer) && written == old(written) && flushed == old(flushed)
      ensures verbose == old(verbose) && file == old(file)
    {
      if activeBar == null {
        var bar := new Bar(terminal, nIter);
        activeBar := bar;
        return Success(bar);
      }
      activeBar := null;
      return Failure(BarAlreadyActive);
    }

    /** Leaving the `bar` block: the bar is gone. */
    method EndBar()
      modifies this
      ensures activeBar == null && Valid() == (flushed + buffer == written)
      ensures buffer == old(buffer) && written == old(written) && flushed == old(flushed)
      ensures verbose == old(verbose) && file == old(file)
    {
      activeBar := null;
    }

    /** Entering `log_to_file(filename)`, lines 130-142: a missing or empty
        name means `/dev/null`; the file is opened for appending, so it
        starts with what it held before. */
    method BeginLogToFile(filename: Option<string>, existing: string) returns (f: Sink)
      modifies this
      ensures fresh(f) && file == f && f.text == existing
      ensures f.name == if filename.None? || filename.value == "" then "/dev/null" else filename.value
      ensures activeBar == old(activeBar) && buffer == old(buffer) && verbose == old(verbose)
      ensures written == old(written) && flushed == old(flushed)
    {
      var name := if filename.None? || filename.value == "" then "/dev/null" else filename.value;
      f := new Sink(name, existing);
      file := f;
    }

    /** Leaving the `log_to_file` block, line 144. */
    method EndLogToFile()
      modifies this
      ensures file == null
      ensures activeBar == old(activeBar) && buffer == old(buffer) && verbose == old(verbose)
      ensures written == old(written) && flushed == old(flushed)
    {
      file := null;
    }
  }
}

=== FILE: benchalot_prepare.dfy ===
/**
 * `convert_to_list` and `prepare_benchmarks` of src/benchalot/prepare.py.
 * Command sections may be written as one multi-line string. The candidates
 * are the product combinations followed by the `include` entries; the empty
 * combination is dropped whenever there is more than one candidate, and
 * excluded ones are skipped. Each kept combination is stored behind the
 * run's time stamp, and every command, custom metric, environment value,
 * working directory and output file name is interpolated with it.
 */
module BenchalotPrepare {
  import opened Common
  import opened VariableMatrix
  import opened Interpolate
  import opened PrepareCommon
  import opened OutputConstants

  /** A command section: one multi-line string or a list of commands. */
  datatype Commands = Text(text: string) | Lines(lines: seq<string>)

  /** The parts of a validated `ConfigFile` that preparation reads. */
  datatype Config = Config(
    setup: Commands,
    prepare: Commands,
    benchmark: Dict<Commands>,
    conclude: Commands,
    cleanup: Commands,
    customMetrics: seq<Dict<string>>,
    matrix: Matrix,
    exclude: seq<Assignment>,
    included: seq<Assignment>,
    isolateCpus: bool,
    env: Dict<string>,
    cwd: Option<string>,
    saveOutput: Option<string>)

  datatype PreparedBenchmark = PreparedBenchmark(
    matrix: Assignment,
    setup: seq<string>,
    prepare: seq<string>,
    benchmark: Dict<seq<string>>,
    conclude: seq<string>,
    customMetrics: seq<(string, string)>,
    cleanup: seq<string>,
    env: Dict<string>,
    cwd: Option<string>,
    saveOutput: Option<string>)

  function NonEmpty(lines: seq<string>): (r: seq<string>)
    ensures |r| <= |lines|
    ensures forall x :: x in r <==> x in lines && x != ""
  {
    if lines == [] then []
    else (if lines[0] == "" then [] else [lines[0]]) + NonEmpty(lines[1..])
  }

  /** `convert_to_list`: a string is cut into its non-empty lines, a list is
      kept as it is. */
  function ConvertToList(c: Commands): (r: seq<string>)
    ensures c.Lines? ==> r == c.lines
    ensures c.Text? ==> forall i :: 0 <= i < |r| ==> r[i] != "" && '\n' !in r[i]
    ensures c.Text? ==> forall x :: x in r <==> x != "" && x in Split(c.text, '\n')
    ensures c.Text? ==> |r| <= CountChar(c.text, '\n') + 1
  {
    match c
    case Lines(lines) => lines
    case Text(text) =>
      SplitJoin(text, '\n');
      var r := NonEmpty(Split(text, '\n'));
      assert forall i :: 0 <= i < |r| ==> r[i] in r;
      r
  }

  /** A text without empty lines converts to exactly its lines, and joining
      them with newlines gives the text back. */
  lemma ConvertTextWithoutEmptyLines(text: string)
    requires forall i :: 0 <= i < |Split(text, '\n')| ==> Split(text, '\n')[i] != ""
    ensures ConvertToList(Text(text)) == Split(text, '\n')
    ensures Join(ConvertToList(Text(text)), "\n") == text
  {
    NonEmptyKeepsAll(Split(text, '\n'));
    SplitJoin(text, '\n');
  }

  lemma {:induction false} NonEmptyKeepsAll(lines: seq<string>)
    requires forall i :: 0 <= i < |lines| ==> lines[i] != ""
    ensures NonEmpty(lines) == lines
  {
    if lines != [] {
      NonEmptyKeepsAll(lines[1..]);
      assert [lines[0]] + lines[1..] == lines;
    }
  }

  /** The `benchmark` stages as lists (lines 117-119), `cset`-prefixed when
      CPUs are isolated (lines 122-126). */
  function BaseStages(config: Config): (r: Dict<seq<string>>)
    ensures Keys(r) == Keys(config.benchmark)
  {
    var converted := seq(|config.benchmark|, i requires 0 <= i < |config.benchmark| =>
                         (config.benchmark[i].0, ConvertToList(config.benchmark[i].1)));
    if config.isolateCpus then IsolateStages(converted) else converted
  }

  /** `var_combinations` (lines 130-131). */
  function Candidates(config: Config): seq<Assignment>
  {
    Combinations(config.matrix) + config.included
  }

  /** Lines 133-136: the empty combination when there is more than one
      candidate, and every excluded combination, are skipped. */
  predicate Skipped(c: Assignment, many: bool, exclude: seq<Assignment>)
  {
    (c == [] && many) || Excluded(c, exclude)
  }

  /** The combination behind the time stamp (lines 138-140). */
  function Stamped(c: Assignment, timeStamp: string): (r: Assignment)
    ensures |r| >= 1 && r[0].0 == TimeStampColumn
  {
    UpdateKeepsKeys([(TimeStampColumn, Str(timeStamp))], c);
    Update([(TimeStampColumn, Str(timeStamp))], c)
  }

  /** A combination with distinct names none of which is the time-stamp
      column comes right after the time stamp, unchanged. */
  lemma StampedPutsTimeStampFirst(c: Assignment, timeStamp: string)
    requires UniqueKeys(c) && !HasKey(c, TimeStampColumn)
    ensures Stamped(c, timeStamp) == [(TimeStampColumn, Str(timeStamp))] + c
  {
    var d := [(TimeStampColumn, Str(timeStamp))];
    assert UniqueKeys(d + c) by {
      forall i, j | 0 <= i < j < |d + c|
        ensures (d + c)[i].0 != (d + c)[j].0
      {
        if i == 0 {
          assert (d + c)[j] == c[j - 1];
        } else {
          assert (d + c)[i] == c[i - 1] && (d + c)[j] == c[j - 1];
        }
      }
    }
    UpdateAppends(d, c);
  }

  /** `env[var] = interpolate_variables(env[var], c)` for every variable of
      a copy of `env`. */
  function InterpolateEnv(env: Dict<string>, c: Assignment): (r: Result<Dict<string>, InterpolationError>)
    ensures r.Success? ==> Keys(r.value) == Keys(env)
    ensures r.Success? ==> forall k :: 0 <= k < |env| ==>
              InterpolateVariables(env[k].1, c) == Success(r.value[k].1)
  {
    MapAll(env, (kv: (string, string)) =>
      match InterpolateVariables(kv.1, c)
      case Success(v) => Success((kv.0, v))
      case Failure(e) => Failure(e))
  }

  /** `cwd` and `save_output`: interpolated when set and non-empty, passed
      through otherwise. */
  function InterpolateIfSet(o: Option<string>, c: Assignment): (r: Result<Option<string>, InterpolationError>)
    ensures (o.None? || o.value == "") ==> r == Success(o)
    ensures o.Some? && o.value != "" ==>
              r == match InterpolateVariables(o.value, c)
                   case Success(v) => Success(Some(v))
                   case Failure(e) => Failure(e)
  {
    if o.Some? && o.value != "" then
      match InterpolateVariables(o.value, c)
      case Success(v) => Success(Some(v))
      case Failure(e) => Failure(e)
    else Success(o)
  }

  /** The benchmark for one kept combination (lines 138-180), parts in the
      order the source computes them. */
  function PrepareOne(config: Config, stages: Dict<seq<string>>, c: Assignment, timeStamp: string)
    : (r: Result<PreparedBenchmark, PrepareError>)
    ensures r.Success? ==> r.value.matrix == Stamped(c, timeStamp)
    ensures r.Success? ==> Keys(r.value.benchmark) == Keys(stages) && Keys(r.value.env) == Keys(config.env)
    ensures r.Success? ==> InterpolateStages(stages, Stamped(c, timeStamp)) == Success(r.value.benchmark)
  {
    var m := Stamped(c, timeStamp);
    var setup :- Lift(InterpolateAll(ConvertToList(config.setup), m));
    var prepare :- Lift(InterpolateAll(ConvertToList(config.prepare), m));
    var bench :- Lift(InterpolateStages(stages, m));
    var conclude :- Lift(InterpolateAll(ConvertToList(config.conclude), m));
    var cm :- CustomMetrics(config.customMetrics, m);
    var cleanup :- Lift(InterpolateAll(ConvertToList(config.cleanup), m));
    var env :- Lift(InterpolateEnv(config.env, m));
    var cwd :- Lift(InterpolateIfSet(config.cwd, m));
    var saveOutput :- Lift(InterpolateIfSet(config.saveOutput, m));
    Success(PreparedBenchmark(m, setup, prepare, bench, conclude, cm, cleanup, env, cwd, saveOutput))
  }

  function SkippedBy(many: bool, exclude: seq<Assignment>): Assignment -> bool
  {
    (c: Assignment) => Skipped(c, many, exclude)
  }

  function Preparer(config: Config, stages: Dict<seq<string>>, timeStamp: string)
    : Assignment -> Result<PreparedBenchmark, PrepareError>
  {
    (c: Assignment) => PrepareOne(config, stages, c, timeStamp)
  }

  /** The list `prepare_benchmarks(config)` returns. */
  function PreparedBenchmarks(config: Config, timeStamp: string): Result<seq<PreparedBenchmark>, PrepareError>
  {
    var candidates := Candidates(config);
    PrepareEach(candidates, SkippedBy(|candidates| > 1, config.exclude), Preparer(config, BaseStages(config), timeStamp))
  }

  /** Lines 153-157: a copy of `env`, value by value (the shell expansion of
      each value is not modelled). */
  method InterpolateEnvironment(env: Dict<string>, c: Assignment) returns (r: Result<Dict<string>, InterpolationError>)
    ensures r == InterpolateEnv(env, c)
  {
    var copy := env;
    for k := 0 to |env|
      invariant |copy| == |env|
      invariant forall j :: 0 <= j < k ==>
                  InterpolateVariables(env[j].1, c).Success?
                  && copy[j] == (env[j].0, InterpolateVariables(env[j].1, c).value)
      invariant forall j :: k <= j < |env| ==> copy[j] == env[j]
    {
      var value := InterpolateVariables(copy[k].1, c);
      if value.Failure? {
        return Failure(value.error);
      }
      copy := copy[k := (copy[k].0, value.value)];
    }
    MapAllSucceeds(env, (kv: (string, string)) =>
      match InterpolateVariables(kv.1, c)
      case Success(v) => Success((kv.0, v))
      case Failure(e) => Failure(e), copy);
    return Success(copy);
  }

  /** Lines 138-180 for one combination. */
  method PrepareCombination(config: Config, stages: Dict<seq<string>>, c: Assignment, timeStamp: string)
    returns (r: Result<PreparedBenchmark, PrepareError>)
    ensures r == PrepareOne(config, stages, c, timeStamp)
  {
    var m := Update([(TimeStampColumn, Str(timeStamp))], c);
    var setup := InterpolateCommands(ConvertToList(config.setup), m);
    if setup.Failure? { return Failure(Unresolved(setup.error)); }
    var prepare := InterpolateCommands(ConvertToList(config.prepare), m);
    if prepare.Failure? { return Failure(Unresolved(prepare.error)); }
    var bench := InterpolateStageCommands(stages, m);
    if bench.Failure? { return Failure(Unresolved(bench.error)); }
    var conclude := InterpolateCommands(ConvertToList(config.conclude), m);
    if conclude.Failure? { return Failure(Unresolved(conclude.error)); }
    var cm := ProcessCustomMetrics(config.customMetrics, m);
    if cm.Failure? { return Failure(cm.error); }
    var cleanup := InterpolateCommands(ConvertToList(config.cleanup), m);
    if cleanup.Failure? { return Failure(Unresolved(cleanup.error)); }
    var env := InterpolateEnvironment(config.env, m);
    if env.Failure? { return Failure(Unresolved(env.error)); }
    var cwd: Option<string> := config.cwd;
    if config.cwd.Some? && config.cwd.value != "" {
      var interpolated := InterpolateVariables(config.cwd.value, m);
      if interpolated.Failure? { return Failure(Unresolved(interpolated.error)); }
      cwd := Some(interpolated.value);
    }
    var saveOutput: Option<string> := config.saveOutput;
    if config.saveOutput.Some? && config.saveOutput.value != "" {
      var interpolated := InterpolateVariables(config.saveOutput.value, m);
      if interpolated.Failure? { return Failure(Unresolved(interpolated.error)); }
      saveOutput := Some(interpolated.value);
    }
    return Success(PreparedBenchmark(m, setup.value, prepare.value, bench.value, conclude.value, cm.value,
                                     cleanup.value, env.value, cwd, saveOutput));
  }

  /** `prepare_benchmarks(config)`. */
  method PrepareBenchmarks(config: Config, timeStamp: string) returns (r: Result<seq<PreparedBenchmark>, PrepareError>)
    ensures r == PreparedBenchmarks(config, timeStamp)
  {
    var converted: Dict<seq<string>> := [];
    for k := 0 to |config.benchmark|
      invariant |converted| == k
      invariant forall j :: 0 <= j < k ==>
                  converted[j] == (config.benchmark[j].0, ConvertToList(config.benchmark[j].1))
    {
      converted := converted + [(config.benchmark[k].0, ConvertToList(config.benchmark[k].1))];
    }
    var table := new StageTable(converted);
    if config.isolateCpus {
      table.Isolate();
    }
    assert table.stages == BaseStages(config);
    var candidates := Combinations(config.matrix) + config.included;
    r := PrepareCandidates(config, table.stages, candidates, |candidates| > 1, timeStamp);
  }

  /** Lines 132-181: candidates in order, skipped ones left out. */
  method PrepareCandidates(config: Config, stages: Dict<seq<string>>, candidates: seq<Assignment>,
                           many: bool, timeStamp: string)
    returns (r: Result<seq<PreparedBenchmark>, PrepareError>)
    ensures r == PrepareEach(candidates, SkippedBy(many, config.exclude), Preparer(config, stages, timeStamp))
  {
    var skip, prepare := SkippedBy(many, config.exclude), Preparer(config, stages, timeStamp);
    var benchmarks: seq<PreparedBenchmark> := [];
    assert candidates[0..] == candidates;
    match PrepareEach(candidates, skip, prepare) {
      case Success(all) => assert benchmarks + all == all;
      case Failure(_) =>
    }
    for i := 0 to |candidates|
      invariant PrepareEach(candidates, skip, prepare) == PreparedAfter(benchmarks, PrepareEach(candidates[i..], skip, prepare))
    {
      PrepareEachFrom(candidates, i, skip, prepare, benchmarks);
      if candidates[i] == [] && many {
        continue;
      }
      if Excluded(candidates[i], config.exclude) {
        continue;
      }
      var prepared := PrepareCombination(config, stages, candidates[i], timeStamp);
      if prepared.Failure? {
        return Failure(prepared.error);
      }
      benchmarks := benchmarks + [prepared.value];
    }
    assert candidates[|candidates|..] == [];
    assert benchmarks + [] == benchmarks;
    return Success(benchmarks);
  }

  /* ---------------------------------------------------------------------- */
  /* Properties of the prepared list                                          */
  /* ---------------------------------------------------------------------- */

  function StampAll(cs: seq<Assignment>, timeStamp: string): (r: seq<Assignment>)
    ensures |r| == |cs| && forall i :: 0 <= i < |cs| ==> r[i] == Stamped(cs[i], timeStamp)
  {
    seq(|cs|, i requires 0 <= i < |cs| => Stamped(cs[i], timeStamp))
  }

  function Matrices(ps: seq<PreparedBenchmark>): (ms: seq<Assignment>)
    ensures |ms| == |ps| && forall i :: 0 <= i < |ps| ==> ms[i] == ps[i].matrix
  {
    seq(|ps|, i requires 0 <= i < |ps| => ps[i].matrix)
  }

  /** The prepared benchmarks are the kept candidates (product combinations,
      then `include` entries; the empty one dropped when there are several;
      excluded ones dropped), each behind the time stamp, in order. Each has
      the configuration's stage names and environment variables. */
  lemma PreparedFollowCandidates(config: Config, timeStamp: string)
    requires PreparedBenchmarks(config, timeStamp).Success?
    ensures Matrices(PreparedBenchmarks(config, timeStamp).value)
         == StampAll(Kept(Candidates(config), SkippedBy(|Candidates(config)| > 1, config.exclude)), timeStamp)
    ensures forall p :: p in PreparedBenchmarks(config, timeStamp).value ==>
              && |p.matrix| >= 1 && p.matrix[0].0 == TimeStampColumn
              && Keys(p.benchmark) == Keys(config.benchmark) && Keys(p.env) == Keys(config.env)
  {
    var cs := Candidates(config);
    var skip := SkippedBy(|cs| > 1, config.exclude);
    var prepare := Preparer(config, BaseStages(config), timeStamp);
    var ps := PreparedBenchmarks(config, timeStamp).value;
    PrepareEachFollowsKept(cs, skip, prepare);
    var kept := Kept(cs, skip);
    forall i | 0 <= i < |ps|
      ensures ps[i].matrix == Stamped(kept[i], timeStamp)
              && Keys(ps[i].benchmark) == Keys(config.benchmark) && Keys(ps[i].env) == Keys(config.env)
    {
      assert PrepareOne(config, BaseStages(config), kept[i], timeStamp) == Success(ps[i]);
    }
  }

  /** With more than one candidate, the empty combination yields no
      benchmark. */
  lemma EmptyCombinationSkipped(config: Config)
    requires |Candidates(config)| > 1
    ensures [] !in Kept(Candidates(config), SkippedBy(true, config.exclude))
  {
  }

  /** With isolated CPUs every measured command of a prepared benchmark is
      the `cset` prefix followed by the interpolated command as written. */
  lemma IsolatedCommandsPrefixed(config: Config, c: Assignment, timeStamp: string, p: PreparedBenchmark)
    requires config.isolateCpus
    requires PrepareOne(config, BaseStages(config), c, timeStamp) == Success(p)
    ensures forall k, j :: 0 <= k < |p.benchmark| && 0 <= j < |p.benchmark[k].1| ==>
              && j < |ConvertToList(config.benchmark[k].1)|
              && InterpolateVariables(ConvertToList(config.benchmark[k].1)[j], p.matrix).Success?
              && p.benchmark[k].1[j]
                 == CsetPrefix + InterpolateVariables(ConvertToList(config.benchmark[k].1)[j], p.matrix).value
  {
    var stages := BaseStages(config);
    var m := p.matrix;
    forall k | 0 <= k < |p.benchmark|
      ensures forall j :: 0 <= j < |p.benchmark[k].1| ==>
                && j < |ConvertToList(config.benchmark[k].1)|
                && InterpolateVariables(ConvertToList(config.benchmark[k].1)[j], m).Success?
                && p.benchmark[k].1[j]
                   == CsetPrefix + InterpolateVariables(ConvertToList(config.benchmark[k].1)[j], m).value
    {
      var commands := ConvertToList(config.benchmark[k].1);
      assert stages[k].1 == Prefixed(commands);
      assert InterpolateAll(Prefixed(commands), m) == Success(p.benchmark[k].1);
      IsolatedStaysPrefixed(commands, m);
    }
  }
}

=== FILE: benchmarker_config.dfy ===
/**
 * The normalisation and checking rules of the configuration schema in
 * src/benchmarker/config.py: the computed `system.modify` flag, the
 * default stage, the environment's values as strings, the default metric,
 * the reserved variable names, the default csv output and the bounds and
 * defaults of the plot and table outputs. `SystemSection.modify` and
 * `env_values_to_str` are the same in src/benchmarker/validation.py.
 */
module BenchmarkerConfig {
  import opened Common
  import opened VariableMatrix
  import opened OutputConstants

  /* ---------------------------------------------------------------------- */
  /* system                                                                   */
  /* ---------------------------------------------------------------------- */

  datatype SystemSection = SystemSection(
    isolateCpus: Option<seq<int>>,
    disableAslr: bool,
    disableSmt: bool,
    disableCoreBoost: bool,
    governorPerformance: bool)

  /** `SystemSection.modify`: whether any system setting has to change. It
      is false exactly for the section's defaults, with no CPU list or an
      empty one. */
  function Modify(s: SystemSection): (r: bool)
    ensures !r <==> s in {SystemSection(None, false, false, false, false),
                          SystemSection(Some([]), false, false, false, false)}
  {
    var isolateCpusEmpty := s.isolateCpus.None? || s.isolateCpus.value == [];
    s.disableAslr || s.governorPerformance || !isolateCpusEmpty || s.disableSmt || s.disableCoreBoost
  }

  /* ---------------------------------------------------------------------- */
  /* bench                                                                    */
  /* ---------------------------------------------------------------------- */

  /** A command section as written: a list or named stages. */
  datatype CommandSection = CommandList(commands: seq<string>) | StageDict(stages: Dict<seq<string>>)

  /** `name_stages`: a list becomes the one stage `name`; named stages stay
      as they are. In src/benchmarker/config.py the name is
      `DEFAULT_STAGE_NAME`, in src/benchmarker/validation.py `"result"`. */
  function NameStages(section: CommandSection, name: string): (r: Dict<seq<string>>)
    ensures section.StageDict? ==> r == section.stages
    ensures section.CommandList? ==> Keys(r) == [name] && Get(r, name) == Some(section.commands)
  {
    match section
    case CommandList(commands) => [(name, commands)]
    case StageDict(stages) => stages
  }

  /** Naming the stages of an already named section changes nothing, so
      the rule can be applied any number of times. */
  lemma NameStagesIdempotent(section: CommandSection, name: string)
    ensures NameStages(StageDict(NameStages(section, name)), name) == NameStages(section, name)
  {
  }

  /* ---------------------------------------------------------------------- */
  /* env                                                                      */
  /* ---------------------------------------------------------------------- */

  /** One value of `env`: numbers (booleans are Python integers too)
      become their `str()`, anything else is kept. */
  function EnvValue(v: Value): (r: Value)
    ensures (v.Int? || v.Bool? || v.Float?) ==> r == Str(Show(v))
    ensures !(v.Int? || v.Bool? || v.Float?) ==> r == v
  {
    if v.Int? || v.Bool? || v.Float? then Str(Show(v)) else v
  }

  /** `env_values_to_str`: every value converted in place, key by key. */
  method EnvValuesToStr(env: Dict<Value>) returns (r: Dict<Value>)
    ensures Keys(r) == Keys(env)
    ensures forall i :: 0 <= i < |r| ==> r[i].1 == EnvValue(env[i].1)
    ensures forall i :: 0 <= i < |r| ==> !(r[i].1.Int? || r[i].1.Bool? || r[i].1.Float?)
  {
    r := env;
    for i := 0 to |r|
      invariant |r| == |env|
      invariant forall j :: 0 <= j < |r| ==> r[j].0 == env[j].0
      invariant forall j :: 0 <= j < i ==> r[j].1 == EnvValue(env[j].1)
      invariant forall j :: i <= j < |r| ==> r[j].1 == env[j].1
    {
      r := r[i := (r[i].0, EnvValue(r[i].1))];
    }
  }

  /** Converting twice is converting once. */
  lemma EnvValueIdempotent(v: Value)
    ensures EnvValue(EnvValue(v)) == EnvValue(v)
  {
  }

  /* ---------------------------------------------------------------------- */
  /* outputs                                                                  */
  /* ---------------------------------------------------------------------- */

  datatype BuiltInMetric = Time | Stdout | Stderr | Stime | Utime | Mem

  datatype PlotFormat = Scatter | Bar | Violin | Box
  datatype TableFormat = Md | Html

  datatype Plot = Plot(
    xAxis: Option<string>, yAxis: Option<string>, facet: Option<string>, color: Option<string>,
    width: int, height: int, dpi: int)

  datatype Table = Table(
    columns: Option<seq<string>>, stats: seq<string>, pivot: Option<string>, metrics: Option<seq<string>>)

  /** One entry of the `output` section. */
  datatype Output =
    | CsvOutput(filename: string, overwrite: bool)
    | PlotOutput(format: PlotFormat, filename: string, plot: Plot)
    | TableOutput(tableFormat: TableFormat, filename: string, table: Table)

  /** The plot size as given, each value optional. */
  datatype PlotSize = PlotSize(width: Option<int>, height: Option<int>, dpi: Option<int>)

  datatype FieldError = OutOfBounds(field: string) | NotAllowed(field: string, value: string)

  /** A value for a field with a default and a lower bound. */
  function Bounded(field: string, given: Option<int>, default: int, least: int): (r: Result<int, FieldError>)
    requires default >= least
    ensures r.Success? ==> r.value >= least
    ensures given.None? ==> r == Success(default)
    ensures given.Some? ==> (r.Success? <==> given.value >= least) && (r.Success? ==> r.value == given.value)
    ensures r.Failure? ==> r.error == OutOfBounds(field)
  {
    match given
    case None => Success(default)
    case Some(v) => if v >= least then Success(v) else Failure(OutOfBounds(field))
  }

  /** Lines 130-132: width and height at least 1, dpi at least 50, by
      default 10, 9 and 100. */
  function PlotDimensions(size: PlotSize): (r: Result<(int, int, int), FieldError>)
    ensures r.Success? ==> r.value.0 >= 1 && r.value.1 >= 1 && r.value.2 >= 50
    ensures size == PlotSize(None, None, None) ==> r == Success((10, 9, 100))
    ensures r.Success? <==> (size.width.None? || size.width.value >= 1)
                            && (size.height.None? || size.height.value >= 1)
                            && (size.dpi.None? || size.dpi.value >= 50)
  {
    var width :- Bounded("width", size.width, 10, 1);
    var height :- Bounded("height", size.height, 9, 1);
    var dpi :- Bounded("dpi", size.dpi, 100, 50);
    Success((width, height, dpi))
  }

  /** The statistics a table may show. */
  const TableStatNames: seq<string> := ["min", "median", "mean", "relative", "std", "max"]

  /** Lines 173-177: the statistics of a table, `[min, median, max]`
      unless given; each given one must be an allowed name, the first
      that is not is reported. */
  function TableStats(given: Option<seq<string>>): (r: Result<seq<string>, FieldError>)
    ensures given.None? ==> r == Success(["min", "median", "max"])
    ensures r.Success? ==> forall i :: 0 <= i < |r.value| ==> r.value[i] in TableStatNames
    ensures given.Some? && r.Success? ==> r.value == given.value
    ensures given.Some? ==> (r.Success? <==> forall i :: 0 <= i < |given.value| ==> given.value[i] in TableStatNames)
    decreases if given.Some? then |given.value| else 0
  {
    match given
    case None => Success(["min", "median", "max"])
    case Some(stats) =>
      if stats == [] then Success([])
      else if stats[0] !in TableStatNames then Failure(NotAllowed("stats", stats[0]))
      else
        var rest :- TableStats(Some(stats[1..]));
        assert forall i :: 1 <= i < |stats| ==> stats[i] == stats[1..][i - 1];
        Success([stats[0]] + rest)
  }

  /** Line 178: the default pivot, `{{stage}} {{metric}}`. */
  const DefaultPivot: string := "{{" + StageColumn + "}} {{" + MetricColumn + "}}"

  /** The csv output `at_least_one_csv` adds. */
  const DefaultCsv: Output := CsvOutput("result.csv", false)

  /** Some output is a csv output. */
  predicate HasCsv(outputs: Dict<Output>)
  {
    exists i :: 0 <= i < |outputs| && outputs[i].1.CsvOutput?
  }

  /** The output section `at_least_one_csv` leaves: a missing or empty
      section is an empty one, and without a csv output the default one
      is stored under `default-csv`. */
  function WithDefaultCsv(output: Option<Dict<Output>>): Dict<Output>
  {
    var outputs := if output.None? then [] else output.value;
    if HasCsv(outputs) then outputs else Put(outputs, "default-csv", DefaultCsv)
  }

  /** After `at_least_one_csv` there is a csv output; a section that had
      one is unchanged, and a section without one and without a
      `default-csv` entry gains exactly that entry, at the end. */
  lemma WithDefaultCsvProperties(output: Option<Dict<Output>>)
    ensures HasCsv(WithDefaultCsv(output))
    ensures output.Some? && HasCsv(output.value) ==> WithDefaultCsv(output) == output.value
    ensures var outputs := if output.None? then [] else output.value;
            !HasCsv(outputs) && !HasKey(outputs, "default-csv") ==>
              WithDefaultCsv(output) == outputs + [("default-csv", DefaultCsv)]
  {
    var outputs := if output.None? then [] else output.value;
    if !HasCsv(outputs) {
      var r := Put(outputs, "default-csv", DefaultCsv);
      if HasKey(outputs, "default-csv") {
        assert r[IndexOf(outputs, "default-csv")].1.CsvOutput?;
      } else {
        assert r[|outputs|].1.CsvOutput?;
      }
    }
  }

  /** Applying the rule twice is applying it once. */
  lemma WithDefaultCsvIdempotent(output: Option<Dict<Output>>)
    ensures WithDefaultCsv(Some(WithDefaultCsv(output))) == WithDefaultCsv(output)
  {
    WithDefaultCsvProperties(output);
  }

  /** The first matrix variable named like a column of the result table. */
  function ReservedVariable(matrix: Matrix): (r: Option<string>)
    ensures r.None? <==> forall i :: 0 <= i < |matrix| ==> matrix[i].0 !in ConstantColumns
    ensures r.Some? ==> r.value in ConstantColumns && exists i :: 0 <= i < |matrix| && matrix[i].0 == r.value
  {
    if matrix == [] then None
    else if matrix[0].0 in ConstantColumns then Some(matrix[0].0)
    else
      var r := ReservedVariable(matrix[1..]);
      assert forall i :: 1 <= i < |matrix| ==> matrix[i] == matrix[1..][i - 1];
      if r.Some? then
        assert exists i :: 0 <= i < |matrix| - 1 && matrix[1..][i].0 == r.value;
        r
      else r
  }

  /** `not_resevered_keyword`: the matrix variables are checked in order
      and the first reserved name is reported. */
  method NotReservedKeyword(matrix: Matrix) returns (r: Result<Matrix, string>)
    ensures r.Success? <==> forall i :: 0 <= i < |matrix| ==> matrix[i].0 !in ConstantColumns
    ensures r.Success? ==> r.value == matrix
    ensures r.Failure? ==> Some(r.error) == ReservedVariable(matrix)
  {
    for i := 0 to |matrix|
      invariant forall j :: 0 <= j < i ==> matrix[j].0 !in ConstantColumns
      invariant ReservedVariable(matrix) == ReservedVariable(matrix[i..])
    {
      assert matrix[i..][1..] == matrix[i + 1..];
      if matrix[i].0 in ConstantColumns {
        return Failure(matrix[i].0);
      }
    }
    return Success(matrix);
  }

  /** The validated configuration; the after-validators update its fields. */
  class ConfigFile {
    var matrix: Matrix
    var system: SystemSection
    var bench: Dict<seq<string>>
    var metrics: set<BuiltInMetric>
    var customMetrics: seq<Dict<string>>
    var output: Option<Dict<Output>>
    var env: Dict<Value>

    constructor (matrix: Matrix, system: SystemSection, bench: Dict<seq<string>>, metrics: set<BuiltInMetric>,
                 customMetrics: seq<Dict<string>>, output: Option<Dict<Output>>, env: Dict<Value>)
      ensures this.matrix == matrix && this.system == system && this.bench == bench
      ensures this.metrics == metrics && this.customMetrics == customMetrics
      ensures this.output == output && this.env == env
    {
      this.matrix := matrix;
      this.system := system;
      this.bench := bench;
      this.metrics := metrics;
      this.customMetrics := customMetrics;
      this.output := output;
      this.env := env;
    }

    /** Something is measured: a built-in metric or a custom one. */
    predicate MeasuresSomething()
      reads this
    {
      metrics != {} || customMetrics != []
    }

    /** `set_time_as_default`, lines 254-258: with no metric at all, the
        time is measured; otherwise nothing changes. */
    method SetTimeAsDefault()
      modifies this
      ensures MeasuresSomething()
      ensures old(MeasuresSomething()) ==> metrics == old(metrics)
      ensures !old(MeasuresSomething()) ==> metrics == {Time}
      ensures matrix == old(matrix) && system == old(system) && bench == old(bench) && env == old(env)
      ensures customMetrics == old(customMetrics) && output == old(output)
    {
      if |metrics| == 0 && |customMetrics| == 0 {
        metrics := {Time};
      }
    }

    /** `at_least_one_csv`, lines 269-281: the outputs are searched in
        order for a csv one; without one the default is added. */
    method AtLeastOneCsv()
      modifies this
      ensures output == Some(WithDefaultCsv(old(output)))
      ensures output.Some? && HasCsv(output.value)
      ensures matrix == old(matrix) && system == old(system) && bench == old(bench) && env == old(env)
      ensures metrics == old(metrics) && customMetrics == old(customMetrics)
    {
      if output.None? || output.value == [] {
        output := Some([]);
      }
      var outputs := output.value;
      for i := 0 to |outputs|
        invariant output == Some(outputs)
        invariant forall j :: 0 <= j < i ==> !outputs[j].1.CsvOutput?
      {
        if outputs[i].1.CsvOutput? {
          WithDefaultCsvProperties(old(output));
          return;
        }
      }
      output := Some(Put(outputs, "default-csv", DefaultCsv));
      WithDefaultCsvProperties(old(output));
    }
  }
}

=== FILE: benchmarker_execute.dfy ===
/**
 * `perform_benchmarks` of src/benchmarker/execute.py, the predecessor of
 * BenchalotExecute. Every sample runs its `before` commands, each stage's
 * commands, its `after` commands and its custom metrics, and appends one
 * table row per (metric, stage) pair. Nothing is skipped: a command that
 * exits non-zero, or output that is not a number, only sets the sample's
 * failure flag, which starts afresh with every sample.
 *
 * As in BenchalotExecute the processes are an oracle: `world(k)` is the
 * outcome of the k-th command launched and `log` lists the commands
 * launched so far. Parsing a number is the parameter `toFloat`.
 */
module BenchmarkerExecute {
  import opened Common
  import opened OutputConstants
  import opened BenchmarkerConfig
  import opened ExecuteCommon
  import opened CustomMetric
  import opened VariableMatrix

  /** The fields of a benchmark that `perform_benchmarks` reads: its
      variables, the commands run before and after each sample, the stages
      and the custom metrics (name, command). */
  datatype Benchmark = Benchmark(
    matrix: Assignment,
    before: seq<string>,
    benchmark: Dict<seq<string>>,
    after: seq<string>,
    customMetrics: seq<(string, string)>)

  /* ---------------------------------------------------------------------- */
  /* Sections: before and after                                               */
  /* ---------------------------------------------------------------------- */

  /** `_execute_section`, lines 147-152: every command runs, in order, and
      exit codes are not looked at. */
  method RunSection(log: seq<string>, commands: seq<string>) returns (log': seq<string>)
    ensures log' == log + commands
  {
    log' := log;
    for i := 0 to |commands|
      invariant log' == log + commands[..i]
    {
      assert commands[..i + 1] == commands[..i] + [commands[i]];
      log' := log' + [commands[i]];
    }
    assert commands[..|commands|] == commands;
  }

  /* ---------------------------------------------------------------------- */
  /* One benchmark stage                                                      */
  /* ---------------------------------------------------------------------- */

  /** The accumulators at the start of a stage (lines 178-183): the peak
      resident set size starts at -1. */
  function Fresh(failed: bool, log: seq<string>): Tally
  {
    Tally(failed, log, 0.0, 0.0, 0.0, -1, "", "")
  }

  /** The rest of a stage's command loop: every command runs, and the
      benchmark has failed afterwards exactly when it had before or one of
      them exited non-zero. */
  function StageAll(world: World, commands: seq<string>, t: Tally, enabled: set<BuiltInMetric>): (r: Tally)
    ensures r.log == t.log + commands
    ensures r.failed <==> t.failed || exists k :: |t.log| <= k < |r.log| && world(k).exitCode != 0
    decreases |commands|
  {
    if commands == [] then t
    else
      var t' := Counted(t, commands[0], world(|t.log|), enabled);
      var r := StageAll(world, commands[1..], t', enabled);
      assert t.log + commands == t'.log + commands[1..];
      assert world(|t.log|).exitCode != 0 ==> exists k :: |t.log| <= k < |r.log| && world(k).exitCode != 0;
      r
  }

  /** The command loop of lines 184-215 for one stage. */
  method RunStage(world: World, log: seq<string>, commands: seq<string>, failed: bool, enabled: set<BuiltInMetric>)
    returns (t: Tally)
    ensures t == StageAll(world, commands, Fresh(failed, log), enabled)
  {
    t := Fresh(failed, log);
    for i := 0 to |commands|
      invariant StageAll(world, commands, Fresh(failed, log), enabled) == StageAll(world, commands[i..], t, enabled)
    {
      var run := world(|t.log|);
      assert commands[i..][0] == commands[i] && commands[i..][1..] == commands[i + 1..];
      t := Counted(t, commands[i], run, enabled);
    }
  }

  /** The stage times: elapsed, user and system time are sums over the
      commands launched; a disabled metric keeps its starting value. */
  lemma {:induction false} StageTimes(world: World, commands: seq<string>, t: Tally, enabled: set<BuiltInMetric>)
    ensures var r := StageAll(world, commands, t, enabled);
      var hi := |t.log| + |commands|;
      && r.seconds == t.seconds + SumOver(world, |t.log|, hi, (run: CommandRun) => run.seconds)
      && r.utime == (if Utime in enabled then t.utime + SumOver(world, |t.log|, hi, (run: CommandRun) => run.utime) else t.utime)
      && r.stime == (if Stime in enabled then t.stime + SumOver(world, |t.log|, hi, (run: CommandRun) => run.stime) else t.stime)
    decreases |commands|
  {
    if commands != [] {
      var t' := Counted(t, commands[0], world(|t.log|), enabled);
      StageTimes(world, commands[1..], t', enabled);
    }
  }

  /** The captured output of a stage is everything its commands printed,
      in order; a disabled stream keeps its starting value. */
  lemma {:induction false} StageOutput(world: World, commands: seq<string>, t: Tally, enabled: set<BuiltInMetric>)
    ensures var r := StageAll(world, commands, t, enabled);
      var hi := |t.log| + |commands|;
      && r.stdout == (if Stdout in enabled then t.stdout + OutputOver(world, |t.log|, hi, (run: CommandRun) => run.stdout) else t.stdout)
      && r.stderr == (if Stderr in enabled then t.stderr + OutputOver(world, |t.log|, hi, (run: CommandRun) => run.stderr) else t.stderr)
    decreases |commands|
  {
    if commands != [] {
      var t' := Counted(t, commands[0], world(|t.log|), enabled);
      StageOutput(world, commands[1..], t', enabled);
    }
  }

  /** Line 206: the peak resident set size of a stage is at least its
      starting value and every command's, and is one of them; a stage
      without commands keeps the -1 it started with. */
  lemma {:induction false} StagePeak(world: World, commands: seq<string>, t: Tally, enabled: set<BuiltInMetric>)
    requires Mem in enabled
    ensures var r := StageAll(world, commands, t, enabled);
      && r.rss >= t.rss
      && (forall k :: |t.log| <= k < |r.log| ==> r.rss >= world(k).maxrss)
      && (r.rss == t.rss || exists k :: |t.log| <= k < |r.log| && r.rss == world(k).maxrss)
    decreases |commands|
  {
    if commands != [] {
      var t' := Counted(t, commands[0], world(|t.log|), enabled);
      StagePeak(world, commands[1..], t', enabled);
    }
  }

  /** A failed benchmark measures a stage exactly as a healthy one does:
      the failure flag is the only difference. */
  lemma {:induction false} StageIgnoresFailure(world: World, commands: seq<string>, t: Tally, enabled: set<BuiltInMetric>)
    ensures StageAll(world, commands, t.(failed := true), enabled) == StageAll(world, commands, t, enabled).(failed := true)
    decreases |commands|
  {
    if commands != [] {
      var t' := Counted(t, commands[0], world(|t.log|), enabled);
      assert Counted(t.(failed := true), commands[0], world(|t.log|), enabled) == t'.(failed := true);
      StageIgnoresFailure(world, commands[1..], t', enabled);
    }
  }

  /* ---------------------------------------------------------------------- */
  /* The stage loop as written                                                */
  /* ---------------------------------------------------------------------- */

  /** The `AttributeError` of line 210: `process_stderr` holds what
      `close()` returned on line 195, which is `None`, not the bytes read. */
  datatype StageCrash = StderrIsNone

  /** One command of lines 186-215 as written: with `stderr` enabled,
      decoding the captured error output raises. */
  function CountedAsWritten(t: Tally, command: string, run: CommandRun, enabled: set<BuiltInMetric>): Result<Tally, StageCrash>
  {
    if Stderr in enabled then Failure(StderrIsNone) else Success(Counted(t, command, run, enabled))
  }

  function StageAsWritten(world: World, commands: seq<string>, t: Tally, enabled: set<BuiltInMetric>): Result<Tally, StageCrash>
    decreases |commands|
  {
    if commands == [] then Success(t)
    else
      var t' :- CountedAsWritten(t, commands[0], world(|t.log|), enabled);
      StageAsWritten(world, commands[1..], t', enabled)
  }

  /** As written, a stage crashes exactly when `stderr` is measured and it
      has a command; otherwise it computes what StageAll computes. */
  lemma {:induction false} StageAsWrittenCrashes(world: World, commands: seq<string>, t: Tally, enabled: set<BuiltInMetric>)
    ensures StageAsWritten(world, commands, t, enabled).Failure? <==> Stderr in enabled && commands != []
    ensures Stderr !in enabled ==> StageAsWritten(world, commands, t, enabled) == Success(StageAll(world, commands, t, enabled))
    decreases |commands|
  {
    if commands != [] && Stderr !in enabled {
      var t' := Counted(t, commands[0], world(|t.log|), enabled);
      StageAsWrittenCrashes(world, commands[1..], t', enabled);
    }
  }

  /** The smallest input that shows it: one command with `stderr` measured. */
  lemma StderrMetricCrashes(world: World)
    ensures StageAsWritten(world, ["true"], Fresh(false, []), {Stderr}).Failure?
    ensures StageAll(world, ["true"], Fresh(false, []), {Stderr}).stderr == world(0).stderr
  {
    assert StageAll(world, ["true"], Fresh(false, []), {Stderr})
        == StageAll(world, [], Counted(Fresh(false, []), "true", world(0), {Stderr}), {Stderr});
  }

  /* ---------------------------------------------------------------------- */
  /* The stages of a sample                                                   */
  /* ---------------------------------------------------------------------- */

  /** What a finished stage records for metric `m` (lines 216-233): its
      total, failed or not, with captured output read as a number. */
  function StageValue(t: Tally, toFloat: string -> Option<real>, m: BuiltInMetric): Option<real>
  {
    match m
    case Time => Some(t.seconds)
    case Utime => Some(t.utime)
    case Stime => Some(t.stime)
    case Mem => Some(t.rss as real)
    case Stdout => toFloat(t.stdout)
    case Stderr => toFloat(t.stderr)
  }

  /** The commands of every stage, in stage order. */
  function StageCommands(stages: Dict<seq<string>>): seq<string>
    decreases |stages|
  {
    if stages == [] then [] else stages[0].1 + StageCommands(stages[1..])
  }

  /** The stage loop of a sample, from a given state: every stage runs all
      its commands and records its values under its name. */
  function Stages(world: World, stages: Dict<seq<string>>, s: Measuring, enabled: set<BuiltInMetric>, toFloat: string -> Option<real>): (r: Measuring)
    ensures r.log == s.log + StageCommands(stages)
    ensures s.failed ==> r.failed
    decreases |stages|
  {
    if stages == [] then s
    else
      var t := StageAll(world, stages[0].1, Fresh(s.failed, s.log), enabled);
      var measured := s.measured.Recorded(enabled, stages[0].0, m => StageValue(t, toFloat, m));
      var r := Stages(world, stages[1..], Measuring(StageFailed(t, enabled, toFloat), t.log, measured), enabled, toFloat);
      assert s.log + StageCommands(stages) == t.log + StageCommands(stages[1..]);
      r
  }

  /** Lines 177-233: every stage of the benchmark, in order. */
  method RunStages(world: World, stages: Dict<seq<string>>, log: seq<string>, enabled: set<BuiltInMetric>, toFloat: string -> Option<real>)
    returns (s: Measuring)
    ensures s == Stages(world, stages, Measuring(false, log, NothingMeasured), enabled, toFloat)
  {
    s := Measuring(false, log, NothingMeasured);
    for i := 0 to |stages|
      invariant Stages(world, stages, Measuring(false, log, NothingMeasured), enabled, toFloat)
                == Stages(world, stages[i..], s, enabled, toFloat)
    {
      var stage, commands := stages[i].0, stages[i].1;
      assert stages[i..][0] == stages[i] && stages[i..][1..] == stages[i + 1..];
      var t := RunStage(world, s.log, commands, s.failed, enabled);
      var measured := s.measured.Recorded(enabled, stage, m => StageValue(t, toFloat, m));
      s := Measuring(StageFailed(t, enabled, toFloat), t.log, measured);
    }
  }

  /** A failure earlier in the sample changes nothing the stages launch or
      measure: it only sets the flag. */
  lemma {:induction false} StagesIgnoreFailure(world: World, stages: Dict<seq<string>>, s: Measuring, enabled: set<BuiltInMetric>, toFloat: string -> Option<real>)
    ensures Stages(world, stages, s.(failed := true), enabled, toFloat) == Stages(world, stages, s, enabled, toFloat).(failed := true)
    decreases |stages|
  {
    if stages != [] {
      var t := StageAll(world, stages[0].1, Fresh(s.failed, s.log), enabled);
      StageIgnoresFailure(world, stages[0].1, Fresh(s.failed, s.log), enabled);
      assert Fresh(s.failed, s.log).(failed := true) == Fresh(true, s.log);
      var tf := StageAll(world, stages[0].1, Fresh(true, s.log), enabled);
      assert tf == t.(failed := true);
      var measured := s.measured.Recorded(enabled, stages[0].0, m => StageValue(t, toFloat, m));
      assert s.measured.Recorded(enabled, stages[0].0, m => StageValue(tf, toFloat, m)) == measured;
      var s' := Measuring(StageFailed(t, enabled, toFloat), t.log, measured);
      assert Measuring(StageFailed(tf, enabled, toFloat), tf.log, measured) == s'.(failed := true);
      StagesIgnoreFailure(world, stages[1..], s', enabled, toFloat);
    }
  }

  /** Lines 216-233: every enabled metric has an entry for every stage,
      failed or not, and entries already recorded stay. */
  lemma {:induction false} StagesRecordEveryStage(world: World, stages: Dict<seq<string>>, s: Measuring, enabled: set<BuiltInMetric>, toFloat: string -> Option<real>)
    ensures var r := Stages(world, stages, s, enabled, toFloat);
      && (forall m, i :: m in enabled && 0 <= i < |stages| ==> HasKey(r.measured.Of(m), stages[i].0))
      && (forall m, k :: HasKey(s.measured.Of(m), k) ==> HasKey(r.measured.Of(m), k))
    decreases |stages|
  {
    if stages != [] {
      var t := StageAll(world, stages[0].1, Fresh(s.failed, s.log), enabled);
      var value := m => StageValue(t, toFloat, m);
      var measured := s.measured.Recorded(enabled, stages[0].0, value);
      var s' := Measuring(StageFailed(t, enabled, toFloat), t.log, measured);
      StagesRecordEveryStage(world, stages[1..], s', enabled, toFloat);
      var r := Stages(world, stages, s, enabled, toFloat);
      forall m
        ensures m in enabled ==> HasKey(r.measured.Of(m), stages[0].0)
        ensures forall k :: HasKey(s.measured.Of(m), k) ==> HasKey(r.measured.Of(m), k)
      {
        RecordedKeeps(s.measured, enabled, stages[0].0, value, m);
      }
      forall m, i | m in enabled && 0 <= i < |stages|
        ensures HasKey(r.measured.Of(m), stages[i].0)
      {
        if i > 0 {
          assert stages[1..][i - 1] == stages[i];
        }
      }
    }
  }

  /* ---------------------------------------------------------------------- */
  /* One sample                                                               */
  /* ---------------------------------------------------------------------- */

  /** Every command a sample launches, in order. */
  function SampleCommands(b: Benchmark): seq<string>
  {
    b.before + StageCommands(b.benchmark) + b.after + MetricCommands(b.customMetrics)
  }

  /** Lines 157-259: before, the stages, after and the custom metrics of
      one sample, and its results: the custom metrics, then the enabled
      built-in ones. The failure flag starts afresh. */
  function Sample(world: World, b: Benchmark, log: seq<string>, enabled: set<BuiltInMetric>, toFloat: string -> Option<real>)
    : Result<SampleRun, GatherError>
  {
    var staged := Stages(world, b.benchmark, Measuring(false, log + b.before, NothingMeasured), enabled, toFloat);
    var g :- Customs(world, b.customMetrics, Gathering(staged.failed, staged.log + b.after, []), toFloat);
    Success(SampleRun(g.failed, g.log, Collected(g.custom, staged.measured, enabled)))
  }

  method RunSample(world: World, b: Benchmark, log: seq<string>, enabled: set<BuiltInMetric>, toFloat: string -> Option<real>)
    returns (r: Result<SampleRun, GatherError>)
    ensures r == Sample(world, b, log, enabled, toFloat)
  {
    var launched := RunSection(log, b.before);
    var staged := RunStages(world, b.benchmark, launched, enabled, toFloat);
    launched := RunSection(staged.log, b.after);
    var gathered := GatherCustomMetrics(world, b.customMetrics, staged.failed, launched, toFloat);
    if gathered.Failure? {
      return Failure(gathered.error);
    }
    var g := gathered.value;
    return Success(SampleRun(g.failed, g.log, Collected(g.custom, staged.measured, enabled)));
  }

  lemma Regrouped(log: seq<string>, a: seq<string>, b: seq<string>, c: seq<string>, d: seq<string>)
    ensures (((log + a) + b) + c) + d == log + (((a + b) + c) + d)
  {
  }

  /** A sample launches every command of the benchmark, whatever fails. */
  lemma SampleLaunchesAll(world: World, b: Benchmark, log: seq<string>, enabled: set<BuiltInMetric>, toFloat: string -> Option<real>)
    ensures Sample(world, b, log, enabled, toFloat).Success? ==>
              Sample(world, b, log, enabled, toFloat).value.log == log + SampleCommands(b)
  {
    Regrouped(log, b.before, StageCommands(b.benchmark), b.after, MetricCommands(b.customMetrics));
  }

  /** A sample has failed exactly when its stages failed or a custom metric
      lacks a value; no earlier sample has a say. */
  lemma SampleFailed(world: World, b: Benchmark, log: seq<string>, enabled: set<BuiltInMetric>, toFloat: string -> Option<real>)
    ensures var staged := Stages(world, b.benchmark, Measuring(false, log + b.before, NothingMeasured), enabled, toFloat);
      var g := Customs(world, b.customMetrics, Gathering(staged.failed, staged.log + b.after, []), toFloat);
      var r := Sample(world, b, log, enabled, toFloat);
      r.Success? ==>
        && g.Success?
        && (r.value.failed <==> staged.failed || exists i :: 0 <= i < |g.value.custom| && SomeMissing(g.value.custom[i].1))
  {
    var staged := Stages(world, b.benchmark, Measuring(false, log + b.before, NothingMeasured), enabled, toFloat);
    CustomsFailed(world, b.customMetrics, Gathering(staged.failed, staged.log + b.after, []), toFloat);
  }

  /* ---------------------------------------------------------------------- */
  /* Benchmarks                                                               */
  /* ---------------------------------------------------------------------- */

  /** The variable columns of a benchmark's rows: each variable's value as
      it is, in matrix order (lines 266-269). */
  function VariableCells(matrix: Assignment): (r: Row)
    ensures Keys(r) == Keys(matrix)
    ensures forall i :: 0 <= i < |matrix| ==> r[i].1 == VarCell(matrix[i].1)
  {
    seq(|matrix|, i requires 0 <= i < |matrix| => (matrix[i].0, VarCell(matrix[i].1)))
  }

  /** `n` more samples of a benchmark: each appends its rows under a fresh
      id and launches every command of the benchmark; with distinct
      columns, a rectangular table stays rectangular. */
  function Samples(world: World, b: Benchmark, vars: Row, n: nat, p: Progress,
                   enabled: set<BuiltInMetric>, toFloat: string -> Option<real>): (r: Result<Progress, GatherError>)
    ensures r.Success? ==> r.value.nextId == p.nextId + n
    ensures r.Success? ==> r.value.log == p.log + Repeated(SampleCommands(b), n)
    ensures r.Success? && DistinctNames(RowKeys(vars)) && Rectangular(p.table, RowKeys(vars)) ==>
              Rectangular(r.value.table, RowKeys(vars))
    decreases n
  {
    if n == 0 then Success(p)
    else
      var s :- Sample(world, b, p.log, enabled, toFloat);
      SampleLaunchesAll(world, b, p.log, enabled, toFloat);
      SampleKeepsRectangular(p.table, p.nextId, vars, s.failed, s.results);
      var table := AppendedRows(p.table, SampleRows(p.nextId, vars, s.failed, s.results));
      var r := Samples(world, b, vars, n - 1, Progress(s.log, table, p.nextId + 1), enabled, toFloat);
      if r.Success? then RepeatedOnce(p.log, s.log, r.value.log, SampleCommands(b), n); r else r
  }

  /** The benchmarks from a given state, in order, each run `samples`
      times. */
  function Benchmarks(world: World, bs: seq<Benchmark>, samples: nat, p: Progress,
                      enabled: set<BuiltInMetric>, toFloat: string -> Option<real>): Result<Progress, GatherError>
    decreases |bs|
  {
    if bs == [] then Success(p)
    else
      var q :- Samples(world, bs[0], VariableCells(bs[0].matrix), samples, p, enabled, toFloat);
      Benchmarks(world, bs[1..], samples, q, enabled, toFloat)
  }

  /** Lines 156-273 for one benchmark. */
  method RunSamples(world: World, b: Benchmark, samples: nat, p: Progress,
                    enabled: set<BuiltInMetric>, toFloat: string -> Option<real>) returns (r: Result<Progress, GatherError>)
    ensures r == Samples(world, b, VariableCells(b.matrix), samples, p, enabled, toFloat)
  {
    var vars := VariableCells(b.matrix);
    var progress := p;
    for i := 0 to samples
      invariant Samples(world, b, vars, samples, p, enabled, toFloat)
                == Samples(world, b, vars, samples - i, progress, enabled, toFloat)
    {
      var sample := RunSample(world, b, progress.log, enabled, toFloat);
      if sample.Failure? {
        return Failure(sample.error);
      }
      var s := sample.value;
      var table := AppendSample(progress.table, progress.nextId, vars, s.failed, s.results);
      progress := Progress(s.log, table, progress.nextId + 1);
    }
    return Success(progress);
  }

  /** `perform_benchmarks`: the result table of every benchmark run
      `samples` times, or the classification error that stops the run. The
      first command launched has the outcome `world(0)`. */
  method PerformBenchmarks(world: World, benchmarks: seq<Benchmark>, samples: nat,
                           enabled: set<BuiltInMetric>, toFloat: string -> Option<real>) returns (r: Result<Progress, GatherError>)
    ensures r == Benchmarks(world, benchmarks, samples, Progress([], [], 0), enabled, toFloat)
  {
    var progress := Progress([], [], 0);
    for i := 0 to |benchmarks|
      invariant Benchmarks(world, benchmarks, samples, Progress([], [], 0), enabled, toFloat)
                == Benchmarks(world, benchmarks[i..], samples, progress, enabled, toFloat)
    {
      assert benchmarks[i..][0] == benchmarks[i] && benchmarks[i..][1..] == benchmarks[i + 1..];
      var done := RunSamples(world, benchmarks[i], samples, progress, enabled, toFloat);
      if done.Failure? {
        return Failure(done.error);
      }
      progress := done.value;
    }
    return Success(progress);
  }

  /** Lines 263-273: when every benchmark has the same variables, whose
      names are distinct and differ from the fixed columns, every column of
      the result table ends up as long as the id column, and no other column
      appears. */
  lemma {:induction false} BenchmarksKeepRectangular(world: World, bs: seq<Benchmark>, samples: nat, p: Progress,
                                                   enabled: set<BuiltInMetric>, toFloat: string -> Option<real>, keys: seq<string>)
    requires forall i :: 0 <= i < |bs| ==> RowKeys(VariableCells(bs[i].matrix)) == keys
    requires DistinctNames(keys) && Rectangular(p.table, keys)
    ensures var r := Benchmarks(world, bs, samples, p, enabled, toFloat);
      r.Success? ==> Rectangular(r.value.table, keys)
    decreases |bs|
  {
    var r := Benchmarks(world, bs, samples, p, enabled, toFloat);
    if bs != [] && r.Success? {
      var b := bs[0];
      var q := Samples(world, b, VariableCells(b.matrix), samples, p, enabled, toFloat).value;
      assert forall i :: 0 <= i < |bs[1..]| ==> bs[1..][i] == bs[i + 1];
      BenchmarksKeepRectangular(world, bs[1..], samples, q, enabled, toFloat, keys);
    }
  }

  /** The whole run starts from an empty table, so its table is rectangular
      under the same condition. */
  lemma ResultTableRectangular(world: World, bs: seq<Benchmark>, samples: nat,
                               enabled: set<BuiltInMetric>, toFloat: string -> Option<real>, keys: seq<string>)
    requires forall i :: 0 <= i < |bs| ==> RowKeys(VariableCells(bs[i].matrix)) == keys
    requires DistinctNames(keys)
    ensures var r := Benchmarks(world, bs, samples, Progress([], [], 0), enabled, toFloat);
      r.Success? ==> Rectangular(r.value.table, keys)
  {
    BenchmarksKeepRectangular(world, bs, samples, Progress([], [], 0), enabled, toFloat, keys);
  }
}

=== FILE: benchmarker_log.dfy ===
/**
 * The buffered console of src/benchmarker/log.py. Unlike its successor in
 * BenchalotLog it does not draw its own progress bar: a third-party bar
 * can be attached, and flushed text is handed to it instead of the
 * terminal; the bar is modelled as the stream it writes to. The logging
 * set-up (`setup_benchmarker_logging`, the temporary debug log and the
 * crash message) is not modelled.
 */
module BenchmarkerLog {
  import opened Streams

  /** The console. `written` and `flushed` are the text given to `write`
      and the text flushed out so far; they exist for the specification
      only. The source tests `if self.bar:`, the truthiness of the attached
      third-party bar; the model takes every attached bar to be truthy, so
      "a bar is attached" is `bar != null`. */
  class FastConsole {
    const terminal: Sink
    var bar: Sink?
    var buffer: string
    var verbose: bool
    var file: Sink?
    ghost var written: string
    ghost var flushed: string

    /** Nothing is lost or reordered: the flushed text followed by the
        buffer is everything written. */
    ghost predicate Valid()
      reads this
    {
      flushed + buffer == written
    }

    /** `__init__`, lines 19-31: no bar, an empty buffer, quiet, no log
        file. */
    constructor (terminal: Sink)
      ensures Valid()
      ensures this.terminal == terminal && bar == null && buffer == "" && !verbose && file == null
      ensures written == "" && flushed == ""
    {
      this.terminal := terminal;
      bar := null;
      buffer := "";
      verbose := false;
      file := null;
      written := "";
      flushed := "";
    }

    /** `set_verbose`, lines 33-34. */
    method SetVerbose(verbose: bool)
      modifies this
      ensures this.verbose == verbose
      ensures bar == old(bar) && buffer == old(buffer) && file == old(file)
      ensures written == old(written) && flushed == old(flushed)
    {
      this.verbose := verbose;
    }

    /** `set_bar`, lines 36-37. */
    method SetBar(bar: Sink?)
      modifies this
      ensures this.bar == bar
      ensures verbose == old(verbose) && buffer == old(buffer) && file == old(file)
      ensures written == old(written) && flushed == old(flushed)
    {
      this.bar := bar;
    }

    /** `flush`, lines 65-71: the whole buffer goes to the attached bar, or
        else to the terminal, and the buffer is emptied. */
    method Flush()
      requires Valid()
      modifies this, terminal, bar
      ensures Valid()
      ensures buffer == "" && flushed == old(flushed) + old(buffer) && written == old(written)
      ensures bar == old(bar) && verbose == old(verbose) && file == old(file)
      ensures bar == null ==> terminal.text == old(terminal.text) + old(buffer)
      ensures bar != null ==> bar.text == old(bar.text) + old(buffer)
      ensures bar != null && bar != terminal ==> terminal.text == old(terminal.text)
    {
      if bar != null {
        bar.Write(buffer);
      } else {
        terminal.Write(buffer);
      }
      flushed := flushed + buffer;
      buffer := "";
    }

    /** `write`, lines 39-43: the buffer is flushed first when the text
        would fill it, then the text is added. */
    method Write(text: string)
      requires Valid()
      modifies this, terminal, bar
      ensures Valid()
      ensures written == old(written) + text
      ensures flushed == old(flushed) + WriteStep(old(buffer), text).0
      ensures buffer == WriteStep(old(buffer), text).1
      ensures bar == old(bar) && verbose == old(verbose) && file == old(file)
      ensures bar == null ==> terminal.text == old(terminal.text) + WriteStep(old(buffer), text).0
      ensures bar != null ==> bar.text == old(bar.text) + WriteStep(old(buffer), text).0
      ensures bar != terminal ==> terminal.text == old(terminal.text) + (if bar == null then WriteStep(old(buffer), text).0 else "")
    {
      if |buffer| + |text| >= Capacity {
        Flush();
        assert buffer + text == text;
      }
      buffer := buffer + text;
      written := written + text;
    }

    /** `print`, lines 61-63: the text and its ending are written and
        flushed, so the old buffer, the text and its ending reach the bar,
        or else the terminal, in that order, and nothing stays buffered. */
    method Print(text: string, end: string)
      requires Valid()
      modifies this, terminal, bar
      ensures Valid()
      ensures buffer == "" && written == old(written) + text + end && flushed == written
      ensures bar == old(bar) && verbose == old(verbose) && file == old(file)
      ensures bar == null ==> terminal.text == old(terminal.text) + old(buffer) + text + end
      ensures bar != null ==> bar.text == old(bar.text) + old(buffer) + text + end
      ensures bar != null && bar != terminal ==> terminal.text == old(terminal.text)
    {
      Write(text + end);
      Flush();
    }

    /** `log`, lines 56-59: the message always goes to the log file, and
        to the console only when verbose. The source needs an open log
        file. */
    method Log(msg: string)
      requires Valid() && file != null && file != terminal && file != bar
      modifies this, terminal, bar, file
      ensures Valid()
      ensures file == old(file) && file.text == old(file.text) + msg
      ensures bar == old(bar) && verbose == old(verbose)
      ensures verbose ==>
                && written == old(written) + msg
                && flushed == old(flushed) + WriteStep(old(buffer), msg).0
                && buffer == WriteStep(old(buffer), msg).1
      ensures !verbose ==> written == old(written) && flushed == old(flushed) && buffer == old(buffer)
      ensures bar == null ==>
                terminal.text == old(terminal.text) + (if verbose then WriteStep(old(buffer), msg).0 else "")
      ensures bar != null ==>
                bar.text == old(bar.text) + (if verbose then WriteStep(old(buffer), msg).0 else "")
      ensures bar != null && bar != terminal ==> terminal.text == old(terminal.text)
    {
      if verbose {
        Write(msg);
      }
      file.Write(msg);
    }

    /** Entering `log_to_file(filename)`, lines 46-53: a missing or empty
        name means `/dev/null`; the file is opened for writing, so it
        starts empty. */
    method BeginLogToFile(filename: string) returns (f: Sink)
      modifies this
      ensures fresh(f) && file == f && f.text == ""
      ensures f.name == if filename == "" then "/dev/null" else filename
      ensures bar == old(bar) && buffer == old(buffer) && verbose == old(verbose)
      ensures written == old(written) && flushed == old(flushed)
    {
      var name := if filename == "" then "/dev/null" else filename;
      f := new Sink(name, "");
      file := f;
    }

    /** Leaving the `log_to_file` block, line 54. */
    method EndLogToFile()
      modifies this
      ensures file == null
      ensures bar == old(bar) && buffer == old(buffer) && verbose == old(verbose)
      ensures written == old(written) && flushed == old(flushed)
    {
      file := null;
    }
  }
}

=== FILE: benchmarker_prepare.dfy ===
/**
 * `prepare_benchmarks` of src/benchmarker/prepare.py: the configuration's
 * command sections, multiplied out over the variable combinations. With an
 * empty matrix there is a single benchmark whose commands are left as
 * written; otherwise every product combination, then every `include`
 * entry, is a candidate, candidates matched by an `exclude` entry are
 * skipped, and each remaining one gets its own interpolated copy of every
 * section.
 */
module BenchmarkerPrepare {
  import opened Common
  import opened VariableMatrix
  import opened Interpolate
  import opened PrepareCommon

  /** The sections that every benchmark has, as written in the file. */
  datatype Sections = Sections(
    setup: seq<string>,
    prepare: seq<string>,
    customMetrics: seq<Dict<string>>,
    conclude: seq<string>,
    cleanup: seq<string>)

  /** `PreparedBenchmark`. */
  datatype PreparedBenchmark = PreparedBenchmark(
    matrix: Assignment,
    setup: seq<string>,
    prepare: seq<string>,
    benchmark: Dict<seq<string>>,
    customMetrics: seq<(string, string)>,
    conclude: seq<string>,
    cleanup: seq<string>)

  /** The benchmark for one kept combination (lines 147-164); sections are
      interpolated in the order the source does it, and the first failure
      is the result. */
  function PrepareOne(s: Sections, stages: Dict<seq<string>>, c: Assignment): (r: Result<PreparedBenchmark, PrepareError>)
    ensures r.Success? ==> r.value.matrix == c && Keys(r.value.benchmark) == Keys(stages)
    ensures r.Success? ==>
              && |r.value.setup| == |s.setup| && |r.value.prepare| == |s.prepare|
              && |r.value.conclude| == |s.conclude| && |r.value.cleanup| == |s.cleanup|
              && |r.value.customMetrics| == |s.customMetrics|
  {
    var setup :- Lift(InterpolateAll(s.setup, c));
    var prepare :- Lift(InterpolateAll(s.prepare, c));
    var bench :- Lift(InterpolateStages(stages, c));
    var cm :- CustomMetrics(s.customMetrics, c);
    var conclude :- Lift(InterpolateAll(s.conclude, c));
    var cleanup :- Lift(InterpolateAll(s.cleanup, c));
    Success(PreparedBenchmark(c, setup, prepare, bench, cm, conclude, cleanup))
  }

  /** `exclude_combination(c, exclude)` as a test on candidates. */
  function ExcludedBy(exclude: seq<Assignment>): Assignment -> bool
  {
    (c: Assignment) => Excluded(c, exclude)
  }

  function Preparer(s: Sections, stages: Dict<seq<string>>): Assignment -> Result<PreparedBenchmark, PrepareError>
  {
    (c: Assignment) => PrepareOne(s, stages, c)
  }

  /** The list `prepare_benchmarks` returns, given the stage table as it is
      after the optional isolation step. */
  function PreparedBenchmarks(s: Sections, stages: Dict<seq<string>>, matrix: Matrix,
                              exclude: seq<Assignment>, included: seq<Assignment>)
    : Result<seq<PreparedBenchmark>, PrepareError>
  {
    if matrix == [] then
      var cm :- CustomMetrics(s.customMetrics, []);
      Success([PreparedBenchmark([], s.setup, s.prepare, stages, cm, s.conclude, s.cleanup)])
    else PrepareEach(Combinations(matrix) + included, ExcludedBy(exclude), Preparer(s, stages))
  }

  /** Lines 147-164, statement by statement. */
  method PrepareCombination(s: Sections, stages: Dict<seq<string>>, c: Assignment)
    returns (r: Result<PreparedBenchmark, PrepareError>)
    ensures r == PrepareOne(s, stages, c)
  {
    var setup := InterpolateCommands(s.setup, c);
    if setup.Failure? { return Failure(Unresolved(setup.error)); }
    var prepare := InterpolateCommands(s.prepare, c);
    if prepare.Failure? { return Failure(Unresolved(prepare.error)); }
    var bench := InterpolateStageCommands(stages, c);
    if bench.Failure? { return Failure(Unresolved(bench.error)); }
    var cm := ProcessCustomMetrics(s.customMetrics, c);
    if cm.Failure? { return Failure(cm.error); }
    var conclude := InterpolateCommands(s.conclude, c);
    if conclude.Failure? { return Failure(Unresolved(conclude.error)); }
    var cleanup := InterpolateCommands(s.cleanup, c);
    if cleanup.Failure? { return Failure(Unresolved(cleanup.error)); }
    return Success(PreparedBenchmark(c, setup.value, prepare.value, bench.value, cm.value, conclude.value, cleanup.value));
  }

  /** `prepare_benchmarks`: the caller's stage table is prefixed in place
      when CPUs are isolated, and the result is the list the specification
      above describes for the table as it then is. */
  method PrepareBenchmarks(s: Sections, table: StageTable, matrix: Matrix, exclude: seq<Assignment>,
                           included: seq<Assignment>, isolateCpus: bool)
    returns (r: Result<seq<PreparedBenchmark>, PrepareError>)
    modifies table
    ensures table.stages == if isolateCpus then IsolateStages(old(table.stages)) else old(table.stages)
    ensures r == PreparedBenchmarks(s, table.stages, matrix, exclude, included)
  {
    if isolateCpus {
      table.Isolate();
    }
    var stages := table.stages;
    if matrix == [] {
      var cm := ProcessCustomMetrics(s.customMetrics, []);
      if cm.Failure? { return Failure(cm.error); }
      return Success([PreparedBenchmark([], s.setup, s.prepare, stages, cm.value, s.conclude, s.cleanup)]);
    }
    r := PrepareCandidates(s, stages, Combinations(matrix) + included, exclude);
  }

  /** Lines 144-165: candidates in order, excluded ones skipped. */
  method PrepareCandidates(s: Sections, stages: Dict<seq<string>>, candidates: seq<Assignment>, exclude: seq<Assignment>)
    returns (r: Result<seq<PreparedBenchmark>, PrepareError>)
    ensures r == PrepareEach(candidates, ExcludedBy(exclude), Preparer(s, stages))
  {
    var skip, prepare := ExcludedBy(exclude), Preparer(s, stages);
    var benchmarks: seq<PreparedBenchmark> := [];
    assert candidates[0..] == candidates;
    match PrepareEach(candidates, skip, prepare) {
      case Success(all) => assert benchmarks + all == all;
      case Failure(_) =>
    }
    for i := 0 to |candidates|
      invariant PrepareEach(candidates, skip, prepare) == PreparedAfter(benchmarks, PrepareEach(candidates[i..], skip, prepare))
    {
      PrepareEachFrom(candidates, i, skip, prepare, benchmarks);
      if Excluded(candidates[i], exclude) {
        continue;
      }
      var prepared := PrepareCombination(s, stages, candidates[i]);
      if prepared.Failure? {
        return Failure(prepared.error);
      }
      benchmarks := benchmarks + [prepared.value];
    }
    assert candidates[|candidates|..] == [];
    assert benchmarks + [] == benchmarks;
    return Success(benchmarks);
  }

  /* ---------------------------------------------------------------------- */
  /* Properties of the prepared list                                          */
  /* ---------------------------------------------------------------------- */

  function Matrices(ps: seq<PreparedBenchmark>): (ms: seq<Assignment>)
    ensures |ms| == |ps| && forall i :: 0 <= i < |ps| ==> ms[i] == ps[i].matrix
  {
    seq(|ps|, i requires 0 <= i < |ps| => ps[i].matrix)
  }

  /** With a non-empty matrix, the benchmarks are for the product
      combinations followed by the `include` entries, excluded ones left
      out, in that order; each has the input stage names and one command
      per input command in every section. */
  lemma MatrixBenchmarks(s: Sections, stages: Dict<seq<string>>, matrix: Matrix,
                         exclude: seq<Assignment>, included: seq<Assignment>)
    requires matrix != []
    requires PreparedBenchmarks(s, stages, matrix, exclude, included).Success?
    ensures Matrices(PreparedBenchmarks(s, stages, matrix, exclude, included).value)
         == Kept(Combinations(matrix) + included, ExcludedBy(exclude))
    ensures forall p :: p in PreparedBenchmarks(s, stages, matrix, exclude, included).value ==>
              && Keys(p.benchmark) == Keys(stages)
              && |p.setup| == |s.setup| && |p.prepare| == |s.prepare|
              && |p.conclude| == |s.conclude| && |p.cleanup| == |s.cleanup|
  {
    var cs := Combinations(matrix) + included;
    var ps := PreparedBenchmarks(s, stages, matrix, exclude, included).value;
    PrepareEachFollowsKept(cs, ExcludedBy(exclude), Preparer(s, stages));
    var kept := Kept(cs, ExcludedBy(exclude));
    forall i | 0 <= i < |ps|
      ensures ps[i].matrix == kept[i] && Keys(ps[i].benchmark) == Keys(stages)
              && |ps[i].setup| == |s.setup| && |ps[i].prepare| == |s.prepare|
              && |ps[i].conclude| == |s.conclude| && |ps[i].cleanup| == |s.cleanup|
    {
      assert PrepareOne(s, stages, kept[i]) == Success(ps[i]);
    }
  }

  /** Without exclusions there is one benchmark per product combination
      plus one per `include` entry. */
  lemma BenchmarkCountWithoutExclusions(s: Sections, stages: Dict<seq<string>>, matrix: Matrix,
                                        included: seq<Assignment>)
    requires matrix != []
    requires PreparedBenchmarks(s, stages, matrix, [], included).Success?
    ensures |PreparedBenchmarks(s, stages, matrix, [], included).value| == Product(matrix) + |included|
  {
    PrepareEachFollowsKept(Combinations(matrix) + included, ExcludedBy([]), Preparer(s, stages));
    KeptAll(Combinations(matrix) + included, ExcludedBy([]));
  }

  /** With an empty matrix there is exactly one benchmark, with an empty
      combination and every command as written. */
  lemma EmptyMatrixBenchmark(s: Sections, stages: Dict<seq<string>>, exclude: seq<Assignment>,
                             included: seq<Assignment>)
    requires PreparedBenchmarks(s, stages, [], exclude, included).Success?
    ensures |PreparedBenchmarks(s, stages, [], exclude, included).value| == 1
    ensures var p := PreparedBenchmarks(s, stages, [], exclude, included).value[0];
            p.matrix == [] && p.setup == s.setup && p.prepare == s.prepare && p.benchmark == stages
            && p.conclude == s.conclude && p.cleanup == s.cleanup
            && |p.customMetrics| == |s.customMetrics|
            && forall i :: 0 <= i < |s.customMetrics| ==> p.customMetrics[i] == s.customMetrics[i][0]
  {
  }
}

=== FILE: benchmarker_validation.dfy ===
/**
 * The configuration checks of src/benchmarker/validation.py: the run
 * section's metric names, the defaults of the output entries (their
 * metric and the table columns), the references an output may use and the
 * required csv output. Each check that raises `ValueError` (or fails with
 * an IndexError or TypeError on malformed input) returns a `Failure`.
 */
module BenchmarkerValidation {
  import opened Common
  import opened VariableMatrix
  import opened Interpolate
  import opened OutputConstants
  import opened LegacyPreparation

  datatype ValidationError =
    | InvalidMetric(name: string)           // `valid_metric`
    | MetricNotSpecified(filename: string)  // no metric and not exactly one run metric
    | NoMetricName                          // the first key of an empty custom metric: IndexError
    | ColumnNotFound(name: string)          // `check_column_will_exist`
    | ColumnsMissing                        // iterating table columns that are `None`: TypeError
    | MetricNotFound(metric: Option<string>)
    | NoCsvOutput                           // `at_least_one_csv`

  /* ---------------------------------------------------------------------- */
  /* run.metrics                                                              */
  /* ---------------------------------------------------------------------- */

  const BuiltInMetricNames: seq<string> := ["time", "stdout", "stderr"]

  /** A metric entry `valid_metric` rejects: a name that is not built in. */
  predicate Invalid(m: MetricEntry)
  {
    m.Named? && m.name !in BuiltInMetricNames
  }

  /** `valid_metric`, lines 105-113: the first unknown metric name is
      reported; custom metrics are not looked at. */
  function ValidMetric(metrics: seq<MetricEntry>): (r: Result<seq<MetricEntry>, ValidationError>)
    ensures r.Success? <==> forall i :: 0 <= i < |metrics| ==> !Invalid(metrics[i])
    ensures r.Success? ==> r.value == metrics
    ensures r.Failure? ==> exists i :: 0 <= i < |metrics| && Invalid(metrics[i]) && r.error == InvalidMetric(metrics[i].name)
                                      && forall j :: 0 <= j < i ==> !Invalid(metrics[j])
  {
    if metrics == [] then Success(metrics)
    else if Invalid(metrics[0]) then Failure(InvalidMetric(metrics[0].name))
    else
      var rest := ValidMetric(metrics[1..]);
      assert forall i :: 1 <= i < |metrics| ==> metrics[i] == metrics[1..][i - 1];
      if rest.Success? then Success(metrics)
      else
        assert exists i :: 0 <= i < |metrics| - 1 && Invalid(metrics[1..][i]) && rest.error == InvalidMetric(metrics[1..][i].name)
                           && forall j :: 0 <= j < i ==> !Invalid(metrics[1..][j]);
        Failure(rest.error)
  }

  /** Metrics that pass `valid_metric` and have no empty custom metric are
      all dispatched to a gatherer by `prepare_benchmarks` of
      src/benchmarker/preparation.py. */
  lemma ValidMetricsDispatch(metrics: seq<MetricEntry>)
    requires ValidMetric(metrics).Success?
    requires forall i :: 0 <= i < |metrics| && metrics[i].Custom? ==> metrics[i].entries != []
    ensures MapAll(metrics, GathererFor).Success?
    ensures |MapAll(metrics, GathererFor).value| == |metrics|
  {
    forall i | 0 <= i < |metrics|
      ensures GathererFor(metrics[i]).Success?
    {
      assert !Invalid(metrics[i]);
    }
    var gatherers := seq(|metrics|, i requires 0 <= i < |metrics| => GathererFor(metrics[i]).value);
    MapAllSucceeds(metrics, GathererFor, gatherers);
  }

  /** The name a metric entry goes by: the string itself, or the first key
      of a custom metric; an empty custom metric has none. */
  function FirstKey(m: MetricEntry): Option<string>
  {
    match m
    case Named(name) => Some(name)
    case Custom(entries) => if entries == [] then None else Some(entries[0].0)
  }

  /** The names of the run metrics, as `check_metric_exists` collects them
      (lines 174-179). */
  function MetricNames(metrics: seq<MetricEntry>): (r: Result<set<string>, ValidationError>)
    ensures r.Success? <==> forall i :: 0 <= i < |metrics| ==> FirstKey(metrics[i]).Some?
    ensures r.Failure? ==> r.error == NoMetricName
    ensures r.Success? ==> forall i :: 0 <= i < |metrics| ==> FirstKey(metrics[i]).value in r.value
    ensures r.Success? ==> forall n :: n in r.value ==> exists i :: 0 <= i < |metrics| && FirstKey(metrics[i]) == Some(n)
  {
    if metrics == [] then Success({})
    else
      match FirstKey(metrics[0])
      case None => Failure(NoMetricName)
      case Some(name) =>
        var rest := MetricNames(metrics[1..]);
        assert forall i :: 1 <= i < |metrics| ==> metrics[i] == metrics[1..][i - 1];
        if rest.Failure? then rest
        else
          assert forall n :: n in rest.value ==> exists i :: 1 <= i < |metrics| && FirstKey(metrics[i]) == Some(n) by {
            forall n | n in rest.value
              ensures exists i :: 1 <= i < |metrics| && FirstKey(metrics[i]) == Some(n)
            {
              var i :| 0 <= i < |metrics[1..]| && FirstKey(metrics[1..][i]) == Some(n);
              assert FirstKey(metrics[i + 1]) == Some(n);
            }
          }
          Success({name} + rest.value)
  }

  /* ---------------------------------------------------------------------- */
  /* Column references                                                        */
  /* ---------------------------------------------------------------------- */

  /** `check_column_will_exist`, lines 277-289: no option, a matrix
      variable or a displayable column (the set of displayable columns is
      given, `DISPLAYABLE_COLUMNS` is not part of this model). */
  function CheckColumn(option: Option<string>, matrix: Matrix, displayable: set<string>): (r: Result<(), ValidationError>)
    ensures r.Success? <==> option.None? || HasKey(matrix, option.value) || option.value in displayable
    ensures r.Failure? ==> r.error == ColumnNotFound(option.value)
  {
    if option.Some? && !HasKey(matrix, option.value) && option.value !in displayable then
      Failure(ColumnNotFound(option.value))
    else Success(())
  }

  function ColumnChecker(matrix: Matrix, displayable: set<string>): string -> Result<(), ValidationError>
  {
    (name: string) => CheckColumn(Some(name), matrix, displayable)
  }

  /** Every name checked in turn; the first one missing is reported. */
  function CheckColumns(names: seq<string>, matrix: Matrix, displayable: set<string>): (r: Result<(), ValidationError>)
    ensures r.Success? <==> forall i :: 0 <= i < |names| ==> HasKey(matrix, names[i]) || names[i] in displayable
  {
    match MapAll(names, ColumnChecker(matrix, displayable))
    case Success(_) => Success(())
    case Failure(e) => Failure(e)
  }

  /** Every `{{name}}` of a template, found as `re.findall(VAR_REGEX, s)`
      finds them, must be a column. */
  function CheckTemplate(template: string, matrix: Matrix, displayable: set<string>): Result<(), ValidationError>
  {
    CheckColumns(RefNames(Scan(template)), matrix, displayable)
  }

  /** A template passes exactly when every reference in it names a matrix
      variable or a displayable column. */
  lemma CheckTemplateReferences(template: string, matrix: Matrix, displayable: set<string>)
    ensures CheckTemplate(template, matrix, displayable).Success? <==>
            forall j :: 0 <= j < |Scan(template)| && Scan(template)[j].Ref? ==>
              HasKey(matrix, Scan(template)[j].name) || Scan(template)[j].name in displayable
  {
    var ps := Scan(template);
    var names := RefNames(ps);
    if CheckTemplate(template, matrix, displayable).Success? {
      forall j | 0 <= j < |ps| && ps[j].Ref?
        ensures HasKey(matrix, ps[j].name) || ps[j].name in displayable
      {
        var i :| 0 <= i < |names| && names[i] == ps[j].name;
      }
    } else {
      var i :| 0 <= i < |names| && !(HasKey(matrix, names[i]) || names[i] in displayable);
      var j :| 0 <= j < |ps| && ps[j] == Ref(names[i]);
      assert Scan(template)[j].Ref? && !(HasKey(matrix, Scan(template)[j].name) || Scan(template)[j].name in displayable);
    }
  }

  /* ---------------------------------------------------------------------- */
  /* Output entries                                                           */
  /* ---------------------------------------------------------------------- */

  /** The kind of an output entry, with what it adds to the common fields. */
  datatype OutputKind =
    | CsvKind
    | BarChartKind(xAxis: Option<string>, facet: Option<string>, color: Option<string>)
    | TableMdKind(pivot: string)

  /** The default table pivot, `{{stage}} {{metric}}`. */
  const DefaultPivot: string := "{{" + StageColumn + "}} {{" + MetricColumn + "}}"

  /** The fields `apply_default_values` may set. */
  datatype Settings = Settings(metric: Option<string>, columns: Option<seq<string>>)

  /** Lines 144-149: a missing metric is the only run metric's name; with
      no run metric or several it cannot be chosen. */
  function DefaultMetric(metric: Option<string>, filename: string, metrics: seq<MetricEntry>)
    : (r: Result<Option<string>, ValidationError>)
    ensures metric.Some? ==> r == Success(metric)
    ensures r.Success? ==> r.value.Some?
    ensures metric.None? && |metrics| != 1 ==> r == Failure(MetricNotSpecified(filename))
  {
    if metric.Some? then Success(metric)
    else if |metrics| != 1 then Failure(MetricNotSpecified(filename))
    else
      match FirstKey(metrics[0])
      case None => Failure(NoMetricName)
      case Some(name) => Success(Some(name))
  }

  /** The settings after `apply_default_values`: csv outputs keep theirs;
      other outputs get a metric, and markdown tables without columns get
      the matrix variables, in order. */
  function Defaults(kind: OutputKind, filename: string, s: Settings, matrix: Matrix, metrics: seq<MetricEntry>)
    : Result<Settings, ValidationError>
  {
    if kind.CsvKind? then Success(s)
    else
      var metric :- DefaultMetric(s.metric, filename, metrics);
      Success(Settings(metric, if kind.TableMdKind? && s.columns.None? then Some(Keys(matrix)) else s.columns))
  }

  /** After the defaults every non-csv output has a metric and every
      markdown table has columns, a default metric is a run metric's name
      so that `check_metric_exists` accepts it, and applying the defaults
      again changes nothing. */
  lemma DefaultsProperties(kind: OutputKind, filename: string, s: Settings, matrix: Matrix, metrics: seq<MetricEntry>)
    requires Defaults(kind, filename, s, matrix, metrics).Success?
    ensures var d := Defaults(kind, filename, s, matrix, metrics).value;
            && (!kind.CsvKind? ==> d.metric.Some?)
            && (kind.TableMdKind? ==> d.columns.Some?)
            && (!kind.CsvKind? && s.metric.None? ==> MetricNames(metrics) == Success({d.metric.value}))
            && Defaults(kind, filename, d, matrix, metrics) == Success(d)
  {
    var d := Defaults(kind, filename, s, matrix, metrics).value;
    if !kind.CsvKind? && s.metric.None? {
      assert metrics[1..] == [];
      assert MetricNames(metrics[1..]) == Success({});
      var name := FirstKey(metrics[0]).value;
      assert d.metric == Some(name);
      assert {name} + {} == {name};
    }
  }

  /** An entry of the `output` section; `apply_default_values` fills in
      its metric and, for tables, its columns. */
  class OutputField {
    const filename: string
    const kind: OutputKind
    var metric: Option<string>
    var columns: Option<seq<string>>

    constructor (filename: string, kind: OutputKind, metric: Option<string>, columns: Option<seq<string>>)
      ensures this.filename == filename && this.kind == kind
      ensures this.metric == metric && this.columns == columns
    {
      this.filename := filename;
      this.kind := kind;
      this.metric := metric;
      this.columns := columns;
    }

    function Current(): Settings
      reads this
    {
      Settings(metric, columns)
    }

    /** `apply_default_values` (lines 137-149, 197-198, 255-266). A failure
        happens before any field is assigned. */
    method ApplyDefaultValues(matrix: Matrix, metrics: seq<MetricEntry>) returns (r: Result<(), ValidationError>)
      modifies this
      ensures r.Failure? ==> unchanged(this) && Defaults(kind, filename, old(Current()), matrix, metrics) == Failure(r.error)
      ensures r.Success? ==> Defaults(kind, filename, old(Current()), matrix, metrics) == Success(Current())
    {
      if kind.CsvKind? {
        return Success(());
      }
      if metric.None? {
        if |metrics| != 1 {
          return Failure(MetricNotSpecified(filename));
        }
        if metrics[0].Named? {
          metric := Some(metrics[0].name);
        } else if metrics[0].entries == [] {
          return Failure(NoMetricName);
        } else {
          metric := Some(metrics[0].entries[0].0);
        }
      }
      if kind.TableMdKind? && columns.None? {
        columns := Some(Keys(matrix));
      }
      return Success(());
    }

    /** `check_options_exist` (lines 151-162, 227-236, 268-274): the
        filename's references, then a bar chart's facet, x axis and color,
        or a table's columns and pivot references, must all be columns. */
    function CheckOptionsExist(matrix: Matrix, displayable: set<string>): (r: Result<(), ValidationError>)
      reads this
      ensures r.Success? ==> CheckTemplate(filename, matrix, displayable).Success?
      ensures r.Success? && kind.BarChartKind? ==>
                && CheckColumn(kind.facet, matrix, displayable).Success?
                && CheckColumn(kind.xAxis, matrix, displayable).Success?
                && CheckColumn(kind.color, matrix, displayable).Success?
      ensures r.Success? && kind.TableMdKind? ==>
                && columns.Some?
                && (forall i :: 0 <= i < |columns.value| ==> HasKey(matrix, columns.value[i]) || columns.value[i] in displayable)
                && CheckTemplate(kind.pivot, matrix, displayable).Success?
    {
      var _ :- CheckTemplate(filename, matrix, displayable);
      match kind
      case CsvKind => Success(())
      case BarChartKind(xAxis, facet, color) =>
        var _ :- CheckColumn(facet, matrix, displayable);
        var _ :- CheckColumn(xAxis, matrix, displayable);
        CheckColumn(color, matrix, displayable)
      case TableMdKind(pivot) =>
        if columns.None? then Failure(ColumnsMissing)
        else
          var _ :- CheckColumns(columns.value, matrix, displayable);
          CheckTemplate(pivot, matrix, displayable)
    }

    /** `check_metric_exists` (lines 164-181, 194-195): a csv output needs
        no metric; any other output's metric must be one of the run
        metrics' names. */
    function CheckMetricExists(metrics: seq<MetricEntry>): (r: Result<(), ValidationError>)
      reads this
      ensures kind.CsvKind? ==> r.Success?
      ensures !kind.CsvKind? ==> (r.Success? <==> MetricNames(metrics).Success? && metric.Some? && metric.value in MetricNames(metrics).value)
    {
      if kind.CsvKind? then Success(())
      else
        var names :- MetricNames(metrics);
        if metric.Some? && metric.value in names then Success(()) else Failure(MetricNotFound(metric))
    }
  }

  /** `at_least_one_csv`, lines 310-324. */
  function AtLeastOneCsv(outputs: seq<OutputField>): (r: Result<(), ValidationError>)
    ensures r.Success? <==> exists i :: 0 <= i < |outputs| && outputs[i].kind.CsvKind?
    ensures r.Failure? ==> r.error == NoCsvOutput
  {
    if exists i :: 0 <= i < |outputs| && outputs[i].kind.CsvKind? then Success(()) else Failure(NoCsvOutput)
  }

  /** The outputs are distinct objects. */
  predicate Distinct(outputs: seq<OutputField>)
  {
    forall i, j :: 0 <= i < j < |outputs| ==> outputs[i] != outputs[j]
  }

  /** `ConfigFile.apply_default_values`, lines 326-332: each output in
      turn; the first failure ends validation. */
  method ApplyAllDefaults(outputs: seq<OutputField>, matrix: Matrix, metrics: seq<MetricEntry>)
    returns (r: Result<(), ValidationError>)
    requires Distinct(outputs)
    modifies set i | 0 <= i < |outputs| :: outputs[i]
    ensures r.Success? ==> forall i :: 0 <= i < |outputs| ==>
              Defaults(outputs[i].kind, outputs[i].filename, old(outputs[i].Current()), matrix, metrics)
              == Success(outputs[i].Current())
    ensures r.Failure? ==> exists i :: (0 <= i < |outputs| &&
              Defaults(outputs[i].kind, outputs[i].filename, old(outputs[i].Current()), matrix, metrics)
              == Failure(r.error))
  {
    for i := 0 to |outputs|
      invariant forall j :: 0 <= j < i ==>
                  Defaults(outputs[j].kind, outputs[j].filename, old(outputs[j].Current()), matrix, metrics)
                  == Success(outputs[j].Current())
      invariant forall j :: i <= j < |outputs| ==> outputs[j].Current() == old(outputs[j].Current())
    {
      r := outputs[i].ApplyDefaultValues(matrix, metrics);
      if r.Failure? {
        return;
      }
    }
    r := Success(());
  }

  /** `check_output_vars`, lines 334-340. */
  function CheckOutputVars(outputs: seq<OutputField>, matrix: Matrix, displayable: set<string>): (r: Result<(), ValidationError>)
    reads set i | 0 <= i < |outputs| :: outputs[i]
    ensures r.Success? <==> forall i :: 0 <= i < |outputs| ==> outputs[i].CheckOptionsExist(matrix, displayable).Success?
  {
    if outputs == [] then Success(())
    else
      var _ :- outputs[0].CheckOptionsExist(matrix, displayable);
      var r := CheckOutputVars(outputs[1..], matrix, displayable);
      assert forall i :: 1 <= i < |outputs| ==> outputs[i] == outputs[1..][i - 1];
      r
  }

  /** `check_output_metrics`, lines 342-348. */
  function CheckOutputMetrics(outputs: seq<OutputField>, metrics: seq<MetricEntry>): (r: Result<(), ValidationError>)
    reads set i | 0 <= i < |outputs| :: outputs[i]
    ensures r.Success? <==> forall i :: 0 <= i < |outputs| ==> outputs[i].CheckMetricExists(metrics).Success?
  {
    if outputs == [] then Success(())
    else
      var _ :- outputs[0].CheckMetricExists(metrics);
      var r := CheckOutputMetrics(outputs[1..], metrics);
      assert forall i :: 1 <= i < |outputs| ==> outputs[i] == outputs[1..][i - 1];
      r
  }

  /** The checks of `ConfigFile` on the run metrics and the outputs, in the
      order the validators run: the field validators, then defaults, the
      references and the metrics. When they pass, the run metrics are
      valid, there is a csv output, every other output has a metric that
      the run gathers, and every column an output refers to exists. */
  method ValidateOutputs(outputs: seq<OutputField>, matrix: Matrix, metrics: seq<MetricEntry>, displayable: set<string>)
    returns (r: Result<(), ValidationError>)
    requires Distinct(outputs)
    modifies set i | 0 <= i < |outputs| :: outputs[i]
    ensures r.Success? ==> ValidMetric(metrics).Success?
    ensures r.Success? ==> exists i :: 0 <= i < |outputs| && outputs[i].kind.CsvKind?
    ensures r.Success? ==> forall i :: 0 <= i < |outputs| && !outputs[i].kind.CsvKind? ==>
              && outputs[i].metric.Some? && MetricNames(metrics).Success?
              && outputs[i].metric.value in MetricNames(metrics).value
    ensures r.Success? ==> forall i :: 0 <= i < |outputs| ==>
              outputs[i].CheckOptionsExist(matrix, displayable).Success?
  {
    var valid := ValidMetric(metrics);
    if valid.Failure? {
      return Failure(valid.error);
    }
    r := AtLeastOneCsv(outputs);
    if r.Failure? {
      return;
    }
    r := ApplyAllDefaults(outputs, matrix, metrics);
    if r.Failure? {
      return;
    }
    r := CheckOutputVars(outputs, matrix, displayable);
    if r.Failure? {
      return;
    }
    r := CheckOutputMetrics(outputs, metrics);
  }
}

=== FILE: combinations.dfy ===
/**
 * The variable matrix and its expansion into value assignments:
 * `create_variable_combinations` (src/benchmarker/interpolate.py,
 * src/benchmarker/utils.py, src/benchmarker/preparation.py,
 * src/preparation.py) and `product_dict` (src/main.py), which are the same
 * code: `dict(zip(keys, instance))` for every `instance` of
 * `itertools.product(*matrix.values())`.
 */
module VariableMatrix {
  import opened Common

  /** A `matrix` section: variable names, in file order, with their values. */
  type Matrix = seq<(string, seq<Value>)>

  /** One assignment of a value to each variable. */
  type Assignment = Dict<Value>

  /** The product of the value-list lengths. */
  function Product(m: Matrix): nat
  {
    if m == [] then 1 else |m[0].1| * Product(m[1..])
  }

  /** `c` assigns, in matrix order, to each variable one of its values. */
  ghost predicate IsCombinationOf(c: Assignment, m: Matrix)
  {
    |c| == |m| && forall i :: 0 <= i < |m| ==> c[i].0 == m[i].0 && c[i].1 in m[i].1
  }

  function PrefixAll(key: string, v: Value, rest: seq<Assignment>): (r: seq<Assignment>)
    ensures |r| == |rest|
    ensures forall i :: 0 <= i < |rest| ==> r[i] == [(key, v)] + rest[i]
  {
    seq(|rest|, i requires 0 <= i < |rest| => [(key, v)] + rest[i])
  }

  /** Every value of `key`, each followed by every assignment of the later
      variables: the first variable varies slowest. */
  function Extend(key: string, values: seq<Value>, rest: seq<Assignment>): (r: seq<Assignment>)
    ensures |r| == |values| * |rest|
  {
    if values == [] then []
    else PrefixAll(key, values[0], rest) + Extend(key, values[1..], rest)
  }

  /** `list(create_variable_combinations(**m))`. */
  function Combinations(m: Matrix): (r: seq<Assignment>)
    ensures |r| == Product(m)
  {
    if m == [] then [[]] else Extend(m[0].0, m[0].1, Combinations(m[1..]))
  }

  lemma {:induction false} ExtendAt(key: string, values: seq<Value>, rest: seq<Assignment>, a: nat, b: nat)
    requires a < |values| && b < |rest|
    ensures a * |rest| + b < |Extend(key, values, rest)|
    ensures Extend(key, values, rest)[a * |rest| + b] == [(key, values[a])] + rest[b]
  {
    var e := Extend(key, values, rest);
    var head := PrefixAll(key, values[0], rest);
    assert e == head + Extend(key, values[1..], rest);
    if a > 0 {
      ExtendAt(key, values[1..], rest, a - 1, b);
      assert a * |rest| + b == |head| + ((a - 1) * |rest| + b);
    }
  }

  /** The expansion is in the order of `itertools.product`: lexicographic,
      the last variable fastest. With `P` the number of assignments of the
      later variables, position `a * P + b` holds value number `a` of the
      first variable followed by assignment number `b` of the others. */
  lemma CombinationAt(m: Matrix, a: nat, b: nat)
    requires m != [] && a < |m[0].1| && b < Product(m[1..])
    ensures a * Product(m[1..]) + b < Product(m)
    ensures Combinations(m)[a * Product(m[1..]) + b]
         == [(m[0].0, m[0].1[a])] + Combinations(m[1..])[b]
  {
    ExtendAt(m[0].0, m[0].1, Combinations(m[1..]), a, b);
  }

  lemma {:induction false} ExtendMember(key: string, values: seq<Value>, rest: seq<Assignment>, c: Assignment)
    ensures c in Extend(key, values, rest) <==>
            (c != [] && c[0].0 == key && c[0].1 in values && c[1..] in rest)
  {
    if values != [] {
      ExtendMember(key, values[1..], rest, c);
      var head := PrefixAll(key, values[0], rest);
      if c in head {
        var j :| 0 <= j < |rest| && head[j] == c;
        assert c[1..] == rest[j];
      }
      if c != [] && c[0].0 == key && c[0].1 == values[0] && c[1..] in rest {
        var j :| 0 <= j < |rest| && rest[j] == c[1..];
        assert head[j] == [(key, values[0])] + c[1..] == c;
      }
    }
  }

  /** The expansion holds exactly the assignments that give each matrix
      variable, in matrix order, one of its values. */
  lemma {:induction false} CombinationsExactly(m: Matrix, c: Assignment)
    ensures c in Combinations(m) <==> IsCombinationOf(c, m)
  {
    if m == [] {
      assert c in Combinations(m) <==> c == [];
    } else if c == [] {
      ExtendMember(m[0].0, m[0].1, Combinations(m[1..]), c);
    } else {
      CombinationsExactly(m[1..], c[1..]);
      ExtendMember(m[0].0, m[0].1, Combinations(m[1..]), c);
      if IsCombinationOf(c, m) {
        assert IsCombinationOf(c[1..], m[1..]) by {
          forall i | 0 <= i < |m| - 1
            ensures c[1..][i].0 == m[1..][i].0 && c[1..][i].1 in m[1..][i].1
          {
            assert c[i + 1].0 == m[i + 1].0 && c[i + 1].1 in m[i + 1].1;
          }
        }
      }
      if c in Combinations(m) {
        assert IsCombinationOf(c[1..], m[1..]);
        forall i | 0 <= i < |m|
          ensures c[i].0 == m[i].0 && c[i].1 in m[i].1
        {
          if i > 0 {
            assert c[1..][i - 1].0 == m[1..][i - 1].0 && c[1..][i - 1].1 in m[1..][i - 1].1;
          }
        }
      }
    }
  }

  /** An empty matrix expands to exactly one, empty, assignment. */
  lemma EmptyMatrixCombinations()
    ensures Combinations([]) == [[]]
  {
  }
}

=== FILE: common.dfy ===
/**
 * Shared vocabulary of the model: optional and fallible results, the values
 * a configuration file can hold, Python's `str()` of those values, Python
 * dicts as ordered key/value sequences (iteration order is observable in
 * every output of the tool), and the string operations the tool relies on
 * (`str.split` on one character, `str.join`, decimal rendering of integers).
 */
module Common {

  datatype Option<+T> = None | Some(value: T)

  datatype Result<+T, +E> = Success(value: T) | Failure(error: E)
  {
    predicate IsFailure() { Failure? }

    function PropagateFailure<U>(): Result<U, E>
      requires Failure?
    {
      Failure(error)
    }

    function Extract(): T
      requires Success?
    {
      value
    }
  }

  /** A value read from a YAML configuration file. `Float` and `Other` carry
      the text Python's `str()` gives for them (a float, a list, `None`). */
  datatype Value =
    | Str(s: string)
    | Int(n: int)
    | Bool(b: bool)
    | Float(text: string)
    | Dict(items: seq<(string, Value)>)
    | Other(text: string)

  /** Applies a fallible step to every element, in order; the first
      failure is the result. */
  function MapAll<A, B, E>(xs: seq<A>, f: A -> Result<B, E>): (r: Result<seq<B>, E>)
    ensures r.Success? ==>
              |r.value| == |xs| && forall i :: 0 <= i < |xs| ==> f(xs[i]) == Success(r.value[i])
    ensures r.Failure? ==>
              exists i :: 0 <= i < |xs| && f(xs[i]) == Failure(r.error)
                          && forall j :: 0 <= j < i ==> f(xs[j]).Success?
  {
    if xs == [] then Success([])
    else
      var head := f(xs[0]);
      if head.Failure? then Failure(head.error)
      else
        var tail := MapAll(xs[1..], f);
        if tail.Failure? then Failure(tail.error) else Success([head.value] + tail.value)
  }

  /** When every step succeeds, `MapAll` collects the results. */
  lemma {:induction false} MapAllSucceeds<A, B, E>(xs: seq<A>, f: A -> Result<B, E>, ys: seq<B>)
    requires |ys| == |xs|
    requires forall i :: 0 <= i < |xs| ==> f(xs[i]) == Success(ys[i])
    ensures MapAll(xs, f) == Success(ys)
  {
    if xs != [] {
      MapAllSucceeds(xs[1..], f, ys[1..]);
      assert [ys[0]] + ys[1..] == ys;
    }
  }

  /* ---------------------------------------------------------------------- */
  /* Decimal rendering of integers                                            */
  /* ---------------------------------------------------------------------- */

  predicate IsDigit(c: char) { '0' <= c <= '9' }

  function DigitChar(d: nat): (c: char)
    requires d < 10
    ensures IsDigit(c) && (c as int) - ('0' as int) == d
  {
    (('0' as int) + d) as char
  }

  /** `str(n)` for a non-negative integer: its shortest decimal digits. */
  function NatToString(n: nat): (r: string)
    ensures 1 <= |r|
    ensures forall i :: 0 <= i < |r| ==> IsDigit(r[i])
    ensures n < 10 <==> |r| == 1
    decreases n
  {
    if n < 10 then [DigitChar(n)] else NatToString(n / 10) + [DigitChar(n % 10)]
  }

  /** The number a string of decimal digits denotes. */
  function DecimalValue(s: string): nat
    requires forall i :: 0 <= i < |s| ==> IsDigit(s[i])
  {
    if s == [] then 0
    else
      assert IsDigit(s[|s| - 1]);
      DecimalValue(s[..|s| - 1]) * 10 + ((s[|s| - 1] as int) - ('0' as int))
  }

  /** Reading back the digits `str(n)` writes gives `n`. */
  lemma {:induction false} NatToStringRoundTrip(n: nat)
    ensures DecimalValue(NatToString(n)) == n
  {
    if n >= 10 {
      NatToStringRoundTrip(n / 10);
      var s := NatToString(n);
      assert s[..|s| - 1] == NatToString(n / 10);
    }
  }

  /** Distinct numbers are rendered as distinct strings. */
  lemma NatToStringInjective(a: nat, b: nat)
    requires NatToString(a) == NatToString(b)
    ensures a == b
  {
    NatToStringRoundTrip(a);
    NatToStringRoundTrip(b);
  }

  /** `str(n)` for any integer. */
  function IntToString(n: int): (r: string)
    ensures 1 <= |r|
    ensures n >= 0 ==> r == NatToString(n)
    ensures n < 0 ==> r == "-" + NatToString(-n)
  {
    if n < 0 then "-" + NatToString(-n) else NatToString(n)
  }

  /* ---------------------------------------------------------------------- */
  /* Python str() and repr() of configuration values                          */
  /* ---------------------------------------------------------------------- */

  function BoolToString(b: bool): string { if b then "True" else "False" }

  /** `str(v)`: strings are themselves, everything else is its `repr`. */
  function Show(v: Value): (r: string)
    ensures v.Str? ==> r == v.s
    ensures v.Int? ==> r == IntToString(v.n)
  {
    if v.Str? then v.s else Repr(v)
  }

  /** `repr(v)`; a dict renders as `{'k': repr(v), ...}` in key order. */
  function Repr(v: Value): string
    decreases v, if v.Dict? then |v.items| + 1 else 0
  {
    match v
    case Str(s) => "'" + s + "'"
    case Int(n) => IntToString(n)
    case Bool(b) => BoolToString(b)
    case Float(t) => t
    case Other(t) => t
    case Dict(items) => "{" + ReprItems(v, 0) + "}"
  }

  function ReprItems(v: Value, i: nat): string
    requires v.Dict? && i <= |v.items|
    decreases v, |v.items| - i
  {
    if i == |v.items| then ""
    else
      (if i == 0 then "" else ", ") + "'" + v.items[i].0 + "': " + Repr(v.items[i].1)
      + ReprItems(v, i + 1)
  }

  /* ---------------------------------------------------------------------- */
  /* Python == on configuration values                                        */
  /* ---------------------------------------------------------------------- */

  /** The integer an integral float's `str()` denotes: an optional minus
      sign, decimal digits and `.0`, as in `1.0` or `-0.0`. */
  function IntegralFloat(t: string): Option<int>
  {
    if |t| >= 3 && t[|t| - 2..] == ".0" then
      var negative := t[0] == '-';
      var digits := if negative then t[1..|t| - 2] else t[..|t| - 2];
      if digits != [] && forall i :: 0 <= i < |digits| ==> IsDigit(digits[i]) then
        var magnitude: int := DecimalValue(digits);
        Some(if negative then -magnitude else magnitude)
      else None
    else None
  }

  /** The integer a value equals under Python's `==`, if any: integers,
      booleans (`True == 1`, `False == 0`) and integral floats. */
  function Numeric(v: Value): Option<int>
  {
    match v
    case Int(n) => Some(n)
    case Bool(b) => Some(if b then 1 else 0)
    case Float(t) => IntegralFloat(t)
    case _ => None
  }

  /** Python's `a == b`: numbers compare by value across `int`, `bool` and
      `float`; a dict equals another with as many keys, each holding an
      equal value there, whatever their order; strings, other floats and
      other values compare by their text. */
  predicate PyEq(a: Value, b: Value)
    decreases a
  {
    match a
    case Dict(x) =>
      && b.Dict? && |x| == |b.items|
      && forall i :: 0 <= i < |x| ==>
           && HasKey(b.items, x[i].0)
           && (assert x[i] in x; PyEq(x[i].1, b.items[IndexOf(b.items, x[i].0)].1))
    case Str(s) => b == Str(s)
    case Other(t) => b == Other(t)
    case Float(t) => if IntegralFloat(t).Some? then Numeric(b) == IntegralFloat(t) else b == Float(t)
    case _ => Numeric(b) == Numeric(a)
  }

  /** A value as YAML loads it: no mapping repeats a key, at any depth. */
  predicate WellFormed(v: Value)
    decreases v
  {
    match v
    case Dict(x) => UniqueKeys(x) && forall i :: 0 <= i < |x| ==> (assert x[i] in x; WellFormed(x[i].1))
    case _ => true
  }

  /** Every value YAML loads equals itself. */
  lemma {:induction false} PyEqReflexive(v: Value)
    requires WellFormed(v)
    ensures PyEq(v, v)
    decreases v
  {
    match v
    case Dict(x) =>
      forall i | 0 <= i < |x|
        ensures HasKey(x, x[i].0) && PyEq(x[i].1, x[IndexOf(x, x[i].0)].1)
      {
        assert x[i] in x;
        assert IndexOf(x, x[i].0) == i;
        PyEqReflexive(x[i].1);
      }
    case _ =>
  }

  /** `str()` of an integral float reads back as its integer. */
  lemma IntegralFloatOfInt(n: int)
    ensures IntegralFloat(IntToString(n) + ".0") == Some(n)
  {
    var t := IntToString(n) + ".0";
    var m: nat := if n < 0 then -n else n;
    NatToStringRoundTrip(m);
    assert t[|t| - 2..] == ".0";
    if n < 0 {
      assert t[0] == '-';
      assert t[1..|t| - 2] == NatToString(m);
    } else {
      assert t[..|t| - 2] == NatToString(m);
      assert t[0] == NatToString(m)[0] && IsDigit(t[0]);
    }
  }

  /** An integer equals the float of the same value, both ways round, as
      `1 == 1.0` and `1.0 == 1` in Python. */
  lemma IntEqualsIntegralFloat(n: int)
    ensures PyEq(Int(n), Float(IntToString(n) + ".0")) && PyEq(Float(IntToString(n) + ".0"), Int(n))
    ensures Int(n) != Float(IntToString(n) + ".0")
  {
    IntegralFloatOfInt(n);
  }

  /** The order of a dict's keys does not matter to `==`. */
  lemma DictOrderIgnored(k1: string, a: Value, k2: string, b: Value)
    requires k1 != k2 && WellFormed(a) && WellFormed(b)
    ensures PyEq(Dict([(k1, a), (k2, b)]), Dict([(k2, b), (k1, a)]))
  {
    var y := [(k2, b), (k1, a)];
    assert y[1].0 == k1 && y[0].0 == k2;
    assert IndexOf(y, k1) == 1 && IndexOf(y, k2) == 0;
    PyEqReflexive(a);
    PyEqReflexive(b);
  }

  /* ---------------------------------------------------------------------- */
  /* Python dicts as ordered association lists                                */
  /* ---------------------------------------------------------------------- */

  type Dict<V> = seq<(string, V)>

  function Keys<V>(d: Dict<V>): (ks: seq<string>)
    ensures |ks| == |d|
    ensures forall i :: 0 <= i < |d| ==> ks[i] == d[i].0
  {
    if d == [] then [] else [d[0].0] + Keys(d[1..])
  }

  predicate HasKey<V>(d: Dict<V>, k: string)
  {
    exists i :: 0 <= i < |d| && d[i].0 == k
  }

  predicate UniqueKeys<V>(d: Dict<V>)
  {
    forall i, j :: 0 <= i < j < |d| ==> d[i].0 != d[j].0
  }

  /** No string occurs twice. */
  predicate DistinctNames(s: seq<string>)
  {
    forall i, j :: 0 <= i < j < |s| ==> s[i] != s[j]
  }

  /** Index of the entry for `k`. */
  function IndexOf<V>(d: Dict<V>, k: string): (i: nat)
    requires HasKey(d, k)
    ensures i < |d| && d[i].0 == k
    ensures forall j :: 0 <= j < i ==> d[j].0 != k
  {
    if d[0].0 == k then 0 else 1 + IndexOf(d[1..], k)
  }

  /** `d.get(k)`. */
  function Get<V>(d: Dict<V>, k: string): (r: Option<V>)
    ensures r.None? <==> !HasKey(d, k)
    ensures r.Some? ==> r.value == d[IndexOf(d, k)].1
  {
    if HasKey(d, k) then Some(d[IndexOf(d, k)].1) else None
  }

  /** `d[k] = v`: an existing key keeps its position, a new one goes last. */
  function Put<V>(d: Dict<V>, k: string, v: V): (r: Dict<V>)
    ensures HasKey(d, k) ==> |r| == |d| && r == d[IndexOf(d, k) := (k, v)]
    ensures !HasKey(d, k) ==> r == d + [(k, v)]
  {
    if HasKey(d, k) then d[IndexOf(d, k) := (k, v)] else d + [(k, v)]
  }

  lemma PutKeepsUnique<V>(d: Dict<V>, k: string, v: V)
    requires UniqueKeys(d)
    ensures UniqueKeys(Put(d, k, v))
    ensures HasKey(Put(d, k, v), k) && Get(Put(d, k, v), k) == Some(v)
    ensures forall k' :: k' != k ==> Get(Put(d, k, v), k') == Get(d, k')
  {
    var r := Put(d, k, v);
    if HasKey(d, k) {
      assert r[IndexOf(d, k)].0 == k;
      assert IndexOf(r, k) == IndexOf(d, k);
    } else {
      assert r[|d|].0 == k;
      assert IndexOf(r, k) == |d|;
    }
    forall k' | k' != k
      ensures Get(r, k') == Get(d, k')
    {
      if HasKey(d, k') {
        assert r[IndexOf(d, k')].0 == k';
        assert IndexOf(r, k') == IndexOf(d, k');
      } else {
        assert !HasKey(r, k');
      }
    }
  }

  /** `{k: v for k, v in d.items() if k != key}`. */
  function Without<V>(d: Dict<V>, key: string): (r: Dict<V>)
    ensures forall i :: 0 <= i < |r| ==> r[i] in d && r[i].0 != key
    ensures forall i :: 0 <= i < |d| && d[i].0 != key ==> d[i] in r
  {
    if d == [] then []
    else if d[0].0 == key then Without(d[1..], key)
    else [d[0]] + Without(d[1..], key)
  }

  /** Filtering out one key leaves every other key's value alone and
      removes that key. */
  lemma {:induction false} WithoutGet<V>(d: Dict<V>, key: string, k: string)
    ensures Get(Without(d, key), k) == if k == key then None else Get(d, k)
  {
    if k == key {
      assert !HasKey(Without(d, key), k);
    } else if d != [] {
      WithoutGet(d[1..], key, k);
      var w := Without(d, key);
      if d[0].0 == k {
        assert w[0] == d[0];
        assert IndexOf(w, k) == 0 && IndexOf(d, k) == 0;
      } else {
        assert GetTail: Get(d, k) == Get(d[1..], k) by { GetSkipsHead(d, k); }
        if d[0].0 != key {
          assert w[1..] == Without(d[1..], key);
          GetSkipsHead(w, k);
        }
      }
    }
  }

  /** A lookup of a key that is not the first entry's looks in the rest. */
  lemma GetSkipsHead<V>(d: Dict<V>, k: string)
    requires d != [] && d[0].0 != k
    ensures Get(d, k) == Get(d[1..], k)
  {
    if HasKey(d, k) {
      var i := IndexOf(d, k);
      assert d[1..][i - 1].0 == k;
      assert IndexOf(d, k) == 1 + IndexOf(d[1..], k);
    } else {
      assert !HasKey(d[1..], k);
    }
  }

  lemma {:induction false} WithoutKeepsUnique<V>(d: Dict<V>, key: string)
    requires UniqueKeys(d)
    ensures UniqueKeys(Without(d, key))
  {
    if d != [] {
      assert UniqueKeys(d[1..]) by {
        forall i, j | 0 <= i < j < |d[1..]|
          ensures d[1..][i].0 != d[1..][j].0
        {
          assert d[1..][i] == d[i + 1] && d[1..][j] == d[j + 1];
        }
      }
      WithoutKeepsUnique(d[1..], key);
      var rest := Without(d[1..], key);
      if d[0].0 != key {
        forall j | 0 <= j < |rest|
          ensures rest[j].0 != d[0].0
        {
          assert rest[j] in rest;
          var m :| 0 <= m < |d[1..]| && d[1..][m] == rest[j];
          assert d[m + 1] == rest[j];
        }
        var w := Without(d, key);
        forall i, j | 0 <= i < j < |w|
          ensures w[i].0 != w[j].0
        {
          if i == 0 {
            assert w[j] == rest[j - 1];
          } else {
            assert w[i] == rest[i - 1] && w[j] == rest[j - 1];
          }
        }
      }
    }
  }

  /** `d.update(e)`: every entry of `e`, in order, written into `d`. */
  function Update<V>(d: Dict<V>, e: Dict<V>): Dict<V>
    decreases |e|
  {
    if e == [] then d else Update(Put(d, e[0].0, e[0].1), e[1..])
  }

  /** `d.update(e)` keeps every key of `d` where it was. */
  lemma {:induction false} UpdateKeepsKeys<V>(d: Dict<V>, e: Dict<V>)
    ensures |Update(d, e)| >= |d|
    ensures forall i :: 0 <= i < |d| ==> Update(d, e)[i].0 == d[i].0
    decreases |e|
  {
    if e != [] {
      UpdateKeepsKeys(Put(d, e[0].0, e[0].1), e[1..]);
    }
  }

  /** Updating with entries whose keys are all new appends them, in
      order. */
  lemma {:induction false} UpdateAppends<V>(d: Dict<V>, e: Dict<V>)
    requires UniqueKeys(d + e)
    ensures Update(d, e) == d + e
    decreases |e|
  {
    if e != [] {
      assert (d + e)[|d|] == e[0];
      assert !HasKey(d, e[0].0) by {
        forall i | 0 <= i < |d|
          ensures d[i].0 != e[0].0
        {
          assert (d + e)[i] == d[i];
        }
      }
      assert d + [e[0]] + e[1..] == d + e;
      UpdateAppends(d + [e[0]], e[1..]);
    }
  }

  /* ---------------------------------------------------------------------- */
  /* str.split(c) and str.join                                                */
  /* ---------------------------------------------------------------------- */

  function CountChar(s: string, c: char): nat
  {
    if s == [] then 0 else (if s[0] == c then 1 else 0) + CountChar(s[1..], c)
  }

  /** `s.split(c)` for a one-character separator: the pieces between
      separators, empty ones included. */
  function Split(s: string, c: char): (r: seq<string>)
    ensures |r| >= 1
    decreases |s|
  {
    if s == [] then [""]
    else if s[0] == c then [""] + Split(s[1..], c)
    else
      var rest := Split(s[1..], c);
      [[s[0]] + rest[0]] + rest[1..]
  }

  /** `sep.join(parts)`. */
  function Join(parts: seq<string>, sep: string): string
  {
    if parts == [] then ""
    else if |parts| == 1 then parts[0]
    else parts[0] + sep + Join(parts[1..], sep)
  }

  /** Splitting on `c` and joining with `c` gives the string back, the
      pieces never contain `c`, and there is one more piece than there are
      separators. */
  lemma {:induction false} SplitJoin(s: string, c: char)
    ensures Join(Split(s, c), [c]) == s
    ensures |Split(s, c)| == CountChar(s, c) + 1
    ensures forall i :: 0 <= i < |Split(s, c)| ==> c !in Split(s, c)[i]
  {
    if s != [] {
      SplitJoin(s[1..], c);
      var rest := Split(s[1..], c);
      if s[0] == c {
        assert Split(s, c) == [""] + rest;
        assert Split(s, c)[1..] == rest;
      } else {
        var r := Split(s, c);
        assert r[0] == [s[0]] + rest[0];
        assert r[1..] == rest[1..];
        if |rest| == 1 {
          assert Join(r, [c]) == [s[0]] + rest[0];
        } else {
          assert Join(rest, [c]) == rest[0] + [c] + Join(rest[1..], [c]);
          assert Join(r, [c]) == ([s[0]] + rest[0]) + [c] + Join(rest[1..], [c]);
        }
        forall i | 0 <= i < |r|
          ensures c !in r[i]
        {
          if i == 0 {
            assert c !in rest[0];
          } else {
            assert r[i] == rest[i];
          }
        }
      }
    }
  }

  /** Joining with one more part adds the separator and that part. */
  lemma {:induction false} JoinAppend(parts: seq<string>, sep: string, last: string)
    requires parts != []
    ensures Join(parts + [last], sep) == Join(parts, sep) + sep + last
  {
    if |parts| == 1 {
      assert (parts + [last])[1..] == [last];
    } else {
      JoinAppend(parts[1..], sep, last);
      assert (parts + [last])[1..] == parts[1..] + [last];
    }
  }

  /** A separator ends the first piece. */
  lemma {:induction false} SplitAtSeparator(a: string, c: char, t: string)
    requires c !in a
    ensures Split(a + [c] + t, c) == [a] + Split(t, c)
  {
    if a == [] {
      assert a + [c] + t == [c] + t;
      assert ([c] + t)[1..] == t;
    } else {
      assert (a + [c] + t)[1..] == a[1..] + [c] + t;
      SplitAtSeparator(a[1..], c, t);
      assert [a[0]] + a[1..] == a;
    }
  }

  /** Splitting parts joined with `c`, none of which contains `c`, gives
      the parts back. */
  lemma {:induction false} JoinSplit(parts: seq<string>, c: char)
    requires |parts| >= 1
    requires forall i :: 0 <= i < |parts| ==> c !in parts[i]
    ensures Split(Join(parts, [c]), c) == parts
  {
    if |parts| == 1 {
      SplitNoSeparator(parts[0], c);
    } else {
      JoinSplit(parts[1..], c);
      SplitAtSeparator(parts[0], c, Join(parts[1..], [c]));
      assert [parts[0]] + parts[1..] == parts;
    }
  }

  /** `Split` of a string without separators is that string alone. */
  lemma {:induction false} SplitNoSeparator(s: string, c: char)
    requires c !in s
    ensures Split(s, c) == [s]
  {
    if s != [] {
      assert s[0] != c;
      assert c !in s[1..];
      SplitNoSeparator(s[1..], c);
      assert [s[0]] + s[1..] == s;
    }
  }
}

=== FILE: config_split.dfy ===
/**
 * Splitting one configuration into several along chosen matrix variables:
 * `split_matrix` and the part naming and command building of
 * `generate_config_files` (src/benchmarker/main.py). Writing the YAML
 * files and printing are not modelled; the parts and the command are
 * returned instead.
 */
module ConfigSplit {
  import opened Common
  import opened VariableMatrix

  /* ---------------------------------------------------------------------- */
  /* split_matrix                                                             */
  /* ---------------------------------------------------------------------- */

  /** `matrix` with `key` pinned to the single value `v`: a copy of the
      matrix's entries with `key` assigned `[v]`. */
  function Pinned(m: Matrix, key: string, v: Value): Matrix
  {
    Put(m, key, [v])
  }

  /** Lines 240-246: for each matrix of `ms` in turn, one copy per value of
      `key`, in the order of `values`. */
  function Expand(ms: seq<Matrix>, key: string, values: seq<Value>): (r: seq<Matrix>)
    ensures |r| == |ms| * |values|
  {
    if ms == [] then []
    else seq(|values|, j requires 0 <= j < |values| => Pinned(ms[0], key, values[j])) + Expand(ms[1..], key, values)
  }

  /** The copy of `ms[i]` for the `j`-th value sits at `i * |values| + j`:
      the values vary fastest. */
  lemma {:induction false} ExpandAt(ms: seq<Matrix>, key: string, values: seq<Value>, i: nat, j: nat)
    requires i < |ms| && j < |values|
    ensures i * |values| + j < |Expand(ms, key, values)|
    ensures Expand(ms, key, values)[i * |values| + j] == Pinned(ms[i], key, values[j])
  {
    if i > 0 {
      ExpandAt(ms[1..], key, values, i - 1, j);
      assert (i - 1) * |values| + |values| == i * |values|;
    }
  }

  /** Every result is the copy of one of `ms` for one of the values. */
  lemma {:induction false} ExpandMember(ms: seq<Matrix>, key: string, values: seq<Value>, k: nat)
    requires k < |Expand(ms, key, values)|
    ensures exists i, j :: 0 <= i < |ms| && 0 <= j < |values| && Expand(ms, key, values)[k] == Pinned(ms[i], key, values[j])
  {
    var n := |values|;
    if k < n {
      assert Expand(ms, key, values)[k] == Pinned(ms[0], key, values[k]);
    } else {
      ExpandMember(ms[1..], key, values, k - n);
      var i, j :| 0 <= i < |ms[1..]| && 0 <= j < n && Expand(ms[1..], key, values)[k - n] == Pinned(ms[1..][i], key, values[j]);
      assert Expand(ms, key, values)[k] == Pinned(ms[i + 1], key, values[j]);
    }
  }

  /** `split_matrix(matrix, along)`, lines 233-246. `None` where the
      program raises KeyError: a variable listed twice is gone from the
      matrix the second time it is looked up. The lookup of the variable
      itself only happens when the inner split produced something. */
  function SplitMatrix(matrix: Matrix, along: seq<string>): Option<seq<Matrix>>
    decreases |along|
  {
    if along == [] then Some([matrix])
    else
      match SplitMatrix(Without(matrix, along[0]), along[1..])
      case None => None
      case Some(inner) =>
        if inner == [] then Some([])
        else
          match Get(matrix, along[0])
          case None => None
          case Some(values) => Some(Expand(inner, along[0], values))
  }

  /** Every variable to split along is in the matrix, once. */
  predicate Splittable(matrix: Matrix, along: seq<string>)
  {
    && (forall i :: 0 <= i < |along| ==> HasKey(matrix, along[i]))
    && (forall i, j :: 0 <= i < j < |along| ==> along[i] != along[j])
  }

  /** The product of the value-list lengths of the split variables. */
  function SplitCount(matrix: Matrix, along: seq<string>): nat
    requires forall i :: 0 <= i < |along| ==> HasKey(matrix, along[i])
  {
    if along == [] then 1 else |Get(matrix, along[0]).value| * SplitCount(matrix, along[1..])
  }

  /** Dropping a variable not split along does not change the count. */
  lemma {:induction false} SplitCountWithout(matrix: Matrix, key: string, along: seq<string>)
    requires forall i :: 0 <= i < |along| ==> HasKey(matrix, along[i]) && along[i] != key
    ensures forall i :: 0 <= i < |along| ==> HasKey(Without(matrix, key), along[i])
    ensures SplitCount(Without(matrix, key), along) == SplitCount(matrix, along)
  {
    forall i | 0 <= i < |along|
      ensures Get(Without(matrix, key), along[i]) == Get(matrix, along[i])
    {
      WithoutGet(matrix, key, along[i]);
    }
    if along != [] {
      SplitCountWithout(matrix, key, along[1..]);
    }
  }

  /** The facts about one result matrix: each split variable holds exactly
      one of its original values, every other variable keeps its list. */
  ghost predicate SplitResult(matrix: Matrix, along: seq<string>, m: Matrix)
  {
    && UniqueKeys(m)
    && (forall a :: a in along ==>
          && HasKey(matrix, a) && Get(m, a).Some? && |Get(m, a).value| == 1
          && Get(m, a).value[0] in Get(matrix, a).value)
    && (forall k :: k !in along ==> Get(m, k) == Get(matrix, k))
  }

  /** Splitting along variables of the matrix, each named once, succeeds
      with one matrix per combination of their values, and in each the
      split variables are pinned to one value while the others keep their
      lists. */
  lemma {:induction false} SplitMatrixShape(matrix: Matrix, along: seq<string>)
    requires UniqueKeys(matrix) && Splittable(matrix, along)
    ensures SplitMatrix(matrix, along).Some?
    ensures |SplitMatrix(matrix, along).value| == SplitCount(matrix, along)
    ensures forall m :: m in SplitMatrix(matrix, along).value ==> SplitResult(matrix, along, m)
    decreases |along|
  {
    if along != [] {
      var key, rest := along[0], along[1..];
      var w := Without(matrix, key);
      WithoutKeepsUnique(matrix, key);
      forall k
        ensures Get(w, k) == if k == key then None else Get(matrix, k)
      {
        WithoutGet(matrix, key, k);
      }
      assert forall i :: 0 <= i < |rest| ==> rest[i] == along[i + 1] && along[i + 1] != key;
      SplitCountWithout(matrix, key, rest);
      SplitMatrixShape(w, rest);
      var inner := SplitMatrix(w, rest).value;
      var values := Get(matrix, key).value;
      if inner != [] {
        assert along == [key] + rest;
        ExpandedResults(matrix, key, rest, inner);
      }
    }
  }

  /** Pinning the next variable in every result of the inner split gives
      results of the outer one. */
  lemma ExpandedResults(matrix: Matrix, key: string, rest: seq<string>, inner: seq<Matrix>)
    requires UniqueKeys(matrix) && HasKey(matrix, key) && key !in rest
    requires forall m :: m in inner ==> SplitResult(Without(matrix, key), rest, m)
    ensures forall m :: m in Expand(inner, key, Get(matrix, key).value) ==> SplitResult(matrix, [key] + rest, m)
  {
    var values := Get(matrix, key).value;
    var r := Expand(inner, key, values);
    forall m | m in r
      ensures SplitResult(matrix, [key] + rest, m)
    {
      var k :| 0 <= k < |r| && r[k] == m;
      ExpandMember(inner, key, values, k);
      var i, j :| 0 <= i < |inner| && 0 <= j < |values| && m == Pinned(inner[i], key, values[j]);
      PinnedResult(matrix, key, rest, inner[i], values[j]);
    }
  }

  /** Pinning the next variable in a result of the inner split gives a
      result of the outer one. */
  lemma PinnedResult(matrix: Matrix, key: string, rest: seq<string>, m: Matrix, v: Value)
    requires UniqueKeys(matrix) && HasKey(matrix, key) && key !in rest
    requires SplitResult(Without(matrix, key), rest, m)
    requires v in Get(matrix, key).value
    ensures SplitResult(matrix, [key] + rest, Pinned(m, key, v))
  {
    var w := Without(matrix, key);
    PutKeepsUnique(m, key, [v]);
    forall a | a in rest
      ensures Get(w, a) == Get(matrix, a)
    {
      WithoutGet(matrix, key, a);
    }
    forall k | k !in [key] + rest
      ensures Get(Pinned(m, key, v), k) == Get(matrix, k)
    {
      WithoutGet(matrix, key, k);
    }
  }

  /** Splitting along no variable gives the matrix alone. */
  lemma SplitAlongNothing(matrix: Matrix)
    ensures SplitMatrix(matrix, []) == Some([matrix])
  {
  }

  /** The first variable split along varies fastest: consecutive results
      come from the same inner split and differ in its value, in list
      order. */
  lemma FirstSplitVariesFastest(matrix: Matrix, along: seq<string>, i: nat, j: nat)
    requires along != [] && HasKey(matrix, along[0])
    requires SplitMatrix(Without(matrix, along[0]), along[1..]).Some?
    requires i < |SplitMatrix(Without(matrix, along[0]), along[1..]).value|
    requires j < |Get(matrix, along[0]).value|
    ensures SplitMatrix(matrix, along).Some?
    ensures var values := Get(matrix, along[0]).value;
            i * |values| + j < |SplitMatrix(matrix, along).value|
            && SplitMatrix(matrix, along).value[i * |values| + j]
               == Pinned(SplitMatrix(Without(matrix, along[0]), along[1..]).value[i], along[0], values[j])
  {
    ExpandAt(SplitMatrix(Without(matrix, along[0]), along[1..]).value, along[0], Get(matrix, along[0]).value, i, j);
  }

  /* ---------------------------------------------------------------------- */
  /* generate_config_files                                                    */
  /* ---------------------------------------------------------------------- */

  datatype SplitError =
    | VariableNotFound(name: string)  // lines 248-251: logged, exit code 1
    | RepeatedVariable                // a KeyError inside `split_matrix`

  /** One configuration part: the file it is written to, its matrix and
      the csv file its results go to. */
  datatype Part = Part(path: string, matrix: Matrix, outputFile: string)

  /** The first variable to split along that the matrix lacks. */
  function MissingVariable(matrix: Matrix, split: seq<string>): (r: Option<string>)
    ensures r.None? <==> forall i :: 0 <= i < |split| ==> HasKey(matrix, split[i])
    ensures r.Some? ==> exists i :: 0 <= i < |split| && split[i] == r.value && !HasKey(matrix, r.value)
                          && forall j :: 0 <= j < i ==> HasKey(matrix, split[j])
  {
    if split == [] then None
    else if !HasKey(matrix, split[0]) then Some(split[0])
    else
      var r := MissingVariable(matrix, split[1..]);
      assert r.Some? ==> exists i :: 0 <= i < |split[1..]| && split[1..][i] == r.value && !HasKey(matrix, r.value)
                                    && forall j :: 0 <= j < i ==> HasKey(matrix, split[1..][j]);
      assert forall i :: 0 <= i < |split[1..]| ==> split[1..][i] == split[i + 1];
      r
  }

  /** Line 261: the name of part `i`. */
  function PartName(config: string, i: nat): string
  {
    config + ".part" + NatToString(i)
  }

  /** Line 262: the csv file part `i` writes. */
  function PartOutput(config: string, i: nat): string
  {
    PartName(config, i) + ".csv"
  }

  /** Different parts write different files. */
  lemma PartOutputsDistinct(config: string, i: nat, j: nat)
    requires i != j
    ensures PartOutput(config, i) != PartOutput(config, j)
  {
    var n := |config| + 5;
    if PartOutput(config, i) == PartOutput(config, j) {
      var a, b := PartOutput(config, i), PartOutput(config, j);
      assert |NatToString(i)| == |NatToString(j)|;
      assert a[n..n + |NatToString(i)|] == NatToString(i);
      assert b[n..n + |NatToString(j)|] == NatToString(j);
      NatToStringInjective(i, j);
    }
  }

  /** The command that combines the first `n` parts' results. */
  function CombineCommand(config: string, n: nat): string
  {
    if n == 0 then "benchmarker " + config + " -u"
    else CombineCommand(config, n - 1) + " " + PartOutput(config, n - 1)
  }

  function PartOutputs(config: string, n: nat): (r: seq<string>)
    ensures |r| == n && forall i :: 0 <= i < n ==> r[i] == PartOutput(config, i)
  {
    seq(n, i requires 0 <= i < n => PartOutput(config, i))
  }

  /** The command is `benchmarker <config> -u` followed by every part's
      csv file, in part order, separated by single spaces. */
  lemma {:induction false} CombineCommandJoins(config: string, n: nat)
    ensures CombineCommand(config, n) == Join(["benchmarker", config, "-u"] + PartOutputs(config, n), " ")
  {
    var head := ["benchmarker", config, "-u"];
    if n == 0 {
      assert head + PartOutputs(config, 0) == head;
      assert head[1..] == [config, "-u"] && head[1..][1..] == ["-u"];
      assert Join(["-u"], " ") == "-u";
      assert Join([config, "-u"], " ") == config + " " + "-u";
      assert Join(head, " ") == "benchmarker" + " " + (config + " " + "-u");
    } else {
      CombineCommandJoins(config, n - 1);
      assert head + PartOutputs(config, n) == (head + PartOutputs(config, n - 1)) + [PartOutput(config, n - 1)];
      JoinAppend(head + PartOutputs(config, n - 1), " ", PartOutput(config, n - 1));
    }
  }

  /** For a configuration name without spaces, the command's words are
      exactly the program, the name, `-u` and the parts' csv files. */
  lemma CombineCommandWords(config: string, n: nat)
    requires ' ' !in config
    ensures Split(CombineCommand(config, n), ' ') == ["benchmarker", config, "-u"] + PartOutputs(config, n)
  {
    var words := ["benchmarker", config, "-u"] + PartOutputs(config, n);
    forall i | 0 <= i < |words|
      ensures ' ' !in words[i]
    {
      if i >= 3 {
        assert words[i] == PartOutputs(config, n)[i - 3] == PartOutput(config, i - 3);
        PartOutputWithoutSpace(config, i - 3);
      }
    }
    CombineCommandJoins(config, n);
    JoinSplit(words, ' ');
  }

  /** A part's csv file name has a space only where the configuration name
      has one. */
  lemma PartOutputWithoutSpace(config: string, i: nat)
    requires ' ' !in config
    ensures ' ' !in PartOutput(config, i)
  {
    var s := NatToString(i);
    assert PartOutput(config, i) == config + ".part" + s + ".csv";
    assert forall k :: 0 <= k < |s| ==> s[k] != ' ';
  }

  /** What `generate_config_files` produces: a missing variable is
      reported before anything is split; otherwise part `i` holds the
      `i`-th split matrix and writes its own csv file. */
  function GeneratedParts(matrix: Matrix, config: string, split: seq<string>): Result<(seq<Part>, string), SplitError>
  {
    match MissingVariable(matrix, split)
    case Some(name) => Failure(VariableNotFound(name))
    case None =>
      match SplitMatrix(matrix, split)
      case None => Failure(RepeatedVariable)
      case Some(ms) =>
        Success((seq(|ms|, i requires 0 <= i < |ms| =>
                   Part("out/" + PartName(config, i) + ".yml", ms[i], PartOutput(config, i))),
                 CombineCommand(config, |ms|)))
  }

  /** `generate_config_files(config, config_filename, split)`, lines
      248-272: the variables are checked, the matrix split, and the parts
      and the combining command built one part at a time. */
  method GenerateConfigFiles(matrix: Matrix, config: string, split: seq<string>)
    returns (r: Result<(seq<Part>, string), SplitError>)
    ensures r == GeneratedParts(matrix, config, split)
  {
    for i := 0 to |split|
      invariant forall j :: 0 <= j < i ==> HasKey(matrix, split[j])
    {
      if !HasKey(matrix, split[i]) {
        return Failure(VariableNotFound(split[i]));
      }
    }
    var matrices := SplitMatrix(matrix, split);
    if matrices.None? {
      return Failure(RepeatedVariable);
    }
    var ms := matrices.value;
    var command := "benchmarker " + config + " -u";
    var parts: seq<Part> := [];
    for i := 0 to |ms|
      invariant |parts| == i
      invariant forall j :: 0 <= j < i ==> parts[j] == Part("out/" + PartName(config, j) + ".yml", ms[j], PartOutput(config, j))
      invariant command == CombineCommand(config, i)
    {
      var uniqueName := PartName(config, i);
      var outputFileName := uniqueName + ".csv";
      parts := parts + [Part("out/" + uniqueName + ".yml", ms[i], outputFileName)];
      command := command + " " + outputFileName;
    }
    assert MissingVariable(matrix, split).None?;
    assert parts == GeneratedParts(matrix, config, split).value.0;
    return Success((parts, command));
  }

  /** With every split variable in the matrix once, there is one part per
      combination of their values, each with its own csv file. */
  lemma GeneratedPartCount(matrix: Matrix, config: string, split: seq<string>)
    requires UniqueKeys(matrix) && Splittable(matrix, split)
    ensures GeneratedParts(matrix, config, split).Success?
    ensures |GeneratedParts(matrix, config, split).value.0| == SplitCount(matrix, split)
    ensures forall p :: p in GeneratedParts(matrix, config, split).value.0 ==> SplitResult(matrix, split, p.matrix)
  {
    SplitMatrixShape(matrix, split);
    var ms := SplitMatrix(matrix, split).value;
    forall p | p in GeneratedParts(matrix, config, split).value.0
      ensures SplitResult(matrix, split, p.matrix)
    {
      var i :| 0 <= i < |ms| && p == GeneratedParts(matrix, config, split).value.0[i];
      assert p.matrix == ms[i];
    }
  }
}

=== FILE: custom_metric.dfy ===
/**
 * How a custom metric's output becomes measurements (`gather_custom_metric`,
 * identical in src/benchmarker/execute.py and src/benchalot/execute.py). One
 * line of output is one value for the default stage; output of two lines is
 * handed to the CSV reader, whose first record names the stages and whose
 * last record holds their values; anything else is a failure. The two
 * counts differ: `splitlines` breaks lines at ten boundaries, the reader
 * only at line feeds.
 * Running the metric command is outside this module: it receives the text
 * the command printed. Python's `float()` is a parameter, `toFloat`, that
 * either gives a number or fails.
 */
module CustomMetric {
  import opened Common
  import opened OutputConstants
  import opened ExecuteCommon

  /* ---------------------------------------------------------------------- */
  /* str.splitlines                                                           */
  /* ---------------------------------------------------------------------- */

  /** The line boundaries of `str.splitlines`: line feed, carriage return,
      vertical tab, form feed, the file/group/record separators, next line,
      and the Unicode line and paragraph separators. */
  predicate IsLineBreak(c: char)
  {
    var n := c as int;
    n == 10 || n == 13 || n == 11 || n == 12 || n == 28 || n == 29 || n == 30
    || n == 0x85 || n == 0x2028 || n == 0x2029
  }

  predicate BreakFree(s: string)
  {
    forall i :: 0 <= i < |s| ==> !IsLineBreak(s[i])
  }

  /** Index of the first line boundary of `s`, or `|s|` when there is
      none. */
  function LineEnd(s: string): (i: nat)
    ensures i <= |s| && (i < |s| ==> IsLineBreak(s[i]))
    ensures BreakFree(s[..i])
  {
    if s == [] || IsLineBreak(s[0]) then 0
    else
      var j := LineEnd(s[1..]);
      assert s[..1 + j] == [s[0]] + s[1..][..j];
      1 + j
  }

  /** `s.splitlines()`: the lines of `s` without their terminators; `\r\n`
      ends one line, and a final terminator does not start an empty last
      line. */
  function SplitLines(s: string): (r: seq<string>)
    ensures r == [] <==> s == []
    ensures forall i :: 0 <= i < |r| ==> BreakFree(r[i])
    decreases |s|
  {
    if s == [] then []
    else
      var i := LineEnd(s);
      if i == |s| then [s]
      else
        var next := if s[i] == '\r' && i + 1 < |s| && s[i + 1] == '\n' then i + 2 else i + 1;
        [s[..i]] + SplitLines(s[next..])
  }

  /** The terminators a line can end with in practice. */
  predicate IsTerminator(end: string)
  {
    end == "" || end == "\n" || end == "\r" || end == "\r\n"
  }

  /** A non-empty line with or without its terminator is one line. */
  lemma SingleLine(t: string, end: string)
    requires t != "" && BreakFree(t) && IsTerminator(end)
    ensures SplitLines(t + end) == [t]
  {
    var s := t + end;
    LineEndAt(t, end);
    assert s[..|t|] == t;
    if end == "" {
      assert s == t;
    } else if end == "\r\n" {
      assert s[|t|] == '\r' && s[|t| + 1] == '\n';
      assert s[|t| + 2..] == [];
    } else {
      assert |s| == |t| + 1;
      assert s[|t| + 1..] == [];
    }
  }

  /** A terminator on its own is one empty line. */
  lemma TerminatorAlone(end: string)
    requires IsTerminator(end) && end != ""
    ensures SplitLines(end) == [""]
  {
    assert LineEnd(end) == 0;
    if end == "\r\n" {
      assert end[2..] == [];
    } else {
      assert end[1..] == [];
    }
  }

  /** A line ended by a line feed is the first line. */
  lemma LineThenRest(a: string, rest: string)
    requires BreakFree(a)
    ensures SplitLines(a + "\n" + rest) == [a] + SplitLines(rest)
  {
    var s := a + "\n" + rest;
    assert s == a + ("\n" + rest);
    LineEndAt(a, "\n" + rest);
    assert s[|a|] == '\n';
    assert s[..|a|] == a;
    assert s[|a| + 1..] == rest;
  }

  /** A header line ended by a line feed and a value line with or without
      its terminator are two lines. */
  lemma TwoLines(a: string, b: string, end: string)
    requires BreakFree(a) && BreakFree(b) && IsTerminator(end)
    requires b != "" || end != ""
    ensures SplitLines(a + "\n" + b + end) == [a, b]
  {
    assert a + "\n" + b + end == a + "\n" + (b + end);
    LineThenRest(a, b + end);
    if b != "" {
      SingleLine(b, end);
    } else {
      assert b + end == end;
      TerminatorAlone(end);
    }
  }

  /** The first boundary of `t + rest`, for a line `t` followed by a
      terminator or nothing, is at `|t|`. */
  lemma {:induction false} LineEndAt(t: string, rest: string)
    requires BreakFree(t)
    requires rest == [] || IsLineBreak(rest[0])
    ensures LineEnd(t + rest) == |t|
  {
    if t != [] {
      assert (t + rest)[0] == t[0];
      assert (t + rest)[1..] == t[1..] + rest;
      LineEndAt(t[1..], rest);
    } else {
      assert t + rest == rest;
    }
  }

  /* ---------------------------------------------------------------------- */
  /* The CSV reading of two-line output                                       */
  /* ---------------------------------------------------------------------- */

  /** The fields of one CSV line; a blank line has none. */
  function CsvFields(line: string): (r: seq<string>)
    ensures line == "" <==> r == []
  {
    if line == "" then [] else Split(line, ',')
  }

  /** The dict a `DictReader` makes of a row: each header name with the
      field under it, in header order, the last field winning when a name
      repeats. */
  function Record(header: seq<string>, fields: seq<string>): (r: Dict<string>)
    requires |fields| == |header|
    ensures UniqueKeys(r)
    ensures forall k :: HasKey(r, k) <==> k in header
    decreases |header|
  {
    if header == [] then []
    else
      var n := |header| - 1;
      var before := Record(header[..n], fields[..n]);
      PutKeepsUnique(before, header[n], fields[n]);
      var r := Put(before, header[n], fields[n]);
      assert forall k :: HasKey(r, k) <==> HasKey(before, k) || k == header[n] by {
        forall k
          ensures HasKey(r, k) <==> HasKey(before, k) || k == header[n]
        {
          if k != header[n] {
            assert Get(r, k) == Get(before, k);
          }
        }
      }
      assert header == header[..n] + [header[n]];
      r
  }

  /** Under each name is the field of its last occurrence. */
  lemma {:induction false} RecordGet(header: seq<string>, fields: seq<string>, i: nat)
    requires |fields| == |header| && i < |header| && LastOccurrence(header, i)
    ensures Get(Record(header, fields), header[i]) == Some(fields[i])
    decreases |header|
  {
    var n := |header| - 1;
    var before := Record(header[..n], fields[..n]);
    PutKeepsUnique(before, header[n], fields[n]);
    if i < n {
      assert LastOccurrence(header[..n], i);
      RecordGet(header[..n], fields[..n], i);
    }
  }

  /** With distinct names the keys are the header, in order. */
  lemma {:induction false} RecordKeys(header: seq<string>, fields: seq<string>)
    requires |fields| == |header| && DistinctNames(header)
    ensures Keys(Record(header, fields)) == header
    decreases |header|
  {
    if header != [] {
      var n := |header| - 1;
      var before := Record(header[..n], fields[..n]);
      assert DistinctNames(header[..n]);
      RecordKeys(header[..n], fields[..n]);
      assert header[n] !in header[..n];
      assert !HasKey(before, header[n]);
      assert Keys(Put(before, header[n], fields[n])) == Keys(before) + [header[n]];
    }
  }

  /** No later entry repeats `s[i]`. */
  predicate LastOccurrence(s: seq<string>, i: nat)
    requires i < |s|
  {
    forall j :: i < j < |s| ==> s[j] != s[i]
  }

  /** `float()` of every value, keys kept. */
  function Parsed(d: Dict<string>, toFloat: string -> Option<real>): (r: Dict<Option<real>>)
    ensures |r| == |d| && Keys(r) == Keys(d)
    ensures forall i :: 0 <= i < |d| ==> r[i] == (d[i].0, toFloat(d[i].1))
  {
    if d == [] then [] else [(d[0].0, toFloat(d[0].1))] + Parsed(d[1..], toFloat)
  }

  /* ---------------------------------------------------------------------- */
  /* Classification                                                           */
  /* ---------------------------------------------------------------------- */

  /** The measurements of one custom metric run: a value (or `None`) per
      stage, and whether the metric failed. */
  datatype Gathered = Gathered(values: Dict<Option<real>>, failed: bool)

  /** Why reading a custom metric's output raises. `RowLengthMismatch`: a
      value row with more or fewer fields than the header, where the reader
      fills in `None` or gathers the surplus in a list and `float()` of
      either raises `TypeError`. `NewlineInField`: a carriage return inside
      a line the CSV reader reads, which it refuses with "new-line
      character seen in unquoted field". */
  datatype GatherError = RowLengthMismatch | NewlineInField

  predicate SomeMissing(values: Dict<Option<real>>)
  {
    exists i :: 0 <= i < |values| && values[i].1.None?
  }

  /** The two-line case: the header names the stages and the row holds
      their values. */
  function ClassifyCsv(header: seq<string>, row: seq<string>, toFloat: string -> Option<real>): (r: Result<Gathered, GatherError>)
    ensures r.Success? ==> UniqueKeys(r.value.values) && (r.value.failed <==> SomeMissing(r.value.values))
    ensures row == [] ==> r == Success(Gathered([], false))
    ensures row != [] && |row| != |header| ==> r == Failure(RowLengthMismatch)
    ensures row != [] && |row| == |header| ==>
              r.Success? && (forall k :: HasKey(r.value.values, k) <==> k in header)
              && (DistinctNames(header) ==>
                    Keys(r.value.values) == header
                    && forall i :: 0 <= i < |header| ==> r.value.values[i].1 == toFloat(row[i]))
  {
    if row == [] then Success(Gathered([], false))
    else if |row| != |header| then Failure(RowLengthMismatch)
    else
      var values := Parsed(Record(header, row), toFloat);
      ParsedRecord(header, row, toFloat);
      Success(Gathered(values, SomeMissing(values)))
  }

  /** The parsed record of a row as long as the header has distinct keys,
      one for each header name; with distinct names, the header in order,
      each with the parsed field under it. */
  lemma ParsedRecord(header: seq<string>, row: seq<string>, toFloat: string -> Option<real>)
    requires |row| == |header|
    ensures var values := Parsed(Record(header, row), toFloat);
      && UniqueKeys(values)
      && (forall k :: HasKey(values, k) <==> k in header)
      && (DistinctNames(header) ==>
            Keys(values) == header && forall i :: 0 <= i < |header| ==> values[i].1 == toFloat(row[i]))
  {
    var record := Record(header, row);
    var values := Parsed(record, toFloat);
    assert forall i :: 0 <= i < |values| ==> values[i].0 == record[i].0;
    assert forall k :: HasKey(values, k) <==> HasKey(record, k) by {
      forall k
        ensures HasKey(values, k) <==> HasKey(record, k)
      {
        if HasKey(record, k) {
          var i :| 0 <= i < |record| && record[i].0 == k;
          assert values[i].0 == k;
        }
      }
    }
    if DistinctNames(header) {
      RecordKeys(header, row);
      forall i | 0 <= i < |header|
        ensures values[i].1 == toFloat(row[i])
      {
        RecordGet(header, row, i);
        assert record[i].0 == header[i];
        assert IndexOf(record, header[i]) == i;
      }
    }
  }

  /* ---------------------------------------------------------------------- */
  /* The CSV reader over a StringIO                                           */
  /* ---------------------------------------------------------------------- */

  /** Index of the first line feed of `s`, or `|s|` when there is none. */
  function FeedEnd(s: string): (i: nat)
    ensures i <= |s| && (i < |s| ==> s[i] == '\n')
    ensures '\n' !in s[..i]
  {
    if s == [] || s[0] == '\n' then 0
    else
      var j := FeedEnd(s[1..]);
      assert s[..1 + j] == [s[0]] + s[1..][..j];
      1 + j
  }

  /** The lines iterating a `StringIO` over `s` yields, without their line
      feeds: only a line feed ends a line, and a final one does not start
      an empty last line. */
  function StreamLines(s: string): (r: seq<string>)
    ensures r == [] <==> s == []
    ensures forall i :: 0 <= i < |r| ==> '\n' !in r[i]
    decreases |s|
  {
    if s == [] then []
    else
      var i := FeedEnd(s);
      if i == |s| then [s] else [s[..i]] + StreamLines(s[i + 1..])
  }

  /** The final line feed `s` ends with, if any. */
  function FinalFeed(s: string): string
  {
    if s != [] && s[|s| - 1] == '\n' then "\n" else ""
  }

  /** Joining the lines with line feeds, and putting back a final one, gives
      the text again. */
  lemma {:induction false} StreamLinesJoin(s: string)
    ensures Join(StreamLines(s), "\n") + FinalFeed(s) == s
    decreases |s|
  {
    if s != [] {
      var i := FeedEnd(s);
      if i == |s| {
        assert s[..i] == s;
        assert FinalFeed(s) == "";
      } else {
        var a, rest := s[..i], s[i + 1..];
        assert s == a + "\n" + rest;
        assert StreamLines(s) == [a] + StreamLines(rest);
        StreamLinesJoin(rest);
        if rest == [] {
          assert FinalFeed(s) == "\n";
        } else {
          var tail := StreamLines(rest);
          assert ([a] + tail)[1..] == tail;
          assert Join([a] + tail, "\n") == a + "\n" + Join(tail, "\n");
          assert FinalFeed(s) == FinalFeed(rest);
        }
      }
    }
  }


  /** Text without a line feed is one line. */
  lemma OneStreamLine(s: string)
    requires s != [] && '\n' !in s
    ensures StreamLines(s) == [s]
  {
  }


  /** A line ended by a line feed is the first line. */
  lemma StreamLineThenRest(a: string, rest: string)
    requires '\n' !in a
    ensures StreamLines(a + "\n" + rest) == [a] + StreamLines(rest)
  {
    var s := a + "\n" + rest;
    var i := FeedEnd(s);
    assert s[|a|] == '\n';
    assert i == |a|;
    assert s[..i] == a && s[i + 1..] == rest;
  }

  /** `line` without its trailing carriage returns. */
  function TrimCr(line: string): (r: string)
    ensures |r| <= |line| && line[..|r|] == r
    ensures forall i :: |r| <= i < |line| ==> line[i] == '\r'
    ensures r == [] || r[|r| - 1] != '\r'
    decreases |line|
  {
    if line == [] || line[|line| - 1] != '\r' then line
    else
      var r := TrimCr(line[..|line| - 1]);
      assert line[..|line| - 1][..|r|] == line[..|r|];
      r
  }

  /** The record the CSV reader makes of one line: a carriage return ends
      the record, so trailing ones are dropped, and a line holding any other
      character after one is refused. */
  function CsvRecord(line: string): (r: Result<seq<string>, GatherError>)
    ensures '\r' !in line ==> r == Success(CsvFields(line))
    ensures r.Failure? <==> exists i, j :: 0 <= i < j < |line| && line[i] == '\r' && line[j] != '\r'
    ensures r.Failure? ==> r.error == NewlineInField
  {
    var content := TrimCr(line);
    if '\r' in content then
      var i :| 0 <= i < |content| && content[i] == '\r';
      assert line[i] == '\r' && line[|content| - 1] != '\r';
      Failure(NewlineInField)
    else
      Success(CsvFields(content))
  }

  /** A trailing carriage return, as in a `\r\n` line ending, does not
      change the record. */
  lemma CarriageReturnEnding(line: string)
    ensures CsvRecord(line + "\r") == CsvRecord(line)
  {
    var s := line + "\r";
    assert s[..|s| - 1] == line;
  }

  /** The records of `lines`, in order; a line the reader refuses stops
      it. */
  function Records(lines: seq<string>): (r: Result<seq<seq<string>>, GatherError>)
    ensures r.Success? <==> forall i :: 0 <= i < |lines| ==> CsvRecord(lines[i]).Success?
    ensures r.Success? ==> |r.value| == |lines| && forall i :: 0 <= i < |lines| ==> r.value[i] == CsvRecord(lines[i]).value
    ensures r.Failure? ==> r.error == NewlineInField
    decreases |lines|
  {
    if lines == [] then Success([])
    else
      var first :- CsvRecord(lines[0]);
      var rest :- Records(lines[1..]);
      var r := [first] + rest;
      assert forall i :: 1 <= i < |lines| ==> lines[i] == lines[1..][i - 1];
      Success(r)
  }

  /** The row `DictReader` hands out last, which the loop of
      `gather_custom_metric` keeps: the last non-blank record, or none
      (`[]`) when every record is blank, since the reader skips blank
      records. */
  function LastRow(records: seq<seq<string>>): (r: seq<string>)
    ensures r == [] <==> forall i :: 0 <= i < |records| ==> records[i] == []
    ensures r != [] ==> exists i :: 0 <= i < |records| && records[i] == r && forall j :: i < j < |records| ==> records[j] == []
    decreases |records|
  {
    if records == [] then []
    else if records[|records| - 1] != [] then records[|records| - 1]
    else LastRow(records[..|records| - 1])
  }

  /** `DictReader(StringIO(output))` read to the end: the first record
      names the stages and the last non-blank record after it holds their
      values. */
  function ReadCsv(output: string, toFloat: string -> Option<real>): (r: Result<Gathered, GatherError>)
    ensures r.Success? ==> UniqueKeys(r.value.values) && (r.value.failed <==> SomeMissing(r.value.values))
    ensures (exists i :: 0 <= i < |StreamLines(output)| && CsvRecord(StreamLines(output)[i]).Failure?) ==>
              r == Failure(NewlineInField)
    ensures |StreamLines(output)| <= 1 && Records(StreamLines(output)).Success? ==> r == Success(Gathered([], false))
    ensures |StreamLines(output)| == 2 && Records(StreamLines(output)).Success? ==>
              r == ClassifyCsv(Records(StreamLines(output)).value[0], Records(StreamLines(output)).value[1], toFloat)
  {
    var lines := StreamLines(output);
    var records :- Records(lines);
    if records == [] then Success(Gathered([], false))
    else
      var row := LastRow(records[1..]);
      assert |lines| == 2 ==> records[1..] == [records[1]];
      ClassifyCsv(records[0], row, toFloat)
  }

  /** `gather_custom_metric` after the command has printed `output`. */
  function Classify(output: string, toFloat: string -> Option<real>): (r: Result<Gathered, GatherError>)
    ensures r.Success? ==> UniqueKeys(r.value.values) && (r.value.failed <==> SomeMissing(r.value.values))
    ensures |SplitLines(output)| == 1 ==>
              r.Success? && Keys(r.value.values) == [DefaultStageName]
              && r.value.values[0].1 == toFloat(output)
    ensures |SplitLines(output)| == 2 ==> r == ReadCsv(output, toFloat)
    ensures |SplitLines(output)| != 1 && |SplitLines(output)| != 2 ==>
              r.Success? && Keys(r.value.values) == [DefaultStageName] && r.value.values[0].1.None?
              && r.value.failed
  {
    var lines := SplitLines(output);
    if |lines| == 1 then
      var out := toFloat(output);
      var values := [(DefaultStageName, out)];
      assert SomeMissing(values) <==> out.None? by {
        assert values[0].1 == out;
      }
      Success(Gathered(values, out.None?))
    else if |lines| == 2 then
      ReadCsv(output, toFloat)
    else
      var values: Dict<Option<real>> := [(DefaultStageName, None)];
      assert values[0].1.None?;
      Success(Gathered(values, true))
  }

  /** A line without a line boundary holds no line feed or carriage
      return. */
  lemma BreakFreeNoFeed(s: string)
    requires BreakFree(s)
    ensures '\n' !in s && '\r' !in s
  {
  }


  /** A typical metric printing one number and a newline gives that number
      for the default stage, failing exactly when it does not parse. */
  lemma OneNumber(t: string, toFloat: string -> Option<real>)
    requires t != "" && BreakFree(t)
    ensures Classify(t + "\n", toFloat) ==
            Success(Gathered([(DefaultStageName, toFloat(t + "\n"))], toFloat(t + "\n").None?))
  {
    SingleLine(t, "\n");
  }

  /** A header line and a value line, each ended by a line feed, are read
      as CSV: the header names the stages of the row. */
  lemma HeaderAndRow(a: string, b: string, toFloat: string -> Option<real>)
    requires BreakFree(a) && BreakFree(b)
    ensures Classify(a + "\n" + b + "\n", toFloat) == ClassifyCsv(CsvFields(a), CsvFields(b), toFloat)
  {
    var s := a + "\n" + b + "\n";
    TwoLines(a, b, "\n");
    BreakFreeNoFeed(a);
    BreakFreeNoFeed(b);
    assert s == a + "\n" + (b + "\n" + "");
    StreamLineThenRest(a, b + "\n" + "");
    StreamLineThenRest(b, "");
    assert StreamLines(s) == [a, b];
    var records := Records([a, b]);
    assert records.Success? && records.value == [CsvFields(a), CsvFields(b)];
    assert Classify(s, toFloat) == ReadCsv(s, toFloat);
  }


  /** The same two lines ended by `\r\n` read as they do ended by `\n`. */
  lemma HeaderAndRowCrLf(a: string, b: string, toFloat: string -> Option<real>)
    requires BreakFree(a) && BreakFree(b)
    ensures Classify(a + "\r\n" + b + "\r\n", toFloat) == ClassifyCsv(CsvFields(a), CsvFields(b), toFloat)
  {
    var s := a + "\r\n" + b + "\r\n";
    CrLfSplitLines(a, b);
    CrLfStreamLines(a, b);
    BreakFreeNoFeed(a);
    BreakFreeNoFeed(b);
    CarriageReturnEnding(a);
    CarriageReturnEnding(b);
    var records := Records([a + "\r", b + "\r"]);
    assert records.Success? && records.value == [CsvFields(a), CsvFields(b)];
    assert Classify(s, toFloat) == ReadCsv(s, toFloat);
  }

  /** Two lines ended by `\r\n` are two lines to `splitlines`. */
  lemma CrLfSplitLines(a: string, b: string)
    requires BreakFree(a) && BreakFree(b)
    ensures SplitLines(a + "\r\n" + b + "\r\n") == [a, b]
  {
    var rest := b + "\r\n";
    if b != "" {
      SingleLine(b, "\r\n");
    } else {
      assert rest == "\r\n";
      TerminatorAlone("\r\n");
    }
    assert SplitLines(rest) == [b];
    assert a + "\r\n" + b + "\r\n" == a + "\r\n" + rest;
    CrLfThenRest(a, rest);
  }


  /** A line ended by `\r\n` is the first line. */
  lemma CrLfThenRest(a: string, rest: string)
    requires BreakFree(a)
    ensures SplitLines(a + "\r\n" + rest) == [a] + SplitLines(rest)
  {
    var s := a + "\r\n" + rest;
    assert s == a + ("\r\n" + rest);
    LineEndAt(a, "\r\n" + rest);
    assert s[|a|] == '\r' && s[|a| + 1] == '\n';
    assert s[..|a|] == a && s[|a| + 2..] == rest;
  }


  /** To the CSV reader they are two lines that keep their carriage
      returns. */
  lemma CrLfStreamLines(a: string, b: string)
    requires BreakFree(a) && BreakFree(b)
    ensures StreamLines(a + "\r\n" + b + "\r\n") == [a + "\r", b + "\r"]
  {
    var s := a + "\r\n" + b + "\r\n";
    BreakFreeNoFeed(a);
    BreakFreeNoFeed(b);
    assert s == (a + "\r") + "\n" + ((b + "\r") + "\n" + "");
    StreamLineThenRest(a + "\r", (b + "\r") + "\n" + "");
    StreamLineThenRest(b + "\r", "");
  }


  /** Two lines parted by a boundary other than a line feed or carriage
      return are two lines to `splitlines` but one header line to the CSV
      reader, so no stage has a value and the metric has not failed. */
  lemma OtherBoundary(a: string, c: char, b: string, toFloat: string -> Option<real>)
    requires BreakFree(a) && BreakFree(b) && b != ""
    requires IsLineBreak(c) && c != '\n' && c != '\r'
    ensures Classify(a + [c] + b, toFloat) == Success(Gathered([], false))
  {
    var s := a + [c] + b;
    BreakFreeNoFeed(a);
    BreakFreeNoFeed(b);
    assert s == a + ([c] + b);
    LineEndAt(a, [c] + b);
    assert s[..|a|] == a && s[|a| + 1..] == b;
    SingleLine(b, "");
    assert b + "" == b;
    assert SplitLines(s) == [a, b];
    assert '\n' !in s && '\r' !in s by {
      assert forall i :: 0 <= i < |s| ==> s[i] == c || s[i] in a || s[i] in b by {
        forall i | 0 <= i < |s|
          ensures s[i] == c || s[i] in a || s[i] in b
        {
          if i < |a| {
            assert s[i] == a[i];
          } else if i > |a| {
            assert s[i] == b[i - |a| - 1];
          }
        }
      }
    }
    OneStreamLine(s);
  }

  /** A carriage return that does not end its line makes the reader
      refuse the output, although `splitlines` counts two lines. */
  lemma CarriageReturnInside(a: string, b: string, toFloat: string -> Option<real>)
    requires BreakFree(a) && BreakFree(b) && b != ""
    ensures Classify(a + "\r" + b, toFloat) == Failure(NewlineInField)
  {
    var s := a + "\r" + b;
    BreakFreeNoFeed(a);
    BreakFreeNoFeed(b);
    assert s == a + ("\r" + b);
    LineEndAt(a, "\r" + b);
    assert s[|a| + 1] == b[0] && b[0] != '\n' by {
      assert b[0] in b;
    }
    assert s[..|a|] == a && s[|a| + 1..] == b;
    SingleLine(b, "");
    assert b + "" == b;
    assert SplitLines(s) == [a, b];
    assert '\n' !in s by {
      forall i | 0 <= i < |s|
        ensures s[i] != '\n'
      {
        if i < |a| {
          assert s[i] == a[i] && a[i] in a;
        } else if i > |a| {
          assert s[i] == b[i - |a| - 1] && b[i - |a| - 1] in b;
        }
      }
    }
    OneStreamLine(s);
    assert s[|a|] == '\r' && s[|a| + 1] != '\r' by {
      assert b[0] in b;
    }
  }

  /* ---------------------------------------------------------------------- */
  /* Custom metrics                                                           */
  /* ---------------------------------------------------------------------- */

  /** The commands of the custom metrics, in order. */
  function MetricCommands(metrics: seq<(string, string)>): (r: seq<string>)
    ensures |r| == |metrics|
    ensures forall i :: 0 <= i < |metrics| ==> r[i] == metrics[i].1
  {
    if metrics == [] then [] else [metrics[0].1] + MetricCommands(metrics[1..])
  }

  /** The state of the custom-metric loop: whether the benchmark has
      failed, the commands launched, and each metric's values so far. */
  datatype Gathering = Gathering(failed: bool, log: seq<string>, custom: MetricResults)

  /** The custom-metric loop of both execute.py files (benchalot lines
      359-366, benchmarker lines 239-246) from a given state: every custom
      metric's command runs,
      failed benchmark or not, and its output is classified; output that
      is not a table the reader can pair with its header stops the run. */
  function Customs(world: World, metrics: seq<(string, string)>, g: Gathering, toFloat: string -> Option<real>)
    : (r: Result<Gathering, GatherError>)
    ensures r.Success? ==>
              && r.value.log == g.log + MetricCommands(metrics)
              && |r.value.custom| == |g.custom| + |metrics|
              && r.value.custom[..|g.custom|] == g.custom
              && (g.failed ==> r.value.failed)
    decreases |metrics|
  {
    if metrics == [] then Success(g)
    else
      var out :- Classify(world(|g.log|).stdout, toFloat);
      var g' := Gathering(g.failed || out.failed, g.log + [metrics[0].1], g.custom + [(metrics[0].0, out.values)]);
      var r := Customs(world, metrics[1..], g', toFloat);
      assert r.Success? ==> r.value.custom[..|g.custom|] == r.value.custom[..|g'.custom|][..|g.custom|];
      r
  }

  /** `gather_custom_metric` for every custom metric of a sample. */
  method GatherCustomMetrics(world: World, metrics: seq<(string, string)>, failed: bool, log: seq<string>, toFloat: string -> Option<real>)
    returns (r: Result<Gathering, GatherError>)
    ensures r == Customs(world, metrics, Gathering(failed, log, []), toFloat)
  {
    var g := Gathering(failed, log, []);
    for i := 0 to |metrics|
      invariant Customs(world, metrics, Gathering(failed, log, []), toFloat) == Customs(world, metrics[i..], g, toFloat)
    {
      var name, command := metrics[i].0, metrics[i].1;
      assert metrics[i..][0] == metrics[i] && metrics[i..][1..] == metrics[i + 1..];
      var output := world(|g.log|).stdout;
      var gathered := Classify(output, toFloat);
      if gathered.Failure? {
        return Failure(gathered.error);
      }
      var out := gathered.value;
      g := Gathering(g.failed || out.failed, g.log + [command], g.custom + [(name, out.values)]);
    }
    return Success(g);
  }

  /** The benchmark has failed after the custom metrics exactly when it had
      before or one of them lacks a value. */
  lemma {:induction false} CustomsFailed(world: World, metrics: seq<(string, string)>, g: Gathering, toFloat: string -> Option<real>)
    ensures var r := Customs(world, metrics, g, toFloat);
      r.Success? ==>
        (r.value.failed <==> g.failed || exists i :: |g.custom| <= i < |r.value.custom| && SomeMissing(r.value.custom[i].1))
    decreases |metrics|
  {
    var r := Customs(world, metrics, g, toFloat);
    if metrics != [] && r.Success? {
      var out := Classify(world(|g.log|).stdout, toFloat).value;
      assert out.failed <==> SomeMissing(out.values);
      var g' := Gathering(g.failed || out.failed, g.log + [metrics[0].1], g.custom + [(metrics[0].0, out.values)]);
      assert r == Customs(world, metrics[1..], g', toFloat);
      CustomsFailed(world, metrics[1..], g', toFloat);
      assert r.value.custom[|g.custom|] == g'.custom[|g.custom|];
      SomeMissingFrom(r.value.custom, |g.custom|);
    }
  }

  /** Some metric from the `k`-th on lacks a value exactly when the `k`-th
      does or one after it does. */
  lemma SomeMissingFrom(rc: MetricResults, k: nat)
    requires k < |rc|
    ensures (exists i :: k <= i < |rc| && SomeMissing(rc[i].1)) <==>
            SomeMissing(rc[k].1) || exists i :: k + 1 <= i < |rc| && SomeMissing(rc[i].1)
  {
  }
}

=== FILE: delay.dfy ===
/**
 * main.c, the stand-in benchmark of the examples: it reads a thread count
 * and a data-set label from its arguments, looks the label up in a fixed
 * table of durations, and sleeps for the duration divided by the thread
 * count. What the C standard leaves undefined (a missing argument, a label
 * outside the table, which leaves `sleep_time` uninitialised, a division
 * by zero, a number `atoi` cannot represent) is an explicit outcome here.
 * The sleep itself is left out; its argument is the result.
 */
module Delay {
  import opened Common

  /** The range of a 32-bit C `int`. */
  const IntMin: int := -0x8000_0000
  const IntMax: int := 0x7fff_ffff

  /** `useconds_t`, an unsigned 32-bit integer. */
  const MicrosModulus: int := 0x1_0000_0000

  /** The undefined behaviours main.c can run into. */
  datatype Undefined =
    | MissingArgument         // `argv[1]` or `argv[2]` read past `argc`
    | NotAnInt                // `atoi` of a number outside `int`
    | UninitialisedSleepTime  // a label other than data1, data2, data3
    | DivisionByZero          // a thread count of 0

  /** What the program does: the argument given to `usleep`, and the exit
      status. */
  datatype Exit = Exit(sleptMicros: int, status: int)

  /* ---------------------------------------------------------------------- */
  /* atoi                                                                     */
  /* ---------------------------------------------------------------------- */

  /** `isspace` in the "C" locale. */
  predicate IsSpace(c: char)
  {
    c == ' ' || c == '\t' || c == '\n' || c == '\r' || c == 11 as char || c == 12 as char
  }

  /** The text after its leading white space. */
  function SkipSpaces(s: string): (r: string)
    ensures r == [] || !IsSpace(r[0])
    ensures s == [] || !IsSpace(s[0]) ==> r == s
  {
    if s != [] && IsSpace(s[0]) then SkipSpaces(s[1..]) else s
  }

  /** The length of the run of digits `s` starts with. */
  function DigitRun(s: string): (n: nat)
    ensures n <= |s|
    ensures forall i :: 0 <= i < n ==> IsDigit(s[i])
    ensures n < |s| ==> !IsDigit(s[n])
  {
    if s != [] && IsDigit(s[0]) then 1 + DigitRun(s[1..]) else 0
  }

  /** `atoi` as section 7.22.1.2 of ISO/IEC 9899:2011 describes it, through
      `strtol` (section 7.22.1.4): leading white space, an optional sign,
      then as many decimal digits as there are; text with no digits there
      gives 0. A value that does not fit in an `int` is undefined. */
  function Atoi(s: string): (r: Result<int, Undefined>)
    ensures r.Success? ==> IntMin <= r.value <= IntMax
  {
    var t := SkipSpaces(s);
    var negative := t != [] && t[0] == '-';
    var unsigned := if t != [] && (t[0] == '-' || t[0] == '+') then t[1..] else t;
    var digits := unsigned[..DigitRun(unsigned)];
    assert forall i :: 0 <= i < |digits| ==> IsDigit(digits[i]);
    Signed(negative, DecimalValue(digits))
  }

  /** A magnitude with its sign, when the result fits in an `int`. */
  function Signed(negative: bool, magnitude: nat): (r: Result<int, Undefined>)
    ensures r.Success? <==> (if negative then magnitude <= 0x8000_0000 else magnitude <= IntMax)
    ensures r.Success? ==> r.value == (if negative then 0 - magnitude else magnitude) && IntMin <= r.value <= IntMax
  {
    var value: int := if negative then 0 - magnitude else magnitude;
    if IntMin <= value <= IntMax then Success(value) else Failure(NotAnInt)
  }

  /** Text whose first character after the white space and the sign is not
      a digit reads as 0. */
  lemma AtoiWithoutDigits(s: string)
    requires var t := SkipSpaces(s);
      var unsigned := if t != [] && (t[0] == '-' || t[0] == '+') then t[1..] else t;
      unsigned == [] || !IsDigit(unsigned[0])
    ensures Atoi(s) == Success(0)
  {
    var t := SkipSpaces(s);
    var unsigned := if t != [] && (t[0] == '-' || t[0] == '+') then t[1..] else t;
    assert unsigned[..DigitRun(unsigned)] == [];
  }

  /** A string of digits is one run of digits. */
  lemma DigitRunOfDigits(s: string)
    requires forall i :: 0 <= i < |s| ==> IsDigit(s[i])
    ensures DigitRun(s) == |s|
  {
  }

  /** Digits read as their value. */
  lemma AtoiOfDigits(digits: string)
    requires 1 <= |digits| && forall i :: 0 <= i < |digits| ==> IsDigit(digits[i])
    ensures Atoi(digits) == Signed(false, DecimalValue(digits))
  {
    assert IsDigit(digits[0]);
    assert SkipSpaces(digits) == digits;
    DigitRunOfDigits(digits);
    assert digits[..DigitRun(digits)] == digits;
  }

  /** A minus sign and digits read as the negated value. */
  lemma AtoiOfNegatedDigits(s: string)
    requires 2 <= |s| && s[0] == '-' && forall i :: 1 <= i < |s| ==> IsDigit(s[i])
    ensures Atoi(s) == Signed(true, DecimalValue(s[1..]))
  {
    assert SkipSpaces(s) == s;
    var digits := s[1..];
    DigitRunOfDigits(digits);
    assert digits[..DigitRun(digits)] == digits;
  }

  /** `atoi` reads back every `int` written in decimal. */
  lemma AtoiRoundTrip(n: int)
    requires IntMin <= n <= IntMax
    ensures Atoi(IntToString(n)) == Success(n)
  {
    var m: nat := if n < 0 then 0 - n else n;
    NatToStringRoundTrip(m);
    if n < 0 {
      var s := IntToString(n);
      assert s[1..] == NatToString(m);
      AtoiOfNegatedDigits(s);
    } else {
      AtoiOfDigits(NatToString(m));
    }
    assert Signed(n < 0, m) == Success(n);
  }

  /* ---------------------------------------------------------------------- */
  /* The program                                                              */
  /* ---------------------------------------------------------------------- */

  /** Lines 8-14: the duration of each data set, in microseconds. */
  function BaseDuration(name: string): (r: Option<int>)
    ensures r.Some? <==> name in {"data1", "data2", "data3"}
    ensures r.Some? ==> 500000 <= r.value <= 1400000
  {
    if name == "data1" then Some(1000000)
    else if name == "data2" then Some(500000)
    else if name == "data3" then Some(1400000)
    else None
  }

  function Abs(x: int): nat
  {
    if x < 0 then -x else x
  }

  /** Euclidean division of naturals leaves a remainder below the divisor. */
  lemma NatDivision(a: nat, b: nat)
    requires b > 0
    ensures 0 <= a - (a / b) * b < b
  {
  }

  /** `/` on `int` as section 6.5.5 of ISO/IEC 9899:2011 defines it: the
      algebraic quotient with any fractional part discarded. */
  function CDiv(a: int, b: int): int
    requires b != 0
  {
    var m := Abs(a) / Abs(b);
    if (a >= 0) == (b > 0) then m else -m
  }

  /** The quotient `CDiv` computes is truncated toward zero: the remainder
      takes the sign of the dividend and is smaller than the divisor. */
  lemma CDivTruncates(a: int, b: int)
    requires b != 0
    ensures a >= 0 ==> 0 <= a - CDiv(a, b) * b < Abs(b)
    ensures a < 0 ==> 0 <= CDiv(a, b) * b - a < Abs(b)
  {
    var m := Abs(a) / Abs(b);
    NatDivision(Abs(a), Abs(b));
    if a >= 0 && b > 0 {
    } else if a >= 0 {
      assert (-m) * b == m * Abs(b);
    } else if b > 0 {
      assert (-m) * b == -(m * Abs(b));
    } else {
      assert m * b == -(m * Abs(b));
    }
  }

  lemma MulAtLeast(q: nat, b: nat)
    requires b >= 1
    ensures q * b >= q
  {
    assert q * b == q * (b - 1) + q;
  }

  /** A quotient by a positive natural is at most the dividend. */
  lemma QuotientAtMost(a: nat, b: nat)
    requires b >= 1
    ensures a / b <= a
  {
    NatDivision(a, b);
    MulAtLeast(a / b, b);
  }

  /** On naturals, C's division and Dafny's agree. */
  lemma CDivOfNaturals(a: nat, b: nat)
    requires b >= 1
    ensures CDiv(a, b) == a / b
  {
    assert Abs(a) == a && Abs(b) == b;
  }

  /** `main`, lines 5-17, for the argument vector `argv` (`argc` is its
      length): the undefined behaviour it runs into first, or the argument
      given to `usleep`, converted to `useconds_t`, and the status 0. */
  function Main(argv: seq<string>): (r: Result<Exit, Undefined>)
    ensures r.Success? ==> r.value.status == 0 && 0 <= r.value.sleptMicros < MicrosModulus
    ensures r.Success? <==>
              && |argv| >= 3
              && Atoi(argv[1]).Success? && Atoi(argv[1]).value != 0
              && BaseDuration(argv[2]).Some?
  {
    if |argv| < 2 then Failure(MissingArgument)
    else
      var threads :- Atoi(argv[1]);
      if |argv| < 3 then Failure(MissingArgument)
      else if BaseDuration(argv[2]).None? then Failure(UninitialisedSleepTime)
      else if threads == 0 then Failure(DivisionByZero)
      else Success(Exit(CDiv(BaseDuration(argv[2]).value, threads) % MicrosModulus, 0))
  }

  /** Lines 15-16: with at least one thread, the program sleeps for the
      base duration divided by the thread count, rounded down, which is at
      most the base duration, and exits with 0. */
  lemma DelayAtMostBase(argv: seq<string>, threads: int, base: int)
    requires |argv| >= 3 && Atoi(argv[1]) == Success(threads) && threads >= 1
    requires BaseDuration(argv[2]) == Some(base)
    ensures Main(argv) == Success(Exit(base / threads, 0))
    ensures 0 <= base / threads <= base
    ensures threads == 1 ==> base / threads == base
  {
    MainDivides(argv, threads, base);
    UsleepArgument(base, threads);
  }

  /** The path through `main` that reaches `usleep`. */
  lemma MainDivides(argv: seq<string>, threads: int, base: int)
    requires |argv| >= 3 && Atoi(argv[1]) == Success(threads) && threads >= 1
    requires BaseDuration(argv[2]) == Some(base)
    ensures Main(argv) == Success(Exit(CDiv(base, threads) % MicrosModulus, 0))
  {
  }

  /** A quotient of naturals whose dividend is below 2^32 survives the
      conversion to `useconds_t`. */
  lemma UsleepArgument(base: nat, threads: nat)
    requires threads >= 1 && base < MicrosModulus
    ensures CDiv(base, threads) % MicrosModulus == base / threads <= base
  {
    CDivOfNaturals(base, threads);
    QuotientAtMost(base, threads);
    var q := base / threads;
    assert 0 <= q < MicrosModulus;
  }

  /** A negative thread count gives a negative quotient, which `useconds_t`
      turns into a sleep of more than an hour: `-1` threads on data1. */
  lemma NegativeThreadsWrap()
    ensures Main(["delay", "-1", "data1"]) == Success(Exit(MicrosModulus - 1000000, 0))
  {
    assert IntToString(-1) == "-1";
    AtoiRoundTrip(-1);
    assert CDiv(1000000, -1) == -1000000;
  }
}

=== FILE: execute_common.dfy ===
/**
 * What `perform_benchmarks` in src/benchmarker/execute.py and
 * src/benchalot/execute.py share: the outcome of a launched command, the
 * exit-code check, the order in which a sample's metrics are reported, and
 * the result table. The table is a dict from column name to a list of
 * cells; every reported (metric, stage) pair appends one row, one cell per
 * column, with `results.setdefault(column, []).append(cell)`.
 */
module ExecuteCommon {
  import opened Common
  import opened OutputConstants
  import opened BenchmarkerConfig

  /* ---------------------------------------------------------------------- */
  /* Launched commands                                                        */
  /* ---------------------------------------------------------------------- */

  /** What a command did once it was reaped: its exit code, the seconds it
      took, its user and system CPU seconds and peak resident set size as
      `wait4` reports them, and what it printed. */
  datatype CommandRun = CommandRun(
    exitCode: int,
    seconds: real,
    utime: real,
    stime: real,
    maxrss: int,
    stdout: string,
    stderr: string)

  /** The processes a run launches: `world(k)` is the outcome of the k-th
      command launched, counting from 0. */
  type World = nat -> CommandRun

  /** `check_return_code`: only a zero exit code is a success. */
  function CheckReturnCode(code: int): (ok: bool)
    ensures ok <==> code == 0
  {
    code == 0
  }

  /* ---------------------------------------------------------------------- */
  /* One stage                                                                */
  /* ---------------------------------------------------------------------- */

  /** The accumulators of a stage: whether the benchmark has failed, the
      commands launched so far, the elapsed seconds, the user and system
      CPU seconds, the peak resident set size and the captured output. */
  datatype Tally = Tally(
    failed: bool,
    log: seq<string>,
    seconds: real,
    utime: real,
    stime: real,
    rss: int,
    stdout: string,
    stderr: string)

  /** One command's contribution, as both execute.py files count it
      (benchalot lines 295-332, benchmarker lines 184-215): it is launched, its time is added, its
      peak kept if larger and its output appended, each only when the
      metric is enabled (elapsed time always); a non-zero exit code fails
      the benchmark. */
  function Counted(t: Tally, command: string, run: CommandRun, enabled: set<BuiltInMetric>): Tally
  {
    Tally(
      t.failed || !CheckReturnCode(run.exitCode),
      t.log + [command],
      t.seconds + run.seconds,
      if Utime in enabled then t.utime + run.utime else t.utime,
      if Stime in enabled then t.stime + run.stime else t.stime,
      if Mem in enabled then (if run.maxrss > t.rss then run.maxrss else t.rss) else t.rss,
      if Stdout in enabled then t.stdout + run.stdout else t.stdout,
      if Stderr in enabled then t.stderr + run.stderr else t.stderr)
  }

  /** Whether the benchmark has failed after a stage: captured output that
      is not a number fails it as well. */
  function StageFailed(t: Tally, enabled: set<BuiltInMetric>, toFloat: string -> Option<real>): bool
  {
    || t.failed
    || (Stdout in enabled && toFloat(t.stdout).None?)
    || (Stderr in enabled && toFloat(t.stderr).None?)
  }

  /** The reference totals of a stage: the sum, or the concatenation, of
      `f` over the outcomes of the commands launched `lo` to `hi - 1`. */
  function SumOver(world: World, lo: nat, hi: nat, f: CommandRun -> real): real
    decreases hi - lo
  {
    if lo >= hi then 0.0 else f(world(lo)) + SumOver(world, lo + 1, hi, f)
  }

  function OutputOver(world: World, lo: nat, hi: nat, f: CommandRun -> string): string
    decreases hi - lo
  {
    if lo >= hi then "" else f(world(lo)) + OutputOver(world, lo + 1, hi, f)
  }

  /** The state a sample carries through its stages. */
  datatype Measuring = Measuring(failed: bool, log: seq<string>, measured: PerMetric)

  /** What a sample leaves: whether the benchmark has failed, the commands
      launched, and `benchmark_results`. */
  datatype SampleRun = SampleRun(failed: bool, log: seq<string>, results: MetricResults)

  /** The state of a run between samples: the commands launched, the result
      table, and the id the next sample gets. */
  datatype Progress = Progress(log: seq<string>, table: Table, nextId: nat)

  /** `n` copies of `xs`, one after the other. */
  function Repeated(xs: seq<string>, n: nat): seq<string>
    decreases n
  {
    if n == 0 then [] else xs + Repeated(xs, n - 1)
  }

  /** One more copy of `xs` launched after `log`. */
  lemma RepeatedOnce(log: seq<string>, next: seq<string>, last: seq<string>, xs: seq<string>, n: nat)
    requires n > 0 && next == log + xs && last == next + Repeated(xs, n - 1)
    ensures last == log + Repeated(xs, n)
  {
  }

  /* ---------------------------------------------------------------------- */
  /* The metrics of one sample                                                */
  /* ---------------------------------------------------------------------- */

  /** The value of `BuiltInMetrics`, which names the metric in the table. */
  function Label(m: BuiltInMetric): string
  {
    match m
    case Time => "time"
    case Stdout => "stdout"
    case Stderr => "stderr"
    case Stime => "stime"
    case Utime => "utime"
    case Mem => "rss"
  }

  predicate IsLabel(name: string)
  {
    name in {"time", "stdout", "stderr", "stime", "utime", "rss"}
  }

  /** The order in which built-in metrics are reported. */
  const ReportOrder: seq<BuiltInMetric> := [Time, Utime, Stime, Mem, Stdout, Stderr]

  /** The metrics of `order` that are enabled, in that order. */
  function Filtered(order: seq<BuiltInMetric>, enabled: set<BuiltInMetric>): (r: seq<BuiltInMetric>)
    requires forall i, j :: 0 <= i < j < |order| ==> Label(order[i]) != Label(order[j])
    ensures forall m :: m in r <==> m in order && m in enabled
    ensures forall i, j :: 0 <= i < j < |r| ==> Label(r[i]) != Label(r[j])
  {
    if order == [] then []
    else
      var rest := Filtered(order[1..], enabled);
      assert forall m :: m in rest ==> Label(m) != Label(order[0]) by {
        forall m | m in rest
          ensures Label(m) != Label(order[0])
        {
          var j :| 0 <= j < |order[1..]| && order[1..][j] == m;
          assert order[j + 1] == m;
        }
      }
      if order[0] in enabled then [order[0]] + rest else rest
  }

  lemma EveryMetricReported()
    ensures forall m :: m in ReportOrder
  {
    forall m
      ensures m in ReportOrder
    {
      match m
      case Time => assert ReportOrder[0] == m;
      case Utime => assert ReportOrder[1] == m;
      case Stime => assert ReportOrder[2] == m;
      case Mem => assert ReportOrder[3] == m;
      case Stdout => assert ReportOrder[4] == m;
      case Stderr => assert ReportOrder[5] == m;
    }
  }

  /** The enabled built-in metrics in the order they are reported: time,
      utime, stime, rss, stdout, stderr. */
  function Reported(enabled: set<BuiltInMetric>): (r: seq<BuiltInMetric>)
    ensures forall m :: m in r <==> m in enabled
    ensures forall i, j :: 0 <= i < j < |r| ==> Label(r[i]) != Label(r[j])
  {
    EveryMetricReported();
    Filtered(ReportOrder, enabled)
  }

  /** A stage name → value dict, `None` for a missing value. */
  type Measurements = Dict<Option<real>>

  /** A metric name → measurements dict: `benchmark_results`. */
  type MetricResults = Dict<Measurements>

  /** The six per-metric dicts a sample fills stage by stage. */
  datatype PerMetric = PerMetric(
    time: Measurements,
    utime: Measurements,
    stime: Measurements,
    rss: Measurements,
    stdout: Measurements,
    stderr: Measurements)
  {
    function Of(m: BuiltInMetric): Measurements
    {
      match m
      case Time => time
      case Utime => utime
      case Stime => stime
      case Mem => rss
      case Stdout => stdout
      case Stderr => stderr
    }

    /** `<metric>_measurements[stage] = value` for every enabled metric. */
    function Recorded(enabled: set<BuiltInMetric>, stage: string, value: BuiltInMetric -> Option<real>): PerMetric
    {
      PerMetric(
        if Time in enabled then Put(time, stage, value(Time)) else time,
        if Utime in enabled then Put(utime, stage, value(Utime)) else utime,
        if Stime in enabled then Put(stime, stage, value(Stime)) else stime,
        if Mem in enabled then Put(rss, stage, value(Mem)) else rss,
        if Stdout in enabled then Put(stdout, stage, value(Stdout)) else stdout,
        if Stderr in enabled then Put(stderr, stage, value(Stderr)) else stderr)
    }
  }

  const NothingMeasured: PerMetric := PerMetric([], [], [], [], [], [])

  /** No measurement. */
  predicate AllNone(d: Measurements)
  {
    forall i :: 0 <= i < |d| ==> d[i].1.None?
  }

  /** Recording one stage keeps every stage already recorded and adds this
      one for each enabled metric; a `None` value keeps a dict of `None`s
      such. */
  lemma RecordedKeeps(p: PerMetric, enabled: set<BuiltInMetric>, stage: string, value: BuiltInMetric -> Option<real>, m: BuiltInMetric)
    ensures var q := p.Recorded(enabled, stage, value);
      && (forall k :: HasKey(p.Of(m), k) ==> HasKey(q.Of(m), k))
      && (m in enabled ==> HasKey(q.Of(m), stage))
      && (m in enabled && value(m).None? && AllNone(p.Of(m)) ==> AllNone(q.Of(m)))
      && (m !in enabled ==> q.Of(m) == p.Of(m))
  {
    var q := p.Recorded(enabled, stage, value);
    if m in enabled {
      var d := p.Of(m);
      assert q.Of(m) == Put(d, stage, value(m)) by {
        match m
        case Time =>
        case Utime =>
        case Stime =>
        case Mem =>
        case Stdout =>
        case Stderr =>
      }
      forall k | HasKey(d, k)
        ensures HasKey(q.Of(m), k)
      {
        var i :| 0 <= i < |d| && d[i].0 == k;
        assert q.Of(m)[i].0 == k;
      }
      if HasKey(d, stage) {
        assert q.Of(m)[IndexOf(d, stage)].0 == stage;
      } else {
        assert q.Of(m)[|d|].0 == stage;
      }
    } else {
      match m
      case Time =>
      case Utime =>
      case Stime =>
      case Mem =>
      case Stdout =>
      case Stderr =>
    }
  }

  function BuiltInEntries(measured: PerMetric, order: seq<BuiltInMetric>): (r: MetricResults)
    ensures |r| == |order|
    ensures forall i :: 0 <= i < |order| ==> r[i] == (Label(order[i]), measured.Of(order[i]))
  {
    if order == [] then [] else [(Label(order[0]), measured.Of(order[0]))] + BuiltInEntries(measured, order[1..])
  }

  /** `benchmark_results`: each custom metric under its name, then each
      enabled built-in metric under its label. */
  function Collected(custom: MetricResults, measured: PerMetric, enabled: set<BuiltInMetric>): MetricResults
  {
    Update(Update([], custom), BuiltInEntries(measured, Reported(enabled)))
  }

  /** With distinct custom names that are not built-in labels, the results
      are the custom metrics in their order, then the enabled built-ins in
      the fixed order. */
  lemma CollectedInOrder(custom: MetricResults, measured: PerMetric, enabled: set<BuiltInMetric>)
    requires UniqueKeys(custom)
    requires forall i :: 0 <= i < |custom| ==> !IsLabel(custom[i].0)
    ensures Collected(custom, measured, enabled) == custom + BuiltInEntries(measured, Reported(enabled))
  {
    assert [] + custom == custom;
    UpdateAppends([], custom);
    var entries := BuiltInEntries(measured, Reported(enabled));
    forall i, j | 0 <= i < j < |custom + entries|
      ensures (custom + entries)[i].0 != (custom + entries)[j].0
    {
      if j >= |custom| && i < |custom| {
        assert IsLabel((custom + entries)[j].0) by {
          var m := Reported(enabled)[j - |custom|];
          assert (custom + entries)[j].0 == Label(m);
        }
      }
    }
    UpdateAppends(custom, entries);
  }

  /* ---------------------------------------------------------------------- */
  /* The result table                                                         */
  /* ---------------------------------------------------------------------- */

  /** A cell of the table: a sample's id, a variable's value, the failure
      flag, a metric or stage name, a result. */
  datatype Cell =
    | IdCell(id: nat)
    | VarCell(v: Value)
    | FlagCell(b: bool)
    | NameCell(s: string)
    | ResultCell(r: Option<real>)

  type Row = Dict<Cell>
  type Table = Dict<seq<Cell>>

  /** The cells of column `k`, none when it does not exist yet. */
  function ColumnAt(t: Table, k: string): seq<Cell>
  {
    if HasKey(t, k) then Get(t, k).value else []
  }

  /** `results.setdefault(k, []).append(c)`. */
  function Appended(t: Table, k: string, c: Cell): Table
  {
    Put(t, k, ColumnAt(t, k) + [c])
  }

  /** One row appended, column by column in the row's order. */
  function AppendedRow(t: Table, row: Row): Table
    decreases |row|
  {
    if row == [] then t
    else Appended(AppendedRow(t, row[..|row| - 1]), row[|row| - 1].0, row[|row| - 1].1)
  }

  function AppendedRows(t: Table, rows: seq<Row>): Table
    decreases |rows|
  {
    if rows == [] then t else AppendedRow(AppendedRows(t, rows[..|rows| - 1]), rows[|rows| - 1])
  }

  /** The cells the rows hold under `k`, in order. */
  function ColumnOf(rows: seq<Row>, k: string): seq<Cell>
    decreases |rows|
  {
    if rows == [] then []
    else
      var last := rows[|rows| - 1];
      ColumnOf(rows[..|rows| - 1], k) + (if HasKey(last, k) then [Get(last, k).value] else [])
  }

  method AppendRow(t: Table, row: Row) returns (r: Table)
    ensures r == AppendedRow(t, row)
  {
    r := t;
    for i := 0 to |row|
      invariant r == AppendedRow(t, row[..i])
    {
      assert row[..i + 1][..i] == row[..i];
      r := Appended(r, row[i].0, row[i].1);
    }
    assert row[..|row|] == row;
  }

  /** The last entry of a dict with distinct keys. */
  lemma GetLast<V>(d: Dict<V>, e: (string, V), k: string)
    requires UniqueKeys(d + [e])
    ensures UniqueKeys(d) && !HasKey(d, e.0)
    ensures HasKey(d + [e], k) <==> HasKey(d, k) || k == e.0
    ensures Get(d + [e], k) == if k == e.0 then Some(e.1) else Get(d, k)
  {
    assert forall i :: 0 <= i < |d| ==> (d + [e])[i] == d[i];
    assert !HasKey(d, e.0) by {
      forall i | 0 <= i < |d|
        ensures d[i].0 != e.0
      {
        assert (d + [e])[i].0 != (d + [e])[|d|].0;
      }
    }
    PutKeepsUnique(d, e.0, e.1);
    if k != e.0 {
      assert Get(d + [e], k) == Get(d, k);
    }
  }

  /** Appending a row adds its cell to each of its columns and leaves every
      other column as it was. */
  lemma {:induction false} AppendedRowColumn(t: Table, row: Row, k: string)
    requires UniqueKeys(t) && UniqueKeys(row)
    ensures UniqueKeys(AppendedRow(t, row))
    ensures HasKey(AppendedRow(t, row), k) <==> HasKey(t, k) || HasKey(row, k)
    ensures ColumnAt(AppendedRow(t, row), k) == ColumnAt(t, k) + (if HasKey(row, k) then [Get(row, k).value] else [])
    decreases |row|
  {
    if row != [] {
      var n := |row| - 1;
      var init := row[..n];
      assert row == init + [row[n]];
      GetLast(init, row[n], k);
      var key, cell := row[n].0, row[n].1;
      AppendedRowColumn(t, init, k);
      AppendedRowColumn(t, init, key);
      var before := AppendedRow(t, init);
      PutKeepsUnique(before, key, ColumnAt(before, key) + [cell]);
    }
  }

  /** Appending rows adds, to each column, the rows' cells under it. */
  lemma {:induction false} AppendedRowsColumn(t: Table, rows: seq<Row>, k: string)
    requires UniqueKeys(t)
    requires forall i :: 0 <= i < |rows| ==> UniqueKeys(rows[i])
    ensures UniqueKeys(AppendedRows(t, rows))
    ensures HasKey(AppendedRows(t, rows), k) <==> HasKey(t, k) || exists i :: 0 <= i < |rows| && HasKey(rows[i], k)
    ensures ColumnAt(AppendedRows(t, rows), k) == ColumnAt(t, k) + ColumnOf(rows, k)
    decreases |rows|
  {
    if rows != [] {
      var n := |rows| - 1;
      var init := rows[..n];
      SomeRowSnoc(rows, init, k);
      AppendedRowsColumn(t, init, k);
      AppendedRowColumn(AppendedRows(t, init), rows[n], k);
    }
  }

  /** Which rows hold `k`: those before the last one, or the last one. */
  lemma SomeRowSnoc(rows: seq<Row>, init: seq<Row>, k: string)
    requires rows != [] && init == rows[..|rows| - 1]
    ensures forall i :: 0 <= i < |init| ==> init[i] == rows[i]
    ensures (exists i :: 0 <= i < |rows| && HasKey(rows[i], k)) <==>
            (exists i :: 0 <= i < |init| && HasKey(init[i], k)) || HasKey(rows[|rows| - 1], k)
  {
    var n := |rows| - 1;
    if HasKey(rows[n], k) {
      assert 0 <= n < |rows| && HasKey(rows[n], k);
    }
  }

  /** Rows that all hold `k` give `k` one cell each. */
  lemma {:induction false} ColumnOfFull(rows: seq<Row>, k: string)
    requires forall i :: 0 <= i < |rows| ==> HasKey(rows[i], k)
    ensures |ColumnOf(rows, k)| == |rows|
    decreases |rows|
  {
    if rows != [] {
      ColumnOfFull(rows[..|rows| - 1], k);
    }
  }

  /** Every column holds `n` cells. */
  predicate Aligned(t: Table, n: nat)
  {
    forall i :: 0 <= i < |t| ==> |t[i].1| == n
  }

  /** Appending rows that all have the same columns, to a table whose
      columns are among them and all hold `n` cells, keeps every column the
      same length: `n` plus the number of rows. */
  lemma RowsKeepAligned(t: Table, rows: seq<Row>, keys: seq<string>, n: nat)
    requires UniqueKeys(t)
    requires forall i :: 0 <= i < |rows| ==> UniqueKeys(rows[i]) && Keys(rows[i]) == keys
    requires forall k :: HasKey(t, k) ==> k in keys
    requires forall k :: k in keys ==> |ColumnAt(t, k)| == n
    ensures UniqueKeys(AppendedRows(t, rows))
    ensures Aligned(AppendedRows(t, rows), n + |rows|)
    ensures forall k :: HasKey(AppendedRows(t, rows), k) ==> k in keys
    ensures forall k :: k in keys ==> |ColumnAt(AppendedRows(t, rows), k)| == n + |rows|
  {
    AppendedRowsColumn(t, rows, "");
    ColumnsGrow(t, rows, keys, n);
    KeysStay(t, rows, keys);
    ColumnsAligned(AppendedRows(t, rows), keys, n + |rows|);
  }

  lemma ColumnsGrow(t: Table, rows: seq<Row>, keys: seq<string>, n: nat)
    requires UniqueKeys(t)
    requires forall i :: 0 <= i < |rows| ==> UniqueKeys(rows[i]) && Keys(rows[i]) == keys
    requires forall k :: k in keys ==> |ColumnAt(t, k)| == n
    ensures forall k :: k in keys ==> |ColumnAt(AppendedRows(t, rows), k)| == n + |rows|
  {
    forall k | k in keys
      ensures |ColumnAt(AppendedRows(t, rows), k)| == n + |rows|
    {
      AppendedRowsColumn(t, rows, k);
      RowsHoldKey(rows, keys, k);
      ColumnOfFull(rows, k);
    }
  }

  lemma RowsHoldKey(rows: seq<Row>, keys: seq<string>, k: string)
    requires forall i :: 0 <= i < |rows| ==> Keys(rows[i]) == keys
    requires k in keys
    ensures forall i :: 0 <= i < |rows| ==> HasKey(rows[i], k)
  {
    var j :| 0 <= j < |keys| && keys[j] == k;
    forall i | 0 <= i < |rows|
      ensures HasKey(rows[i], k)
    {
      assert Keys(rows[i])[j] == k;
      assert rows[i][j].0 == k;
    }
  }

  lemma KeysStay(t: Table, rows: seq<Row>, keys: seq<string>)
    requires UniqueKeys(t)
    requires forall i :: 0 <= i < |rows| ==> UniqueKeys(rows[i]) && Keys(rows[i]) == keys
    requires forall k :: HasKey(t, k) ==> k in keys
    ensures forall k :: HasKey(AppendedRows(t, rows), k) ==> k in keys
  {
    forall k | HasKey(AppendedRows(t, rows), k)
      ensures k in keys
    {
      AppendedRowsColumn(t, rows, k);
      if !HasKey(t, k) {
        var i :| 0 <= i < |rows| && HasKey(rows[i], k);
        var j :| 0 <= j < |rows[i]| && rows[i][j].0 == k;
        assert Keys(rows[i])[j] == k;
      }
    }
  }

  lemma ColumnsAligned(r: Table, keys: seq<string>, m: nat)
    requires UniqueKeys(r)
    requires forall k :: HasKey(r, k) ==> k in keys
    requires forall k :: k in keys ==> |ColumnAt(r, k)| == m
    ensures Aligned(r, m)
  {
    forall i | 0 <= i < |r|
      ensures |r[i].1| == m
    {
      var k := r[i].0;
      assert HasKey(r, k);
      assert IndexOf(r, k) == i;
    }
  }

  /* ---------------------------------------------------------------------- */
  /* The rows of one sample                                                   */
  /* ---------------------------------------------------------------------- */

  /** One row: the sample id, the variables, the failure flag, the metric,
      the stage and the result, in the order the source appends them. */
  function ResultRow(id: nat, vars: Row, failed: bool, metric: string, stage: string, value: Option<real>): (r: Row)
    ensures Keys(r) == RowKeys(vars)
  {
    [(BenchmarkIdColumn, IdCell(id))] + vars
    + [(HasFailedColumn, FlagCell(failed)), (MetricColumn, NameCell(metric)), (StageColumn, NameCell(stage)),
       (ResultColumn, ResultCell(value))]
  }

  function RowKeys(vars: Row): seq<string>
  {
    [BenchmarkIdColumn] + Keys(vars) + [HasFailedColumn, MetricColumn, StageColumn, ResultColumn]
  }

  /** The rows of one metric: one per stage, in stage order. */
  function MetricRows(id: nat, vars: Row, failed: bool, metric: string, ms: Measurements): (r: seq<Row>)
    ensures |r| == |ms|
    decreases |ms|
  {
    if ms == [] then []
    else
      var last := ms[|ms| - 1];
      MetricRows(id, vars, failed, metric, ms[..|ms| - 1]) + [ResultRow(id, vars, failed, metric, last.0, last.1)]
  }

  /** The rows of a sample: for each metric, for each of its stages. */
  function SampleRows(id: nat, vars: Row, failed: bool, results: MetricResults): (r: seq<Row>)
    ensures |r| == RowCount(results)
    decreases |results|
  {
    if results == [] then []
    else
      var last := results[|results| - 1];
      SampleRows(id, vars, failed, results[..|results| - 1]) + MetricRows(id, vars, failed, last.0, last.1)
  }

  /** The number of (metric, stage) pairs. */
  function RowCount(results: MetricResults): nat
    decreases |results|
  {
    if results == [] then 0 else RowCount(results[..|results| - 1]) + |results[|results| - 1].1|
  }

  /** The results of one metric, stage by stage. */
  function StageCells(ms: Measurements): (r: seq<Cell>)
    ensures |r| == |ms|
    decreases |ms|
  {
    if ms == [] then [] else StageCells(ms[..|ms| - 1]) + [ResultCell(ms[|ms| - 1].1)]
  }

  /** The results in reporting order, metric by metric and stage by
      stage. */
  function ResultCells(results: MetricResults): seq<Cell>
    decreases |results|
  {
    if results == [] then [] else ResultCells(results[..|results| - 1]) + StageCells(results[|results| - 1].1)
  }

  lemma AppendedRowsSnoc(t: Table, rows: seq<Row>, row: Row)
    ensures AppendedRows(t, rows + [row]) == AppendedRow(AppendedRows(t, rows), row)
  {
    assert (rows + [row])[..|rows|] == rows;
  }

  lemma MetricRowsSnoc(id: nat, vars: Row, failed: bool, metric: string, ms: Measurements, j: nat)
    requires j < |ms|
    ensures MetricRows(id, vars, failed, metric, ms[..j + 1])
            == MetricRows(id, vars, failed, metric, ms[..j]) + [ResultRow(id, vars, failed, metric, ms[j].0, ms[j].1)]
  {
    assert ms[..j + 1][..j] == ms[..j];
  }

  lemma SampleRowsSnoc(id: nat, vars: Row, failed: bool, results: MetricResults, i: nat)
    requires i < |results|
    ensures SampleRows(id, vars, failed, results[..i + 1])
            == SampleRows(id, vars, failed, results[..i]) + MetricRows(id, vars, failed, results[i].0, results[i].1)
  {
    assert results[..i + 1][..i] == results[..i];
  }

  lemma ColumnOfSnoc(rows: seq<Row>, row: Row, k: string)
    ensures ColumnOf(rows + [row], k) == ColumnOf(rows, k) + (if HasKey(row, k) then [Get(row, k).value] else [])
  {
    assert (rows + [row])[..|rows|] == rows;
  }

  /** Rows appended in two runs are the rows appended in one. */
  lemma {:induction false} AppendedRowsConcat(t: Table, a: seq<Row>, b: seq<Row>)
    ensures AppendedRows(t, a + b) == AppendedRows(AppendedRows(t, a), b)
    decreases |b|
  {
    if b == [] {
      assert a + b == a;
    } else {
      var n := |b| - 1;
      AppendedRowsConcat(t, a, b[..n]);
      assert (a + b)[..|a + b| - 1] == a + b[..n];
      assert (a + b)[|a + b| - 1] == b[n];
    }
  }

  /** The inner loop of the same lines: the rows of one metric, one per
      stage. */
  method AppendMetric(t: Table, id: nat, vars: Row, failed: bool, metric: string, ms: Measurements) returns (r: Table)
    ensures r == AppendedRows(t, MetricRows(id, vars, failed, metric, ms))
  {
    r := t;
    assert ms[..0] == [];
    for j := 0 to |ms|
      invariant r == AppendedRows(t, MetricRows(id, vars, failed, metric, ms[..j]))
    {
      var row := ResultRow(id, vars, failed, metric, ms[j].0, ms[j].1);
      MetricRowsSnoc(id, vars, failed, metric, ms, j);
      AppendedRowsSnoc(t, MetricRows(id, vars, failed, metric, ms[..j]), row);
      r := AppendRow(r, row);
    }
    assert ms[..|ms|] == ms;
  }

  /** The loop of lines 263-273 (src/benchmarker/execute.py) and 386-411
      (src/benchalot/execute.py): one row per (metric, stage) pair. */
  method AppendSample(t: Table, id: nat, vars: Row, failed: bool, results: MetricResults) returns (r: Table)
    ensures r == AppendedRows(t, SampleRows(id, vars, failed, results))
  {
    r := t;
    for i := 0 to |results|
      invariant r == AppendedRows(t, SampleRows(id, vars, failed, results[..i]))
    {
      SampleRowsSnoc(id, vars, failed, results, i);
      AppendedRowsConcat(t, SampleRows(id, vars, failed, results[..i]), MetricRows(id, vars, failed, results[i].0, results[i].1));
      r := AppendMetric(r, id, vars, failed, results[i].0, results[i].1);
    }
    assert results[..|results|] == results;
  }

  lemma ColumnOfSnocCell(rows: seq<Row>, row: Row, k: string, c: Cell)
    requires Get(row, k) == Some(c)
    ensures ColumnOf(rows + [row], k) == ColumnOf(rows, k) + [c]
  {
    ColumnOfSnoc(rows, row, k);
  }

  /** A row whose column names are distinct. */
  lemma RowUnique(id: nat, vars: Row, failed: bool, metric: string, stage: string, value: Option<real>)
    requires DistinctNames(RowKeys(vars))
    ensures UniqueKeys(ResultRow(id, vars, failed, metric, stage, value))
  {
    var row := ResultRow(id, vars, failed, metric, stage, value);
    assert forall i :: 0 <= i < |row| ==> Keys(row)[i] == row[i].0;
  }

  /** A row with distinct column names holds the failure flag and the
      result under their columns. */
  lemma RowCells(id: nat, vars: Row, failed: bool, metric: string, stage: string, value: Option<real>)
    requires DistinctNames(RowKeys(vars))
    ensures Get(ResultRow(id, vars, failed, metric, stage, value), HasFailedColumn) == Some(FlagCell(failed))
    ensures Get(ResultRow(id, vars, failed, metric, stage, value), ResultColumn) == Some(ResultCell(value))
  {
    RowUnique(id, vars, failed, metric, stage, value);
    var row := ResultRow(id, vars, failed, metric, stage, value);
    var n := |vars|;
    assert row[n + 1].0 == HasFailedColumn && row[n + 4].0 == ResultColumn;
    assert IndexOf(row, HasFailedColumn) == n + 1;
    assert IndexOf(row, ResultColumn) == n + 4;
  }

  /** Every cell is the flag `b`. */
  predicate AllFlags(cells: seq<Cell>, b: bool)
  {
    forall i :: 0 <= i < |cells| ==> cells[i] == FlagCell(b)
  }

  /** The cells under `k` of two runs of rows, one after the other. */
  lemma {:induction false} ColumnOfConcat(a: seq<Row>, b: seq<Row>, k: string)
    ensures ColumnOf(a + b, k) == ColumnOf(a, k) + ColumnOf(b, k)
    decreases |b|
  {
    if b == [] {
      assert a + b == a;
    } else {
      var n := |b| - 1;
      ColumnOfConcat(a, b[..n], k);
      assert a + b == (a + b[..n]) + [b[n]];
      ColumnOfSnoc(a + b[..n], b[n], k);
    }
  }

  /** A sample adds its results, in order, to the result column, and its
      failure flag once per row to the failure column, when the row's
      column names are distinct. */
  lemma {:induction false} SampleColumns(id: nat, vars: Row, failed: bool, results: MetricResults)
    requires DistinctNames(RowKeys(vars))
    ensures ColumnOf(SampleRows(id, vars, failed, results), ResultColumn) == ResultCells(results)
    ensures |ColumnOf(SampleRows(id, vars, failed, results), HasFailedColumn)| == RowCount(results)
    ensures AllFlags(ColumnOf(SampleRows(id, vars, failed, results), HasFailedColumn), failed)
    decreases |results|
  {
    if results != [] {
      var n := |results| - 1;
      var before := SampleRows(id, vars, failed, results[..n]);
      var rows := MetricRows(id, vars, failed, results[n].0, results[n].1);
      SampleColumns(id, vars, failed, results[..n]);
      MetricResultColumn(id, vars, failed, results[n].0, results[n].1);
      MetricFlagColumn(id, vars, failed, results[n].0, results[n].1);
      ColumnOfConcat(before, rows, ResultColumn);
      ColumnOfConcat(before, rows, HasFailedColumn);
    }
  }

  /** The last stage's row adds its cell to column `k`. */
  lemma MetricRowsColumnSnoc(id: nat, vars: Row, failed: bool, metric: string, ms: Measurements, k: string, c: Cell)
    requires ms != []
    requires Get(ResultRow(id, vars, failed, metric, ms[|ms| - 1].0, ms[|ms| - 1].1), k) == Some(c)
    ensures ColumnOf(MetricRows(id, vars, failed, metric, ms), k)
            == ColumnOf(MetricRows(id, vars, failed, metric, ms[..|ms| - 1]), k) + [c]
  {
    var n := |ms| - 1;
    var row := ResultRow(id, vars, failed, metric, ms[n].0, ms[n].1);
    ColumnOfSnocCell(MetricRows(id, vars, failed, metric, ms[..n]), row, k, c);
  }

  /** The rows of one metric hold its stage results, in order, under the
      result column. */
  lemma {:induction false} MetricResultColumn(id: nat, vars: Row, failed: bool, metric: string, ms: Measurements)
    requires DistinctNames(RowKeys(vars))
    ensures ColumnOf(MetricRows(id, vars, failed, metric, ms), ResultColumn) == StageCells(ms)
    decreases |ms|
  {
    if ms != [] {
      var n := |ms| - 1;
      MetricResultColumn(id, vars, failed, metric, ms[..n]);
      RowCells(id, vars, failed, metric, ms[n].0, ms[n].1);
      MetricRowsColumnSnoc(id, vars, failed, metric, ms, ResultColumn, ResultCell(ms[n].1));
    }
  }

  /** The rows of one metric hold the failure flag once per stage. */
  lemma {:induction false} MetricFlagColumn(id: nat, vars: Row, failed: bool, metric: string, ms: Measurements)
    requires DistinctNames(RowKeys(vars))
    ensures |ColumnOf(MetricRows(id, vars, failed, metric, ms), HasFailedColumn)| == |ms|
    ensures AllFlags(ColumnOf(MetricRows(id, vars, failed, metric, ms), HasFailedColumn), failed)
    decreases |ms|
  {
    if ms != [] {
      var n := |ms| - 1;
      var before := ColumnOf(MetricRows(id, vars, failed, metric, ms[..n]), HasFailedColumn);
      MetricFlagColumn(id, vars, failed, metric, ms[..n]);
      RowCells(id, vars, failed, metric, ms[n].0, ms[n].1);
      MetricRowsColumnSnoc(id, vars, failed, metric, ms, HasFailedColumn, FlagCell(failed));
      AllFlagsSnoc(before, failed);
    }
  }

  lemma AllFlagsSnoc(cells: seq<Cell>, b: bool)
    requires AllFlags(cells, b)
    ensures AllFlags(cells + [FlagCell(b)], b)
  {
  }

  /** Every row of a metric has the columns `RowKeys(vars)`, each once. */
  lemma {:induction false} MetricRowsShape(id: nat, vars: Row, failed: bool, metric: string, ms: Measurements)
    requires DistinctNames(RowKeys(vars))
    ensures forall i :: 0 <= i < |ms| ==>
              UniqueKeys(MetricRows(id, vars, failed, metric, ms)[i])
              && Keys(MetricRows(id, vars, failed, metric, ms)[i]) == RowKeys(vars)
    decreases |ms|
  {
    if ms != [] {
      var n := |ms| - 1;
      MetricRowsShape(id, vars, failed, metric, ms[..n]);
      RowUnique(id, vars, failed, metric, ms[n].0, ms[n].1);
      var init := MetricRows(id, vars, failed, metric, ms[..n]);
      var rows := MetricRows(id, vars, failed, metric, ms);
      assert rows == init + [ResultRow(id, vars, failed, metric, ms[n].0, ms[n].1)];
      forall i | 0 <= i < |rows|
        ensures UniqueKeys(rows[i]) && Keys(rows[i]) == RowKeys(vars)
      {
        if i < n {
          assert rows[i] == init[i];
          assert UniqueKeys(init[i]) && Keys(init[i]) == RowKeys(vars);
        }
      }
    }
  }

  /** Every row of a sample has the columns `RowKeys(vars)`, each once. */
  lemma {:induction false} SampleRowsShape(id: nat, vars: Row, failed: bool, results: MetricResults)
    requires DistinctNames(RowKeys(vars))
    ensures forall i :: 0 <= i < RowCount(results) ==>
              UniqueKeys(SampleRows(id, vars, failed, results)[i])
              && Keys(SampleRows(id, vars, failed, results)[i]) == RowKeys(vars)
    decreases |results|
  {
    if results != [] {
      var n := |results| - 1;
      SampleRowsShape(id, vars, failed, results[..n]);
      MetricRowsShape(id, vars, failed, results[n].0, results[n].1);
      var before := SampleRows(id, vars, failed, results[..n]);
      var rows := MetricRows(id, vars, failed, results[n].0, results[n].1);
      var all := SampleRows(id, vars, failed, results);
      assert all == before + rows;
      forall i | 0 <= i < |all|
        ensures UniqueKeys(all[i]) && Keys(all[i]) == RowKeys(vars)
      {
        if i < |before| {
          assert all[i] == before[i];
          assert UniqueKeys(before[i]) && Keys(before[i]) == RowKeys(vars);
        } else {
          assert all[i] == rows[i - |before|];
          assert UniqueKeys(rows[i - |before|]) && Keys(rows[i - |before|]) == RowKeys(vars);
        }
      }
    }
  }

  /** A table whose columns are exactly among `keys`, each present column
      holding as many cells as the id column. */
  ghost predicate Rectangular(t: Table, keys: seq<string>)
  {
    && UniqueKeys(t)
    && (forall k :: HasKey(t, k) ==> k in keys)
    && (forall k :: k in keys ==> |ColumnAt(t, k)| == |ColumnAt(t, BenchmarkIdColumn)|)
  }

  /** Lines 263-273 (src/benchmarker/execute.py) and 386-411
      (src/benchalot/execute.py) keep the table rectangular when every row
      has the same distinct columns: each column grows by one cell per
      (metric, stage) pair. */
  lemma SampleKeepsRectangular(t: Table, id: nat, vars: Row, failed: bool, results: MetricResults)
    ensures DistinctNames(RowKeys(vars)) && Rectangular(t, RowKeys(vars)) ==>
      && Rectangular(AppendedRows(t, SampleRows(id, vars, failed, results)), RowKeys(vars))
      && |ColumnAt(AppendedRows(t, SampleRows(id, vars, failed, results)), BenchmarkIdColumn)|
         == |ColumnAt(t, BenchmarkIdColumn)| + RowCount(results)
  {
    var keys := RowKeys(vars);
    if DistinctNames(keys) && Rectangular(t, keys) {
      var rows := SampleRows(id, vars, failed, results);
      SampleRowsShape(id, vars, failed, results);
      assert keys[0] == BenchmarkIdColumn;
      RowsKeepAligned(t, rows, keys, |ColumnAt(t, BenchmarkIdColumn)|);
    }
  }

  /** The same lines append the sample's results, in reporting order, to
      the result column, and its failure flag once per row to the failure
      column. */
  lemma SampleAppendsResults(t: Table, id: nat, vars: Row, failed: bool, results: MetricResults)
    requires DistinctNames(RowKeys(vars)) && UniqueKeys(t)
    ensures var r := AppendedRows(t, SampleRows(id, vars, failed, results));
      && ColumnAt(r, ResultColumn) == ColumnAt(t, ResultColumn) + ResultCells(results)
      && |ColumnAt(r, HasFailedColumn)| == |ColumnAt(t, HasFailedColumn)| + RowCount(results)
      && ColumnAt(r, HasFailedColumn)[..|ColumnAt(t, HasFailedColumn)|] == ColumnAt(t, HasFailedColumn)
      && AllFlags(ColumnAt(r, HasFailedColumn)[|ColumnAt(t, HasFailedColumn)|..], failed)
  {
    var rows := SampleRows(id, vars, failed, results);
    SampleRowsShape(id, vars, failed, results);
    SampleColumns(id, vars, failed, results);
    AppendedRowsColumn(t, rows, ResultColumn);
    AppendedRowsColumn(t, rows, HasFailedColumn);
    var before := ColumnAt(t, HasFailedColumn);
    var added := ColumnOf(rows, HasFailedColumn);
    assert (before + added)[|before|..] == added;
  }
}

=== FILE: interpolate.dfy ===
/**
 * Template interpolation of src/benchmarker/interpolate.py: every match of
 * `VAR_REGEX = {{([a-zA-Z0-9_\-.]+)}}` in a command is replaced, left to
 * right, by the `str()` of the variable it names; `{{a.b}}` names field `b`
 * of the dict-valued variable `a`. The rest of the text is copied unchanged
 * and substituted values are never scanned again (one `re.sub` pass).
 *
 * The scan is split in two: `Scan` cuts the text into literal characters and
 * references (what `re.sub` finds), `Render` replaces the references.
 */
module Interpolate {
  import opened Common
  import opened VariableMatrix

  /** The character class `[a-zA-Z0-9_\-.]`. */
  predicate IsNameChar(c: char)
  {
    ('a' <= c <= 'z') || ('A' <= c <= 'Z') || ('0' <= c <= '9') || c == '_' || c == '-' || c == '.'
  }

  /** A reference body: one or more name characters. */
  predicate IsName(n: string)
  {
    |n| >= 1 && forall j :: 0 <= j < |n| ==> IsNameChar(n[j])
  }

  /** Length of the run of name characters that starts at `i`. */
  function NameRun(s: string, i: nat): (n: nat)
    requires i <= |s|
    ensures i + n <= |s|
    ensures forall j :: i <= j < i + n ==> IsNameChar(s[j])
    ensures i + n == |s| || !IsNameChar(s[i + n])
    decreases |s| - i
  {
    if i < |s| && IsNameChar(s[i]) then 1 + NameRun(s, i + 1) else 0
  }

  lemma {:induction false} NameRunExact(s: string, i: nat, k: nat)
    requires i + k <= |s|
    requires forall j :: i <= j < i + k ==> IsNameChar(s[j])
    requires i + k == |s| || !IsNameChar(s[i + k])
    ensures NameRun(s, i) == k
    decreases k
  {
    if k > 0 {
      NameRunExact(s, i + 1, k - 1);
    }
  }

  /** `VAR_REGEX` matches at the start of `s`, capturing `n` characters. */
  ghost predicate RegexMatchesAt(s: string, n: nat)
  {
    && n >= 1 && n + 4 <= |s|
    && s[0] == '{' && s[1] == '{'
    && (forall j :: 2 <= j < 2 + n ==> IsNameChar(s[j]))
    && s[2 + n] == '}' && s[3 + n] == '}'
  }

  /** The scanner's test at the start of `s`: the length of the captured
      name when a reference starts there. */
  function MatchLength(s: string): Option<nat>
  {
    if |s| >= 2 && s[0] == '{' && s[1] == '{' then
      var n := NameRun(s, 2);
      if n >= 1 && n + 4 <= |s| && s[2 + n] == '}' && s[3 + n] == '}' then Some(n) else None
    else None
  }

  /** The scanner agrees with the regular expression: it reports a match of
      length `n` exactly when the regex matches with `n` captured
      characters (so the match, when there is one, is unique). */
  lemma MatchLengthIsRegex(s: string, n: nat)
    ensures MatchLength(s) == Some(n) <==> RegexMatchesAt(s, n)
  {
    if RegexMatchesAt(s, n) {
      NameRunExact(s, 2, n);
    }
  }

  /** A piece of a template: a literal character or a reference. */
  datatype Piece = Lit(c: char) | Ref(name: string)

  /** The pieces `re.sub` sees, left to right: at each position either a
      match (which is consumed whole) or one literal character. */
  function Scan(s: string): seq<Piece>
    decreases |s|
  {
    if s == [] then []
    else match MatchLength(s)
      case Some(n) => [Ref(s[2..2 + n])] + Scan(s[n + 4..])
      case None => [Lit(s[0])] + Scan(s[1..])
  }

  /** Every reference the scan reports has a well-formed name. */
  lemma {:induction false} ScanNames(s: string)
    ensures forall i :: 0 <= i < |Scan(s)| && Scan(s)[i].Ref? ==> IsName(Scan(s)[i].name)
    decreases |s|
  {
    if s != [] {
      match MatchLength(s)
      case Some(n) =>
        ScanNames(s[n + 4..]);
        assert IsName(s[2..2 + n]);
      case None =>
        ScanNames(s[1..]);
    }
  }

  function PieceText(p: Piece): string
  {
    match p
    case Lit(c) => [c]
    case Ref(n) => "{{" + n + "}}"
  }

  function Source(ps: seq<Piece>): string
  {
    if ps == [] then "" else PieceText(ps[0]) + Source(ps[1..])
  }

  lemma SourceAppend(a: seq<Piece>, b: seq<Piece>)
    ensures Source(a + b) == Source(a) + Source(b)
  {
    if a != [] {
      assert (a + b)[1..] == a[1..] + b;
      SourceAppend(a[1..], b);
    } else {
      assert a + b == b;
    }
  }

  lemma SourceCons(p: Piece, ps: seq<Piece>)
    ensures Source([p] + ps) == PieceText(p) + Source(ps)
  {
    assert ([p] + ps)[1..] == ps;
  }

  /** A match spans `{{`, the captured name and `}}`. */
  lemma MatchSpelled(s: string, n: nat)
    requires MatchLength(s) == Some(n)
    ensures n + 4 <= |s| && s == PieceText(Ref(s[2..2 + n])) + s[n + 4..]
  {
    assert s == s[..2] + s[2..2 + n] + s[2 + n..n + 4] + s[n + 4..];
    assert s[..2] == "{{" && s[2 + n..n + 4] == "}}";
  }

  /** Nothing is lost or invented by the scan: its pieces spell out the
      template. */
  lemma {:induction false} ScanSource(s: string)
    ensures Source(Scan(s)) == s
    decreases |s|
  {
    if s != [] {
      match MatchLength(s)
      case Some(n) =>
        var rest := Scan(s[n + 4..]);
        assert Scan(s) == [Ref(s[2..2 + n])] + rest;
        ScanSource(s[n + 4..]);
        MatchSpelled(s, n);
        SourceCons(Ref(s[2..2 + n]), rest);
      case None =>
        var rest := Scan(s[1..]);
        assert Scan(s) == [Lit(s[0])] + rest;
        ScanSource(s[1..]);
        SourceCons(Lit(s[0]), rest);
        assert s == [s[0]] + s[1..];
    }
  }

  /** The names `re.findall(VAR_REGEX, s)` returns. */
  function RefNames(ps: seq<Piece>): (names: seq<string>)
    ensures forall i :: 0 <= i < |names| ==> exists j :: 0 <= j < |ps| && ps[j] == Ref(names[i])
    ensures forall j :: 0 <= j < |ps| && ps[j].Ref? ==> ps[j].name in names
  {
    if ps == [] then []
    else (if ps[0].Ref? then [ps[0].name] else []) + RefNames(ps[1..])
  }

  datatype InterpolationError =
    | VariableNotFound(name: string)  // logged as critical, then `exit(1)`
    | NotSubscriptable(name: string)  // `{{a.b}}` where `a` is not a dict: an uncaught TypeError

  /** The replacement for one reference. A name of exactly two
      dot-separated segments selects a field of a dict-valued variable;
      any other name is looked up by its first segment only. */
  function Resolve(name: string, vars: Assignment): Result<string, InterpolationError>
  {
    var parts := Split(name, '.');
    if |parts| == 2 then
      match Get(vars, parts[0])
      case None => Failure(VariableNotFound(name))
      case Some(v) =>
        if v.Dict? then
          match Get(v.items, parts[1])
          case None => Failure(VariableNotFound(name))
          case Some(field) => Success(Show(field))
        else Failure(NotSubscriptable(name))
    else
      match Get(vars, parts[0])
      case None => Failure(VariableNotFound(name))
      case Some(v) => Success(Show(v))
  }

  /** Replaces the references left to right; the first one that cannot be
      resolved ends the process. */
  function Render(ps: seq<Piece>, vars: Assignment): Result<string, InterpolationError>
  {
    if ps == [] then Success("")
    else
      var head := match ps[0] case Lit(c) => Success([c]) case Ref(n) => Resolve(n, vars);
      if head.Failure? then Failure(head.error)
      else
        var tail := Render(ps[1..], vars);
        if tail.Failure? then tail else Success(head.value + tail.value)
  }

  /** `interpolate_variables(s, vars)`. */
  function InterpolateVariables(s: string, vars: Assignment): Result<string, InterpolationError>
  {
    Render(Scan(s), vars)
  }

  /* ---------------------------------------------------------------------- */
  /* Properties                                                               */
  /* ---------------------------------------------------------------------- */

  function Lits(s: string): (ps: seq<Piece>)
    ensures |ps| == |s| && forall i :: 0 <= i < |s| ==> ps[i] == Lit(s[i])
  {
    if s == [] then [] else [Lit(s[0])] + Lits(s[1..])
  }

  predicate ContainsOpenBrace(s: string)
  {
    exists i :: 0 <= i < |s| && s[i] == '{'
  }

  lemma {:induction false} ScanLiteralPrefix(p: string, rest: string)
    requires !ContainsOpenBrace(p)
    ensures Scan(p + rest) == Lits(p) + Scan(rest)
  {
    if p != [] {
      assert (p + rest)[0] == p[0] != '{';
      assert !ContainsOpenBrace(p[1..]);
      ScanLiteralPrefix(p[1..], rest);
      assert MatchLength(p + rest) == None;
      assert (p + rest)[1..] == p[1..] + rest;
      assert Lits(p) == [Lit(p[0])] + Lits(p[1..]);
    } else {
      assert p + rest == rest;
    }
  }

  lemma ScanReference(n: string, rest: string)
    requires IsName(n)
    ensures Scan("{{" + n + "}}" + rest) == [Ref(n)] + Scan(rest)
  {
    var s := "{{" + n + "}}" + rest;
    NameRunExact(s, 2, |n|);
    assert MatchLength(s) == Some(|n|);
    assert s[2..2 + |n|] == n;
    assert s[|n| + 4..] == rest;
  }

  lemma {:induction false} RenderLits(p: string, vars: Assignment)
    ensures Render(Lits(p), vars) == Success(p)
  {
    if p != [] {
      RenderLits(p[1..], vars);
      assert Lits(p)[0] == Lit(p[0]);
      assert Lits(p)[1..] == Lits(p[1..]);
      assert [p[0]] + p[1..] == p;
    }
  }

  /** Rendering is piecewise: the output of a concatenation is the
      concatenation of the outputs, and the first failure wins. */
  lemma {:induction false} RenderAppend(a: seq<Piece>, b: seq<Piece>, vars: Assignment)
    ensures Render(a + b, vars) ==
            (if Render(a, vars).Failure? then Render(a, vars)
             else if Render(b, vars).Failure? then Render(b, vars)
             else Success(Render(a, vars).value + Render(b, vars).value))
  {
    if a != [] {
      assert (a + b)[1..] == a[1..] + b;
      assert (a + b)[0] == a[0];
      RenderAppend(a[1..], b, vars);
      var head := match a[0] case Lit(c) => Success([c]) case Ref(n) => Resolve(n, vars);
      if head.Success? && Render(a[1..], vars).Success? && Render(b, vars).Success? {
        assert head.value + (Render(a[1..], vars).value + Render(b, vars).value)
            == (head.value + Render(a[1..], vars).value) + Render(b, vars).value;
      }
    } else {
      assert a + b == b;
      assert Render(a, vars) == Success("");
      if Render(b, vars).Success? {
        assert "" + Render(b, vars).value == Render(b, vars).value;
      }
    }
  }

  /** A template without `{` is copied unchanged. */
  lemma TextWithoutReferences(s: string, vars: Assignment)
    requires !ContainsOpenBrace(s)
    ensures InterpolateVariables(s, vars) == Success(s)
  {
    ScanLiteralPrefix(s, "");
    assert s + "" == s;
    assert Lits(s) + [] == Lits(s);
    RenderLits(s, vars);
  }

  /** The pieces of `p{{n}}q` when the literal parts hold no `{`. */
  lemma ScanSingleReference(p: string, n: string, q: string)
    requires !ContainsOpenBrace(p) && !ContainsOpenBrace(q) && IsName(n)
    ensures Scan(p + "{{" + n + "}}" + q) == Lits(p) + ([Ref(n)] + Lits(q))
  {
    assert p + "{{" + n + "}}" + q == p + ("{{" + n + "}}" + q);
    ScanLiteralPrefix(p, "{{" + n + "}}" + q);
    ScanReference(n, q);
    ScanLiteralPrefix(q, "");
    assert q + "" == q;
    assert Lits(q) + [] == Lits(q);
  }

  /** One reference followed by literal text renders as the replacement
      followed by the text. */
  lemma RenderReferenceThenText(n: string, q: string, vars: Assignment)
    ensures var r := Resolve(n, vars);
            Render([Ref(n)] + Lits(q), vars) ==
            (if r.Success? then Success(r.value + q) else Failure(r.error))
  {
    RenderAppend([Ref(n)], Lits(q), vars);
    RenderLits(q, vars);
    var r := Resolve(n, vars);
    assert [Ref(n)][1..] == [];
    assert Render([Ref(n)], vars) == (if r.Failure? then Failure(r.error) else Success(r.value + ""));
    if r.Success? {
      assert r.value + "" == r.value;
    }
  }

  /** `p{{n}}q`, with no `{` in the literal parts, becomes `p`, then the
      replacement for `n`, then `q`; the replacement is pasted as it is,
      never scanned for references itself. */
  lemma SingleReference(p: string, n: string, q: string, vars: Assignment)
    requires !ContainsOpenBrace(p) && !ContainsOpenBrace(q) && IsName(n)
    ensures InterpolateVariables(p + "{{" + n + "}}" + q, vars) ==
            (match Resolve(n, vars)
             case Success(v) => Success(p + v + q)
             case Failure(e) => Failure(e))
  {
    ScanSingleReference(p, n, q);
    RenderAppend(Lits(p), [Ref(n)] + Lits(q), vars);
    RenderLits(p, vars);
    RenderReferenceThenText(n, q, vars);
    var r := Resolve(n, vars);
    if r.Success? {
      assert p + (r.value + q) == p + r.value + q;
    }
  }

  /** `{{name}}` for a name without dots is `str(vars[name])`, and a missing
      variable is an error. */
  lemma PlainName(n: string, vars: Assignment)
    requires IsName(n) && '.' !in n
    ensures Resolve(n, vars) ==
            (match Get(vars, n)
             case Some(v) => Success(Show(v))
             case None => Failure(VariableNotFound(n)))
  {
    SplitNoSeparator(n, '.');
  }

  /** `{{a.b}}` for dot-free `a` and `b` is `str(vars[a][b])`; a missing
      variable or field is an error, and so is a variable that is not a
      dict. */
  lemma CompoundName(a: string, b: string, vars: Assignment)
    requires '.' !in a && '.' !in b
    ensures Resolve(a + "." + b, vars) ==
            (match Get(vars, a)
             case None => Failure(VariableNotFound(a + "." + b))
             case Some(v) =>
               if !v.Dict? then Failure(NotSubscriptable(a + "." + b))
               else match Get(v.items, b)
                 case None => Failure(VariableNotFound(a + "." + b))
                 case Some(f) => Success(Show(f)))
  {
    SplitAtSeparator(a, '.', b);
    SplitNoSeparator(b, '.');
  }

  /** Text without `{` in front of a template is copied through unchanged
      and does not affect the rest. */
  lemma LiteralPrefix(p: string, s: string, vars: Assignment)
    requires !ContainsOpenBrace(p)
    ensures InterpolateVariables(p + s, vars) ==
            (match InterpolateVariables(s, vars)
             case Success(v) => Success(p + v)
             case Failure(e) => Failure(e))
  {
    ScanLiteralPrefix(p, s);
    RenderAppend(Lits(p), Scan(s), vars);
    RenderLits(p, vars);
  }
}

=== FILE: legacy_preparation.dfy ===
/**
 * The two older preparation steps, which substitute `$matrix.<name>`
 * placeholders: `prepare_benchmarks` of src/preparation.py, and
 * `name_benchmark_steps`, the metric dispatch and `prepare_benchmarks` of
 * src/benchmarker/preparation.py.
 */
module LegacyPreparation {
  import opened Common
  import opened VariableMatrix
  import opened MatrixSubstitution
  import opened PrepareCommon

  /* ---------------------------------------------------------------------- */
  /* src/preparation.py                                                       */
  /* ---------------------------------------------------------------------- */

  /** A `run` section, or a benchmark built from one: a dict the program
      shares and updates, hence an object. */
  class RunSection {
    var matrix: Option<Assignment>
    var before: Option<seq<string>>
    var benchmark: seq<string>
    var after: Option<seq<string>>

    constructor (matrix: Option<Assignment>, before: Option<seq<string>>, benchmark: seq<string>,
                 after: Option<seq<string>>)
      ensures this.matrix == matrix && this.before == before
      ensures this.benchmark == benchmark && this.after == after
    {
      this.matrix := matrix;
      this.before := before;
      this.benchmark := benchmark;
      this.after := after;
    }
  }

  /** An optional section, substituted when present. */
  function SubstituteSection(section: Option<seq<string>>, c: Assignment): (r: Option<seq<string>>)
    ensures r.Some? <==> section.Some?
    ensures r.Some? ==> r.value == SubstituteAll(section.value, c)
  {
    match section
    case None => None
    case Some(commands) => Some(SubstituteAll(commands, c))
  }

  /** `prepare_benchmarks(config)` of src/preparation.py. Without a matrix
      the one benchmark is the `run` section itself, which gains an empty
      matrix. With one, every combination gets a new benchmark, in product
      order, holding `before` and `after` only when the run section has
      them; the run section is left alone. */
  method PrepareRunBenchmarks(run: RunSection, matrix: Option<Matrix>) returns (benchmarks: seq<RunSection>)
    modifies run
    ensures matrix.None? ==>
              && benchmarks == [run] && run.matrix == Some([])
              && run.before == old(run.before) && run.benchmark == old(run.benchmark) && run.after == old(run.after)
    ensures matrix.Some? ==>
              && unchanged(run)
              && |benchmarks| == Product(matrix.value)
              && forall i :: 0 <= i < |benchmarks| ==>
                   var c := Combinations(matrix.value)[i];
                   && fresh(benchmarks[i])
                   && benchmarks[i].matrix == Some(c)
                   && benchmarks[i].before == SubstituteSection(run.before, c)
                   && benchmarks[i].benchmark == SubstituteAll(run.benchmark, c)
                   && benchmarks[i].after == SubstituteSection(run.after, c)
  {
    if matrix.None? {
      run.matrix := Some([]);
      return [run];
    }
    var combinations := Combinations(matrix.value);
    benchmarks := [];
    for i := 0 to |combinations|
      invariant unchanged(run)
      invariant |benchmarks| == i
      invariant forall j :: 0 <= j < i ==>
                  var c := combinations[j];
                  && fresh(benchmarks[j])
                  && benchmarks[j].matrix == Some(c)
                  && benchmarks[j].before == SubstituteSection(run.before, c)
                  && benchmarks[j].benchmark == SubstituteAll(run.benchmark, c)
                  && benchmarks[j].after == SubstituteSection(run.after, c)
    {
      var c := combinations[i];
      var before: Option<seq<string>> := None;
      if run.before.Some? {
        var commands := PrepareCommands(run.before.value, c);
        before := Some(commands);
      }
      var benchmark := PrepareCommands(run.benchmark, c);
      var after: Option<seq<string>> := None;
      if run.after.Some? {
        var commands := PrepareCommands(run.after.value, c);
        after := Some(commands);
      }
      var prepared := new RunSection(Some(c), before, benchmark, after);
      benchmarks := benchmarks + [prepared];
    }
  }

  /* ---------------------------------------------------------------------- */
  /* src/benchmarker/preparation.py                                           */
  /* ---------------------------------------------------------------------- */

  /** The `benchmark` section: a plain list of commands or named stages. */
  datatype BenchmarkSteps = StepList(commands: seq<string>) | StepDict(stages: Dict<seq<string>>)

  /** The name `name_benchmark_steps` gives to command number `i`. */
  function StepName(i: nat): string
  {
    "step_" + NatToString(i)
  }

  /** Different commands get different step names. */
  lemma StepNamesDistinct(i: nat, j: nat)
    requires i != j
    ensures StepName(i) != StepName(j)
  {
    if StepName(i) == StepName(j) {
      assert StepName(i)[5..] == NatToString(i);
      assert StepName(j)[5..] == NatToString(j);
      NatToStringInjective(i, j);
    }
  }

  /** `name_benchmark_steps`: named stages are returned as they are; a list
      becomes one stage per command, `step_0`, `step_1`, ..., in order,
      each holding that single command. */
  method NameBenchmarkSteps(steps: BenchmarkSteps) returns (named: Dict<seq<string>>)
    ensures steps.StepDict? ==> named == steps.stages
    ensures steps.StepList? ==>
              && |named| == |steps.commands| && UniqueKeys(named)
              && forall i :: 0 <= i < |named| ==> named[i] == (StepName(i), [steps.commands[i]])
  {
    if steps.StepDict? {
      return steps.stages;
    }
    named := [];
    for i := 0 to |steps.commands|
      invariant |named| == i && UniqueKeys(named)
      invariant forall j :: 0 <= j < i ==> named[j] == (StepName(j), [steps.commands[j]])
    {
      assert !HasKey(named, StepName(i)) by {
        forall j | 0 <= j < i
          ensures named[j].0 != StepName(i)
        {
          StepNamesDistinct(j, i);
        }
      }
      named := Put(named, StepName(i), [steps.commands[i]]);
    }
  }

  /** An entry of the `metrics` list: a built-in metric's name or a
      one-entry `{name: command}` custom metric. */
  datatype MetricEntry = Named(name: string) | Custom(entries: Dict<string>)

  /** The function chosen to gather a metric. */
  datatype Gatherer = MeasureTime | GatherStdout | GatherStderr | CustomMetric(command: string, name: string)

  datatype PreparationError =
    | NotACustomMetric(name: string)  // a name other than the built-ins has no `.items()`: AttributeError
    | NoEntry                         // `list(metric.items())[0]` of an empty dict: IndexError
    | MissingKey(key: string)         // a KeyError on the run section
    | ListIndexedByName(name: string) // `run_config["benchmark"][name]` on a list: TypeError

  /** Lines 49-62: `time`, `stdout` and `stderr` pick the built-in
      gatherers; anything else is read as a custom metric's first entry. */
  function GathererFor(m: MetricEntry): (r: Result<Gatherer, PreparationError>)
    ensures m == Named("time") ==> r == Success(MeasureTime)
    ensures m == Named("stdout") ==> r == Success(GatherStdout)
    ensures m == Named("stderr") ==> r == Success(GatherStderr)
    ensures m.Named? && m.name !in {"time", "stdout", "stderr"} ==> r == Failure(NotACustomMetric(m.name))
    ensures m.Custom? ==>
              r == if m.entries == [] then Failure(NoEntry)
                   else Success(CustomMetric(m.entries[0].1, m.entries[0].0))
  {
    match m
    case Named(name) =>
      if name == "time" then Success(MeasureTime)
      else if name == "stdout" then Success(GatherStdout)
      else if name == "stderr" then Success(GatherStderr)
      else Failure(NotACustomMetric(name))
    case Custom(entries) =>
      if entries == [] then Failure(NoEntry)
      else Success(CustomMetric(entries[0].1, entries[0].0))
  }

  /** Lines 47-62: one gatherer per metric, in order. */
  method MetricGatherers(metrics: seq<MetricEntry>) returns (r: Result<seq<Gatherer>, PreparationError>)
    ensures r == MapAll(metrics, GathererFor)
    ensures r.Success? ==> |r.value| == |metrics|
  {
    var gatherers: seq<Gatherer> := [];
    for i := 0 to |metrics|
      invariant |gatherers| == i
      invariant forall j :: 0 <= j < i ==> GathererFor(metrics[j]) == Success(gatherers[j])
    {
      var g := GathererFor(metrics[i]);
      if g.Failure? {
        return Failure(g.error);
      }
      gatherers := gatherers + [g.value];
    }
    MapAllSucceeds(metrics, GathererFor, gatherers);
    return Success(gatherers);
  }

  /** A metric list naming only built-in metrics is always accepted, one
      gatherer per name. */
  lemma BuiltInMetricsAccepted(metrics: seq<MetricEntry>)
    requires forall i :: 0 <= i < |metrics| ==> metrics[i] in {Named("time"), Named("stdout"), Named("stderr")}
    ensures MapAll(metrics, GathererFor).Success?
    ensures |MapAll(metrics, GathererFor).value| == |metrics|
  {
    var gatherers := seq(|metrics|, i requires 0 <= i < |metrics| => GathererFor(metrics[i]).value);
    MapAllSucceeds(metrics, GathererFor, gatherers);
  }

  /** The run section `prepare_benchmarks` receives; it rewrites the
      `benchmark` commands in place when CPUs are isolated. */
  class RunConfig {
    var metrics: seq<MetricEntry>
    var before: Option<seq<string>>
    var benchmark: seq<string>
    var after: Option<seq<string>>

    constructor (metrics: seq<MetricEntry>, before: Option<seq<string>>, benchmark: seq<string>,
                 after: Option<seq<string>>)
      ensures this.metrics == metrics && this.before == before
      ensures this.benchmark == benchmark && this.after == after
    {
      this.metrics := metrics;
      this.before := before;
      this.benchmark := benchmark;
      this.after := after;
    }

    /** Lines 63-65: each command gets the `cset` prefix, in place. */
    method Isolate()
      modifies this
      ensures benchmark == Prefixed(old(benchmark))
      ensures metrics == old(metrics) && before == old(before) && after == old(after)
    {
      for i := 0 to |benchmark|
        invariant |benchmark| == |old(benchmark)|
        invariant forall j :: 0 <= j < i ==> benchmark[j] == CsetPrefix + old(benchmark)[j]
        invariant forall j :: i <= j < |benchmark| ==> benchmark[j] == old(benchmark)[j]
        invariant metrics == old(metrics) && before == old(before) && after == old(after)
      {
        benchmark := benchmark[i := CsetPrefix + benchmark[i]];
      }
    }
  }

  /** A prepared benchmark: a deep copy of the run section with its matrix
      and gatherers, or a new benchmark for one combination. */
  datatype PreparedRun = PreparedRun(
    matrix: Assignment,
    before: Option<seq<string>>,
    benchmark: Option<seq<string>>,
    after: Option<seq<string>>,
    gatherers: seq<Gatherer>)

  /** Lines 66-88 after the isolation step. An empty matrix gives the run
      section's copy. Otherwise each combination needs `before` and `after`
      (a KeyError without them). A non-empty `benchmark` list fails at its
      first command: the right-hand side of lines 84-85 is evaluated
      first, and indexing the list with a string is a TypeError. The
      KeyError on the new benchmark's missing `benchmark` entry would only
      follow for a dict-valued `benchmark`, which the isolation loop of
      lines 63-65 rules out by treating it as a list. Only an empty list
      lets the loop finish. */
  function PreparedRuns(gatherers: seq<Gatherer>, before: Option<seq<string>>, benchmark: seq<string>,
                        after: Option<seq<string>>, matrix: Matrix)
    : (r: Result<seq<PreparedRun>, PreparationError>)
    ensures matrix == [] ==> r == Success([PreparedRun([], before, Some(benchmark), after, gatherers)])
    ensures matrix != [] && Product(matrix) > 0 && benchmark != [] ==> r.Failure?
    ensures matrix != [] && Product(matrix) > 0 && before.Some? && after.Some? && benchmark != [] ==>
              r == Failure(ListIndexedByName(benchmark[0]))
    ensures r.Success? && matrix != [] ==>
              && |r.value| == Product(matrix)
              && forall i :: 0 <= i < |r.value| ==>
                   r.value[i].matrix == Combinations(matrix)[i] && r.value[i].benchmark.None?
  {
    if matrix == [] then Success([PreparedRun([], before, Some(benchmark), after, gatherers)])
    else
      var combinations := Combinations(matrix);
      if combinations == [] then Success([])
      else if before.None? then Failure(MissingKey("before"))
      else if after.None? then Failure(MissingKey("after"))
      else if benchmark != [] then Failure(ListIndexedByName(benchmark[0]))
      else
        Success(seq(|combinations|, i requires 0 <= i < |combinations| =>
          PreparedRun(combinations[i], Some(SubstituteAll(before.value, combinations[i])), None,
                      Some(SubstituteAll(after.value, combinations[i])), gatherers)))
  }

  /** `prepare_benchmarks(run_config, matrix, isolate_cpus)` of
      src/benchmarker/preparation.py. The metrics are dispatched first (a
      bad entry fails before anything changes); then the run section's
      commands are prefixed in place when CPUs are isolated, and the
      benchmarks are built from the section as it then is. */
  method PrepareBenchmarks(run: RunConfig, matrix: Matrix, isolateCpus: bool)
    returns (r: Result<seq<PreparedRun>, PreparationError>)
    modifies run
    ensures MapAll(old(run.metrics), GathererFor).Failure? ==>
              unchanged(run) && r == Failure(MapAll(old(run.metrics), GathererFor).error)
    ensures MapAll(old(run.metrics), GathererFor).Success? ==>
              && run.metrics == old(run.metrics) && run.before == old(run.before) && run.after == old(run.after)
              && run.benchmark == (if isolateCpus then Prefixed(old(run.benchmark)) else old(run.benchmark))
              && r == PreparedRuns(MapAll(old(run.metrics), GathererFor).value, run.before, run.benchmark,
                                   run.after, matrix)
  {
    var gatherers := MetricGatherers(run.metrics);
    if gatherers.Failure? {
      return Failure(gatherers.error);
    }
    if isolateCpus {
      run.Isolate();
    }
    if matrix == [] {
      return Success([PreparedRun([], run.before, Some(run.benchmark), run.after, gatherers.value)]);
    }
    r := PrepareMatrixRuns(gatherers.value, run.before, run.benchmark, run.after, matrix);
  }

  /** Lines 73-88: one new benchmark per combination. */
  method PrepareMatrixRuns(gatherers: seq<Gatherer>, before: Option<seq<string>>, benchmark: seq<string>,
                           after: Option<seq<string>>, matrix: Matrix)
    returns (r: Result<seq<PreparedRun>, PreparationError>)
    requires matrix != []
    ensures r == PreparedRuns(gatherers, before, benchmark, after, matrix)
  {
    var combinations := Combinations(matrix);
    var benchmarks: seq<PreparedRun> := [];
    for i := 0 to |combinations|
      invariant |benchmarks| == i
      invariant i > 0 ==> before.Some? && after.Some? && benchmark == []
      invariant forall j :: 0 <= j < i ==>
                  benchmarks[j] == PreparedRun(combinations[j], Some(SubstituteAll(before.value, combinations[j])),
                                               None, Some(SubstituteAll(after.value, combinations[j])), gatherers)
    {
      var c := combinations[i];
      if before.None? {
        return Failure(MissingKey("before"));
      }
      var prepared := PrepareCommands(before.value, c);
      if after.None? {
        return Failure(MissingKey("after"));
      }
      var concluded := PrepareCommands(after.value, c);
      if benchmark != [] {
        return Failure(ListIndexedByName(benchmark[0]));
      }
      benchmarks := benchmarks + [PreparedRun(c, Some(prepared), None, Some(concluded), gatherers)];
    }
    if combinations != [] {
      assert benchmarks == PreparedRuns(gatherers, before, benchmark, after, matrix).value;
    }
    return Success(benchmarks);
  }
}

=== FILE: matrix_substitution.dfy ===
/**
 * The older `$matrix.<name>` substitution: `prepare_command` in src/main.py,
 * and the `prepare_commands` helper shared, word for word, by
 * src/preparation.py and src/benchmarker/preparation.py. For each variable
 * of the combination, in order, every occurrence of `$matrix.<name>` is
 * replaced by `str(value)` with Python's `str.replace`.
 */
module MatrixSubstitution {
  import opened Common
  import opened VariableMatrix

  /** `pat` occurs in `s` at position `i`. */
  predicate OccursAt(s: string, pat: string, i: nat)
  {
    i + |pat| <= |s| && s[i..i + |pat|] == pat
  }

  predicate Occurs(s: string, pat: string)
  {
    exists i :: 0 <= i <= |s| && OccursAt(s, pat, i)
  }

  /** `s.replace(pat, rep)` for a non-empty pattern: occurrences are found
      left to right and do not overlap. */
  function ReplaceAll(s: string, pat: string, rep: string): string
    requires |pat| > 0
    decreases |s|
  {
    if |s| < |pat| then s
    else if s[..|pat|] == pat then rep + ReplaceAll(s[|pat|..], pat, rep)
    else [s[0]] + ReplaceAll(s[1..], pat, rep)
  }

  /** Text without the pattern is returned unchanged. */
  lemma {:induction false} ReplaceAbsent(s: string, pat: string, rep: string)
    requires |pat| > 0 && !Occurs(s, pat)
    ensures ReplaceAll(s, pat, rep) == s
    decreases |s|
  {
    if |s| >= |pat| {
      assert !OccursAt(s, pat, 0);
      assert !Occurs(s[1..], pat) by {
        forall i | 0 <= i <= |s[1..]|
          ensures !OccursAt(s[1..], pat, i)
        {
          assert !OccursAt(s, pat, i + 1);
          if i + |pat| <= |s[1..]| {
            assert s[1..][i..i + |pat|] == s[i + 1..i + 1 + |pat|];
          }
        }
      }
      ReplaceAbsent(s[1..], pat, rep);
      assert [s[0]] + s[1..] == s;
    }
  }

  /** Replacing a pattern by itself changes nothing. */
  lemma {:induction false} ReplaceBySelf(s: string, pat: string)
    requires |pat| > 0
    ensures ReplaceAll(s, pat, pat) == s
    decreases |s|
  {
    if |s| >= |pat| {
      if s[..|pat|] == pat {
        ReplaceBySelf(s[|pat|..], pat);
        assert s[..|pat|] + s[|pat|..] == s;
      } else {
        ReplaceBySelf(s[1..], pat);
        assert [s[0]] + s[1..] == s;
      }
    }
  }

  lemma OccursShift(s: string, pat: string, j: nat)
    requires |s| > 0
    ensures OccursAt(s, pat, j + 1) <==> OccursAt(s[1..], pat, j)
  {
    if j + 1 + |pat| <= |s| {
      assert s[1..][j..j + |pat|] == s[j + 1..j + 1 + |pat|];
    }
  }

  /** The leftmost occurrence is replaced, the text before it is kept, and
      the search resumes after it: occurrences never overlap. */
  lemma {:induction false} ReplaceLeftmost(s: string, pat: string, rep: string, i: nat)
    requires |pat| > 0 && OccursAt(s, pat, i)
    requires forall j :: 0 <= j < i ==> !OccursAt(s, pat, j)
    ensures ReplaceAll(s, pat, rep) == s[..i] + rep + ReplaceAll(s[i + |pat|..], pat, rep)
    decreases i
  {
    var rest := ReplaceAll(s[i + |pat|..], pat, rep);
    if i == 0 {
      assert s[..|pat|] == pat;
      assert ReplaceAll(s, pat, rep) == rep + rest;
      assert s[..i] + rep == rep;
    } else {
      var t := s[1..];
      LeftmostInTail(s, pat, i);
      assert ReplaceAll(s, pat, rep) == [s[0]] + ReplaceAll(t, pat, rep);
      ReplaceLeftmost(t, pat, rep, i - 1);
      assert t[i - 1 + |pat|..] == s[i + |pat|..];
      assert ReplaceAll(t, pat, rep) == t[..i - 1] + rep + rest;
      ConsPrefix(s, i, rep, rest);
    }
  }

  /** An occurrence at `i > 0` with none before it is, in the text after
      the first character, one at `i - 1` with none before it; the text
      does not start with the pattern. */
  lemma LeftmostInTail(s: string, pat: string, i: nat)
    requires |pat| > 0 && i > 0 && OccursAt(s, pat, i)
    requires forall j :: 0 <= j < i ==> !OccursAt(s, pat, j)
    ensures |s| >= |pat| && s[..|pat|] != pat
    ensures OccursAt(s[1..], pat, i - 1)
    ensures forall j :: 0 <= j < i - 1 ==> !OccursAt(s[1..], pat, j)
  {
    assert !OccursAt(s, pat, 0);
    OccursShift(s, pat, i - 1);
    forall j | 0 <= j < i - 1
      ensures !OccursAt(s[1..], pat, j)
    {
      OccursShift(s, pat, j);
    }
  }

  /** The first character, then the first `i - 1` of the rest, is the
      first `i`. */
  lemma ConsPrefix(s: string, i: nat, rep: string, rest: string)
    requires 0 < i <= |s|
    ensures [s[0]] + (s[1..][..i - 1] + rep + rest) == s[..i] + rep + rest
  {
    assert [s[0]] + s[1..][..i - 1] == s[..i];
  }

  /** The placeholder for variable `name`. */
  function Placeholder(name: string): (p: string)
    ensures |p| > 0
  {
    "$matrix." + name
  }

  /** The command after substituting the first `|c|` variables of a
      combination, one after the other. */
  function Substitute(command: string, c: Assignment): string
  {
    if c == [] then command
    else
      var last := c[|c| - 1];
      ReplaceAll(Substitute(command, c[..|c| - 1]), Placeholder(last.0), Show(last.1))
  }

  /** The inner `prepare_command` of `prepare_commands`: one `str.replace`
      per variable, in combination order. */
  method SubstituteCommand(command: string, c: Assignment) returns (r: string)
    ensures r == Substitute(command, c)
  {
    r := command;
    var i := 0;
    while i < |c|
      invariant 0 <= i <= |c|
      invariant r == Substitute(command, c[..i])
    {
      assert c[..i + 1][..i] == c[..i];
      r := ReplaceAll(r, Placeholder(c[i].0), Show(c[i].1));
      i := i + 1;
    }
    assert c[..|c|] == c;
  }

  /** A command without the `$matrix.` marker is left as it is. */
  lemma {:induction false} SubstituteWithoutMarker(command: string, c: Assignment)
    requires !Occurs(command, "$matrix.")
    ensures Substitute(command, c) == command
  {
    if c != [] {
      SubstituteWithoutMarker(command, c[..|c| - 1]);
      var p := Placeholder(c[|c| - 1].0);
      assert !Occurs(command, p) by {
        forall i | 0 <= i <= |command|
          ensures !OccursAt(command, p, i)
        {
          assert !OccursAt(command, "$matrix.", i);
          if i + |p| <= |command| {
            assert command[i..i + |p|][..8] == command[i..i + 8];
          }
        }
      }
      ReplaceAbsent(command, p, Show(c[|c| - 1].1));
    }
  }

  /** Substitution is sequential, not simultaneous: a variable whose name
      is a prefix of a later one captures the later placeholder. */
  lemma PrefixNameCaptures()
    ensures Substitute("$matrix.ab", [("a", Str("1")), ("ab", Str("2"))]) == "1b"
  {
    var c := [("a", Str("1")), ("ab", Str("2"))];
    assert c[..1] == [("a", Str("1"))];
    assert c[..1][..0] == [];
    var s1 := ReplaceAll("$matrix.ab", "$matrix.a", "1");
    assert "$matrix.ab"[..9] == "$matrix.a";
    assert "$matrix.ab"[9..] == "b";
    assert s1 == "1b";
    assert !Occurs("1b", "$matrix.ab");
    ReplaceAbsent("1b", "$matrix.ab", "2");
  }

  /** The value `prepare_commands` computes: each command substituted,
      count and order kept. */
  function SubstituteAll(commands: seq<string>, c: Assignment): (r: seq<string>)
    ensures |r| == |commands|
    ensures forall i :: 0 <= i < |r| ==> r[i] == Substitute(commands[i], c)
  {
    seq(|commands|, i requires 0 <= i < |commands| => Substitute(commands[i], c))
  }

  /** `prepare_commands(commands, c)` (src/preparation.py,
      src/benchmarker/preparation.py), one command at a time. */
  method PrepareCommands(commands: seq<string>, c: Assignment) returns (r: seq<string>)
    ensures |r| == |commands|
    ensures forall i :: 0 <= i < |r| ==> r[i] == Substitute(commands[i], c)
    ensures r == SubstituteAll(commands, c)
  {
    r := [];
    for i := 0 to |commands|
      invariant |r| == i
      invariant forall j :: 0 <= j < i ==> r[j] == Substitute(commands[j], c)
    {
      var command := SubstituteCommand(commands[i], c);
      r := r + [command];
    }
  }

  /** `prepare_command` of src/main.py: the substituted command split on
      single spaces. Joining the words with a space gives the substituted
      command back, and there is one more word than there are spaces. */
  method CommandWords(command: string, c: Assignment) returns (words: seq<string>)
    ensures Join(words, " ") == Substitute(command, c)
    ensures |words| == CountChar(Substitute(command, c), ' ') + 1
    ensures forall i :: 0 <= i < |words| ==> ' ' !in words[i]
  {
    var substituted := SubstituteCommand(command, c);
    words := Split(substituted, ' ');
    SplitJoin(substituted, ' ');
  }
}

=== FILE: output_constants.dfy ===
/**
 * Column names shared by the result table and the configuration checks
 * (src/benchmarker/output_constants.py and src/benchalot/output_constants.py
 * hold the same values). The run's time stamp is read from the clock when
 * the program starts; it is a parameter wherever it is used.
 */
module OutputConstants {
  const TimeStampColumn: string := "datetime"
  const BenchmarkIdColumn: string := "benchmark"
  const HasFailedColumn: string := "failed"
  const MetricColumn: string := "metric"
  const StageColumn: string := "stage"
  const ResultColumn: string := "result"

  /** `CONSTANT_COLUMNS`: the columns every result table has. */
  const ConstantColumns: seq<string> :=
    [BenchmarkIdColumn, TimeStampColumn, HasFailedColumn, MetricColumn, StageColumn, ResultColumn]

  /** `DEFAULT_STAGE_NAME`. */
  const DefaultStageName: string := ""
}

=== FILE: prepare_common.dfy ===
/**
 * The helpers that src/benchmarker/prepare.py and src/benchalot/prepare.py
 * share word for word: `interpolate_commands`, `exclude_combination`,
 * `process_custom_metrics`, and the `cset` prefix put in front of measured
 * commands when CPUs are isolated.
 */
module PrepareCommon {
  import opened Common
  import opened VariableMatrix
  import opened Interpolate

  datatype PrepareError =
    | Unresolved(e: InterpolationError)  // a reference `interpolate_variables` could not resolve
    | EmptyCustomMetric                  // `list(metric.items())[0]` of an empty dict: IndexError

  /** The prefix that runs a measured command inside the isolated CPU set. */
  const CsetPrefix: string := "cset shield --exec -- "

  function Prefixed(commands: seq<string>): (r: seq<string>)
    ensures |r| == |commands|
    ensures forall i :: 0 <= i < |r| ==> r[i] == CsetPrefix + commands[i]
  {
    seq(|commands|, i requires 0 <= i < |commands| => CsetPrefix + commands[i])
  }

  /** Every stage with each of its commands prefixed; stage names and
      order are kept. */
  function IsolateStages(stages: Dict<seq<string>>): (r: Dict<seq<string>>)
    ensures |r| == |stages|
    ensures forall i :: 0 <= i < |r| ==> r[i] == (stages[i].0, Prefixed(stages[i].1))
  {
    seq(|stages|, i requires 0 <= i < |stages| => (stages[i].0, Prefixed(stages[i].1)))
  }

  /** A `benchmark` section, stage name to commands, which
      `prepare_benchmarks` edits in place when CPUs are isolated. */
  class StageTable {
    var stages: Dict<seq<string>>

    constructor (stages: Dict<seq<string>>)
      ensures this.stages == stages
    {
      this.stages := stages;
    }

    /** Every command of every stage gets the `cset` prefix, one element
        at a time. */
    method Isolate()
      modifies this
      ensures stages == IsolateStages(old(stages))
    {
      var n := 0;
      while n < |stages|
        invariant 0 <= n <= |stages| == |old(stages)|
        invariant forall k :: 0 <= k < n ==> stages[k] == (old(stages)[k].0, Prefixed(old(stages)[k].1))
        invariant forall k :: n <= k < |stages| ==> stages[k] == old(stages)[k]
      {
        var i := 0;
        while i < |stages[n].1|
          invariant |stages| == |old(stages)|
          invariant 0 <= i <= |stages[n].1| == |old(stages)[n].1|
          invariant stages[n].0 == old(stages)[n].0
          invariant forall j :: 0 <= j < i ==> stages[n].1[j] == CsetPrefix + old(stages)[n].1[j]
          invariant forall j :: i <= j < |stages[n].1| ==> stages[n].1[j] == old(stages)[n].1[j]
          invariant forall k :: 0 <= k < |stages| && k != n ==> stages[k] == old(stages)[k] || k < n
          invariant forall k :: 0 <= k < n ==> stages[k] == (old(stages)[k].0, Prefixed(old(stages)[k].1))
          invariant forall k :: n < k < |stages| ==> stages[k] == old(stages)[k]
        {
          var commands := stages[n].1;
          stages := stages[n := (stages[n].0, commands[i := CsetPrefix + commands[i]])];
          i := i + 1;
        }
        assert stages[n].1 == Prefixed(old(stages)[n].1);
        n := n + 1;
      }
      assert stages == IsolateStages(old(stages));
    }
  }

  /** The value `interpolate_commands(commands, vars)` computes. */
  function InterpolateAll(commands: seq<string>, vars: Assignment): Result<seq<string>, InterpolationError>
  {
    MapAll(commands, (c: string) => InterpolateVariables(c, vars))
  }

  /** `interpolate_commands`: one interpolated command per input, in order;
      the first unresolvable reference ends the process. */
  method InterpolateCommands(commands: seq<string>, vars: Assignment)
    returns (r: Result<seq<string>, InterpolationError>)
    ensures r == InterpolateAll(commands, vars)
    ensures r.Success? ==> |r.value| == |commands|
  {
    var prepared: seq<string> := [];
    for i := 0 to |commands|
      invariant |prepared| == i
      invariant forall j :: 0 <= j < i ==> InterpolateVariables(commands[j], vars) == Success(prepared[j])
    {
      var command := InterpolateVariables(commands[i], vars);
      if command.Failure? {
        return Failure(command.error);
      }
      prepared := prepared + [command.value];
    }
    MapAllSucceeds(commands, (c: string) => InterpolateVariables(c, vars), prepared);
    return Success(prepared);
  }

  /** Every stage's commands interpolated; names and order are kept. */
  function InterpolateStages(stages: Dict<seq<string>>, c: Assignment): (r: Result<Dict<seq<string>>, InterpolationError>)
    ensures r.Success? ==> Keys(r.value) == Keys(stages)
    ensures r.Success? ==> forall k :: 0 <= k < |stages| ==>
              InterpolateAll(stages[k].1, c) == Success(r.value[k].1)
  {
    MapAll(stages, (st: (string, seq<string>)) =>
      match InterpolateAll(st.1, c)
      case Success(commands) => Success((st.0, commands))
      case Failure(e) => Failure(e))
  }

  /** `bench[name] = interpolate_commands(benchmark[name], c)` for every
      stage, in order. */
  method InterpolateStageCommands(stages: Dict<seq<string>>, c: Assignment)
    returns (r: Result<Dict<seq<string>>, InterpolationError>)
    ensures r == InterpolateStages(stages, c)
  {
    var bench: Dict<seq<string>> := [];
    for k := 0 to |stages|
      invariant |bench| == k
      invariant forall j :: 0 <= j < k ==>
                  InterpolateAll(stages[j].1, c).Success? && bench[j] == (stages[j].0, InterpolateAll(stages[j].1, c).value)
    {
      var commands := InterpolateCommands(stages[k].1, c);
      if commands.Failure? {
        return Failure(commands.error);
      }
      // the names of a dict are distinct, so each assignment adds an entry
      bench := bench + [(stages[k].0, commands.value)];
    }
    MapAllSucceeds(stages, (st: (string, seq<string>)) =>
      match InterpolateAll(st.1, c)
      case Success(commands) => Success((st.0, commands))
      case Failure(e) => Failure(e), bench);
    return Success(bench);
  }

  /** An interpolation failure as a preparation failure. */
  function Lift<T>(r: Result<T, InterpolationError>): Result<T, PrepareError>
  {
    match r
    case Success(v) => Success(v)
    case Failure(e) => Failure(Unresolved(e))
  }

  /** Every key/value pair of `exclusion` is also in `assignment`, the
      values compared with Python's `==`: `exclusion.items() <=
      assignment.items()`. */
  predicate Matches(assignment: Assignment, exclusion: Assignment)
  {
    forall i :: 0 <= i < |exclusion| ==>
      HasKey(assignment, exclusion[i].0) && PyEq(Get(assignment, exclusion[i].0).value, exclusion[i].1)
  }

  /** `exclude_combination`: some exclusion is contained in the
      assignment. */
  function Excluded(assignment: Assignment, exclude: seq<Assignment>): (r: bool)
    ensures r <==> exists i :: 0 <= i < |exclude| && Matches(assignment, exclude[i])
  {
    if exclude == [] then false
    else Matches(assignment, exclude[0]) || Excluded(assignment, exclude[1..])
  }

  /** An exclusion whose entries are literally in the assignment matches
      it. */
  lemma ContainedMatches(assignment: Assignment, exclusion: Assignment)
    requires forall i :: 0 <= i < |exclusion| ==>
               Get(assignment, exclusion[i].0) == Some(exclusion[i].1) && WellFormed(exclusion[i].1)
    ensures Matches(assignment, exclusion)
  {
    forall i | 0 <= i < |exclusion|
      ensures PyEq(exclusion[i].1, exclusion[i].1)
    {
      PyEqReflexive(exclusion[i].1);
    }
  }

  /** An exclusion naming a value as a float excludes the combination
      holding it as an integer, since `1 == 1.0`: `{x: 1.0}` excludes
      `{x: 1}`. */
  lemma FloatExclusionMatchesInt()
    ensures Excluded([("x", Int(1))], [[("x", Float("1.0"))]])
  {
    assert IntToString(1) == "1";
    IntEqualsIntegralFloat(1);
    var assignment: Assignment := [("x", Int(1))];
    assert assignment[0].0 == "x";
    assert IndexOf(assignment, "x") == 0;
    assert Matches(assignment, [("x", Float("1.0"))]);
  }

  /** One entry of `process_custom_metrics`: the first name and command of
      the metric's dict, the command interpolated only when there are
      variables. */
  function CustomMetric(metric: Dict<string>, vars: Assignment): (r: Result<(string, string), PrepareError>)
    ensures metric == [] ==> r == Failure(EmptyCustomMetric)
    ensures metric != [] && vars == [] ==> r == Success(metric[0])
    ensures metric != [] && vars != [] ==>
              r == match InterpolateVariables(metric[0].1, vars)
                   case Success(c) => Success((metric[0].0, c))
                   case Failure(e) => Failure(Unresolved(e))
  {
    if metric == [] then Failure(EmptyCustomMetric)
    else if vars == [] then Success(metric[0])
    else
      match InterpolateVariables(metric[0].1, vars)
      case Success(c) => Success((metric[0].0, c))
      case Failure(e) => Failure(Unresolved(e))
  }

  function CustomMetrics(metrics: seq<Dict<string>>, vars: Assignment): Result<seq<(string, string)>, PrepareError>
  {
    MapAll(metrics, (m: Dict<string>) => CustomMetric(m, vars))
  }

  /** `process_custom_metrics(metrics, vars)`: one `{name: command}` per
      metric, in order, keeping each metric's name; commands are left as
      written when there are no variables. */
  method ProcessCustomMetrics(metrics: seq<Dict<string>>, vars: Assignment)
    returns (r: Result<seq<(string, string)>, PrepareError>)
    ensures r == CustomMetrics(metrics, vars)
    ensures r.Success? ==> |r.value| == |metrics| && forall i :: 0 <= i < |metrics| ==> r.value[i].0 == metrics[i][0].0
    ensures r.Success? && vars == [] ==> forall i :: 0 <= i < |metrics| ==> r.value[i] == metrics[i][0]
  {
    var custom: seq<(string, string)> := [];
    for i := 0 to |metrics|
      invariant |custom| == i
      invariant forall j :: 0 <= j < i ==> CustomMetric(metrics[j], vars) == Success(custom[j])
    {
      if metrics[i] == [] {
        return Failure(EmptyCustomMetric);
      }
      var name := metrics[i][0].0;
      var command := metrics[i][0].1;
      if vars != [] {
        var interpolated := InterpolateVariables(command, vars);
        if interpolated.Failure? {
          return Failure(Unresolved(interpolated.error));
        }
        command := interpolated.value;
      }
      custom := custom + [(name, command)];
    }
    MapAllSucceeds(metrics, (m: Dict<string>) => CustomMetric(m, vars), custom);
    return Success(custom);
  }

  /** Interpolating an isolated command keeps the `cset` prefix in front:
      the prefix holds no reference. */
  lemma IsolatedStaysPrefixed(commands: seq<string>, vars: Assignment)
    requires InterpolateAll(Prefixed(commands), vars).Success?
    ensures forall i :: 0 <= i < |commands| ==>
              InterpolateVariables(commands[i], vars).Success?
              && InterpolateAll(Prefixed(commands), vars).value[i]
                 == CsetPrefix + InterpolateVariables(commands[i], vars).value
  {
    forall i | 0 <= i < |commands|
      ensures InterpolateVariables(commands[i], vars).Success?
              && InterpolateAll(Prefixed(commands), vars).value[i]
                 == CsetPrefix + InterpolateVariables(commands[i], vars).value
    {
      LiteralPrefix(CsetPrefix, commands[i], vars);
    }
  }

  /* ---------------------------------------------------------------------- */
  /* The candidate loop of both `prepare_benchmarks`                          */
  /* ---------------------------------------------------------------------- */

  /** The candidates `skip` does not reject, in order. */
  function Kept(candidates: seq<Assignment>, skip: Assignment -> bool): (r: seq<Assignment>)
    ensures |r| <= |candidates|
    ensures forall c :: c in r <==> c in candidates && !skip(c)
  {
    if candidates == [] then []
    else if skip(candidates[0]) then Kept(candidates[1..], skip)
    else [candidates[0]] + Kept(candidates[1..], skip)
  }

  /** Every candidate that is not skipped, prepared, in order; the first
      failure is the result. */
  function PrepareEach<P>(candidates: seq<Assignment>, skip: Assignment -> bool,
                          prepare: Assignment -> Result<P, PrepareError>)
    : Result<seq<P>, PrepareError>
  {
    if candidates == [] then Success([])
    else if skip(candidates[0]) then PrepareEach(candidates[1..], skip, prepare)
    else
      var first :- prepare(candidates[0]);
      var rest :- PrepareEach(candidates[1..], skip, prepare);
      Success([first] + rest)
  }

  /** A preparation that continues after the benchmarks `done`. */
  function PreparedAfter<P>(done: seq<P>, r: Result<seq<P>, PrepareError>): Result<seq<P>, PrepareError>
  {
    if r.Success? then Success(done + r.value) else r
  }

  /** One more candidate of the preparation loop: skipped, failed, or
      prepared and appended. */
  lemma PrepareEachFrom<P>(candidates: seq<Assignment>, i: nat, skip: Assignment -> bool,
                           prepare: Assignment -> Result<P, PrepareError>, done: seq<P>)
    requires i < |candidates|
    ensures var here := PreparedAfter(done, PrepareEach(candidates[i..], skip, prepare));
      var c := candidates[i];
      && (skip(c) ==> here == PreparedAfter(done, PrepareEach(candidates[i + 1..], skip, prepare)))
      && (!skip(c) && prepare(c).Failure? ==> here == Failure(prepare(c).error))
      && (!skip(c) && prepare(c).Success? ==>
            here == PreparedAfter(done + [prepare(c).value], PrepareEach(candidates[i + 1..], skip, prepare)))
  {
    var rest := candidates[i..];
    assert rest[0] == candidates[i] && rest[1..] == candidates[i + 1..];
    var next := PrepareEach(candidates[i + 1..], skip, prepare);
    if !skip(candidates[i]) && prepare(candidates[i]).Success? && next.Success? {
      var first := prepare(candidates[i]).value;
      assert PrepareEach(rest, skip, prepare) == Success([first] + next.value);
      assert done + ([first] + next.value) == (done + [first]) + next.value;
    }
  }

  /** A successful preparation holds one prepared benchmark per kept
      candidate, in candidate order. */
  lemma {:induction false} PrepareEachFollowsKept<P>(candidates: seq<Assignment>, skip: Assignment -> bool,
                                                    prepare: Assignment -> Result<P, PrepareError>)
    requires PrepareEach(candidates, skip, prepare).Success?
    ensures |PrepareEach(candidates, skip, prepare).value| == |Kept(candidates, skip)|
    ensures forall i :: 0 <= i < |Kept(candidates, skip)| ==>
              prepare(Kept(candidates, skip)[i]) == Success(PrepareEach(candidates, skip, prepare).value[i])
  {
    if candidates != [] {
      PrepareEachFollowsKept(candidates[1..], skip, prepare);
    }
  }

  /** Without anything skipped, every candidate is kept. */
  lemma {:induction false} KeptAll(candidates: seq<Assignment>, skip: Assignment -> bool)
    requires forall c :: c in candidates ==> !skip(c)
    ensures Kept(candidates, skip) == candidates
  {
    if candidates != [] {
      KeptAll(candidates[1..], skip);
      assert [candidates[0]] + candidates[1..] == candidates;
    }
  }
}

=== FILE: streams.dfy ===
/**
 * What the two `FastConsole` classes (src/benchalot/log.py and
 * src/benchmarker/log.py) have in common: the text streams they write to
 * and their buffering rule. A buffer holds text until adding more would
 * reach the capacity of 1024 characters; then the buffer is flushed first
 * and the new text starts the next buffer.
 */
module Streams {
  /** An output stream: the terminal, a log file or a progress bar's
      output. `text` is everything written to it. */
  class Sink {
    const name: string
    var text: string

    constructor (name: string, text: string)
      ensures this.name == name && this.text == text
    {
      this.name := name;
      this.text := text;
    }

    /** `write(s)`: appends. */
    method Write(s: string)
      modifies this
      ensures text == old(text) + s
    {
      text := text + s;
    }
  }

  /** `self.capacity`. */
  const Capacity: nat := 1024

  /** Whether `write(text)` flushes the buffer before adding `text`. */
  predicate Flushes(buffer: string, text: string)
  {
    |buffer| + |text| >= Capacity
  }

  /** One `write(text)` on a buffer: the text flushed out first (possibly
      none) and the new buffer. Nothing is lost or reordered, and the
      buffer stays below capacity unless it holds just a long text. */
  function WriteStep(buffer: string, text: string): (r: (string, string))
    ensures r.0 + r.1 == buffer + text
    ensures |r.1| < Capacity || r.1 == text
    ensures !Flushes(buffer, text) ==> r.0 == "" && r.1 == buffer + text
    ensures Flushes(buffer, text) ==> r.0 == buffer && r.1 == text
  {
    if Flushes(buffer, text) then (buffer, text) else ("", buffer + text)
  }

  /** A sequence of writes starting from an empty buffer. */
  function WriteAll(texts: seq<string>): (string, string)
  {
    if texts == [] then ("", "")
    else
      var before := WriteAll(texts[..|texts| - 1]);
      var step := WriteStep(before.1, texts[|texts| - 1]);
      (before.0 + step.0, step.1)
  }

  function Concat(texts: seq<string>): string
  {
    if texts == [] then "" else Concat(texts[..|texts| - 1]) + texts[|texts| - 1]
  }

  /** Over any number of writes, the text flushed followed by the buffer is
      everything written, in order, and the buffer is below capacity unless
      it holds only the last text. */
  lemma {:induction false} WriteAllKeepsEverything(texts: seq<string>)
    ensures WriteAll(texts).0 + WriteAll(texts).1 == Concat(texts)
    ensures texts != [] ==> |WriteAll(texts).1| < Capacity || WriteAll(texts).1 == texts[|texts| - 1]
    ensures texts == [] ==> WriteAll(texts).1 == ""
  {
    if texts != [] {
      var init := texts[..|texts| - 1];
      WriteAllKeepsEverything(init);
      var before := WriteAll(init);
      var step := WriteStep(before.1, texts[|texts| - 1]);
      calc {
        WriteAll(texts).0 + WriteAll(texts).1;
        (before.0 + step.0) + step.1;
        before.0 + (step.0 + step.1);
        before.0 + (before.1 + texts[|texts| - 1]);
        (before.0 + before.1) + texts[|texts| - 1];
        Concat(texts);
      }
    }
  }
}
